=== FILE: README.md ===
# CompressVideo settings pipeline in Dafny

This project models the decision core of CompressVideo, a Go command-line
tool that compresses video files with ffmpeg. The core is the chain of
pure decisions between probing a video and starting ffmpeg:

- the content analyzer classifies a video by file-name keywords and stream
  properties. It grades the motion and recommends a codec, a bitrate and a
  compression potential. It then turns the analysis into a settings map:
  codec, CRF, preset, profile, level, tune, pixel format, bitrate and audio;
- the compressor adapts that map to the user's `fast`/`balanced`/`thorough`
  preference and turns it into an ffmpeg argument list. It also chooses
  between the single and the segmented parallel path, packs segment
  progress into one integer, aggregates it, and estimates frame quality;
- the typed `CompressionSettings` record converts to and from the map;
- the legacy single-pass encoder maps a quality level to CRF, preset,
  target bitrate and downscale. It builds its own arguments and reads
  ffmpeg's `HH:MM:SS.ss` progress times;
- the report scores a compression, labels its quality, selects
  optimisation tips and names the report file;
- the helpers format sizes, bit rates and durations, and supply the
  operating-system constants;
- the two command-line front ends (`cmd/compressvideo` and the older
  `internal/cmd`) validate flags, name outputs, filter video files,
  resolve the hardware accelerator and choose emoji labels.

The program's I/O is replaced by parameters:

- the file system is the set `existing` of paths `os.Stat` finds, plus
  the set `directories` of those that are directories;
- `runtime.GOOS` is a `goos` string and the environment is a map;
- the ffmpeg measurements (scene changes, frame complexity, probed height)
  and the detected hardware accelerators are inputs;
- the wall clock is an `elapsed` number of seconds.

Go `float64` is modelled as `real`. Go `int`/`int64` is `int`, with the
int64 range stated where parsing saturates or arithmetic wraps around.
Go's truncating `/` and `%` are `Numbers.GoDiv` and `Numbers.GoMod`.

Modules follow the program's structure:

| module | models |
|---|---|
| `Analyzer` | `pkg/analyzer/content_analyzer.go` |
| `Compressor` | `pkg/compressor/compressor.go` |
| `Settings` | `pkg/compressor/compression_settings.go` |
| `FFmpeg` | `pkg/ffmpeg/ffmpeg.go` (options, HDR tag, time parsing, legacy encoder) |
| `Video` | the records of `pkg/ffmpeg/video.go` |
| `Reporter` | `pkg/reporter/reporter.go` |
| `Format` | `pkg/util/format.go` and the `formatSize`/`formatBitrate` copies in both front ends |
| `Progress` | the pure parts of `pkg/util/progressbar.go` |
| `Platform` | `pkg/util/os_specific.go` |
| `Cli` | `cmd/compressvideo/cmd/root.go` |
| `InternalCli` | `internal/cmd/root.go` |
| `Numbers`, `Text`, `Paths`, `Maps`, `Presets`, `Wrappers` | the parts of Go's `strconv`, `fmt`, `strings`, `path/filepath` and map semantics the core relies on; the preset scale; `Option`/`Result` |

## Model

| member | source | states |
|---|---|---|
| Analyzer.ContentTypeNameInjective | pkg/analyzer/content_analyzer.go:35-53 | distinct content types print distinct labels |
| Analyzer.MotionNameInjective | pkg/analyzer/content_analyzer.go:69-83 | distinct motion levels print distinct labels |
| Analyzer.ContainsAny | pkg/analyzer/content_analyzer.go:410-417 | true exactly when some listed substring occurs in the text, so false for an empty list |
| Analyzer.PropertyContentType | pkg/analyzer/content_analyzer.go:202-227 | the property fallback never yields Animation, because the screencast rule already takes every stream the animation rule matches; a screencast has at most 30 fps and gaming exactly 30 or 60 fps |
| Analyzer.DetectContentType | pkg/analyzer/content_analyzer.go:178-228 | the result is never Unknown; the keyword groups of the lower-cased file name decide in the order screencast, animation, gaming, sports, documentary (each type iff its group matches and no earlier group does); a name with no keyword takes the stream-property type, so Gaming also arises from 30 or 60 fps at gaming widths and LiveAction only from the property fallback |
| Analyzer.DetectionSources | pkg/analyzer/content_analyzer.go:178-228 | with a keyword in the file name the stream properties do not matter; without one the name does not matter |
| Analyzer.DetermineMotionComplexity | pkg/analyzer/content_analyzer.go:231-249 | with perMinute the scene changes over `DurationMinutes`: Low iff perMinute < 2 and complexity < 200; Medium iff not Low and perMinute < 5 and complexity < 500; High iff neither and perMinute < 10 and complexity < 1000; VeryHigh otherwise; complexity of 1000 or more is always VeryHigh |
| Analyzer.DurationMinutes | pkg/analyzer/content_analyzer.go:233-236 | the duration in minutes, and exactly one minute for a non-positive duration |
| Analyzer.MotionMonotoneInSceneChanges | pkg/analyzer/content_analyzer.go:231-249 | more scene changes never give a calmer motion level |
| Analyzer.MotionMonotoneInFrameComplexity | pkg/analyzer/content_analyzer.go:231-249 | a higher frame complexity never gives a calmer motion level |
| Analyzer.DetermineOptimalCodec | pkg/analyzer/content_analyzer.go:275-309 | HDR always gets hevc; vp9 exactly for non-HDR animation; screencasts get hevc; gaming and sports get hevc iff height ≥ 1080; other types get hevc iff height ≥ 1440 |
| Analyzer.CalculateOptimalBitrate | pkg/analyzer/content_analyzer.go:312-378 | the bitrate always lies in 500 kbps .. 15 Mbps; it is the truncated raw rate (pixels × fps × content, motion and codec factors) whenever that is in range, 500000 when the raw rate is below it and 15000000 when above |
| Analyzer.OptimalBitrateMotionMonotone | pkg/analyzer/content_analyzer.go:338-377 | for a non-negative pixel rate, more motion never lowers the optimal bitrate |
| Analyzer.SavingPercent | pkg/analyzer/content_analyzer.go:394-397 | a target at or above the source saves nothing; a zero target saves at least 100 percent |
| Analyzer.EstimateCompressionPotential | pkg/analyzer/content_analyzer.go:381-407 | always within 0 .. 95; an unknown source bitrate gives exactly 50 for UHD, 60 for HD and 65 otherwise; for a known one the truncated saving when it is in range, 95 for a saving of 95 or more, 0 for a saving below 1 or a target at or above the source |
| Analyzer.CompressionPotentialMonotone | pkg/analyzer/content_analyzer.go:393-406 | with a known source bitrate, a higher target never promises more saving |
| Analyzer.DefaultFrameComplexity | pkg/analyzer/content_analyzer.go:137-148 | an unmeasured frame complexity is 100 exactly for screencasts, 200 exactly for animation, 500 otherwise |
| Analyzer.AnalyzeVideo | pkg/analyzer/content_analyzer.go:114-175 | the analysis keeps the file; the measured scene changes and frame complexity are kept, a failed measurement gives 0 or the content type's default; HD iff height ≥ 720; UHD iff height ≥ 2160 or width ≥ 3840; motion, codec, bitrate and potential are those the classification functions give for these values |
| Analyzer.SelectCodec | pkg/analyzer/content_analyzer.go:453-467 | libx265 exactly for screencasts and animation, libx264 otherwise |
| Analyzer.CrfValue | pkg/analyzer/content_analyzer.go:470-506 | the CRF always lies in 18 .. 32; it equals the base ± motion and quality adjustments whenever those stay in range, is 18 exactly when they fall below and 32 exactly when they rise above |
| Analyzer.CrfNonIncreasing | pkg/analyzer/content_analyzer.go:494-506 | a higher quality level never raises the CRF |
| Analyzer.CalculateCrf | pkg/analyzer/content_analyzer.go:470-509 | the CRF text is two decimal digits whose value is the CRF |
| Analyzer.CrfTextRoundTrip | pkg/analyzer/content_analyzer.go:508 | both `strconv.Atoi` and `fmt.Sscanf("%d")` read the CRF text back as the CRF |
| Analyzer.SelectPreset | pkg/analyzer/content_analyzer.go:512-534 | the preset table: veryslow iff level 1 with High motion, otherwise slower at 1, slow at 2, fast at 4, ultrafast iff level 5, medium for any other level |
| Analyzer.PresetSpeedsUpWithQuality | pkg/analyzer/content_analyzer.go:512-534 | within levels 1..5, a higher level never picks a slower preset |
| Analyzer.AddCodecSpecificSettings | pkg/analyzer/content_analyzer.go:537-574 | only profile, level, tune, x265-params and pix_fmt change; pix_fmt is always yuv420p; x265 gets profile main, plus zerolatency and bframes=0 for screencasts; x264 gets high/4.1 exactly for gaming and live action, main/3.1 otherwise, and film tuning exactly for live action and documentaries |
| Analyzer.MinBitrateKbps | pkg/analyzer/content_analyzer.go:614-620 | the floor is 2000 kbps iff width ≥ 1920 or height ≥ 1080, and 500 kbps iff below 1280 wide and 720 high |
| Analyzer.OptimalBitrateKbps | pkg/analyzer/content_analyzer.go:608-625 | the kilobit rate is never below the resolution floor and is either the floor or the truncated raw rate |
| Analyzer.OptimalBitrateKbpsMonotone | pkg/analyzer/content_analyzer.go:608-625 | a higher quality level never lowers the kilobit rate |
| Analyzer.CalculateOptimalBitrateString | pkg/analyzer/content_analyzer.go:577-629 | the bitrate setting is a string of decimal digits followed by `k`, and the digits spell the optimal kilobit rate |
| Analyzer.BitrateStringRoundTrip | pkg/analyzer/content_analyzer.go:628 | scanning the bitrate setting as an integer gives back the kilobit rate |
| Analyzer.SetAudioSettings | pkg/analyzer/content_analyzer.go:632-653 | with no audio stream the map is unchanged; otherwise only the audio keys change: aac at 128k for a first stream above 128000 in screencasts or animation, aac at 192k above 192000 in live action or documentaries, copy otherwise |
| Analyzer.EncoderSettings | pkg/analyzer/content_analyzer.go:425-438 | the selected codec, CRF and preset survive the codec-specific step; pix_fmt is yuv420p and no audio key is set |
| Analyzer.VideoSettings | pkg/analyzer/content_analyzer.go:425-444 | the video part of the settings holds codec, CRF, preset, pixel format and the bitrate setting, and no audio key |
| Analyzer.SettingsFor | pkg/analyzer/content_analyzer.go:425-449 | the audio step touches only the audio keys, audio_codec is present iff the video has an audio stream, and every audio key is exactly what the audio step puts on the video settings |
| Analyzer.GetCompressionSettings | pkg/analyzer/content_analyzer.go:420-450 | a missing analysis, and only that, is the error "video analysis is required"; otherwise the map holds codec (libx264 or libx265), a decimal CRF in 18..32, a known preset, pix_fmt yuv420p and a bitrate that is the optimal kilobit rate in decimal followed by `k`; on success the map is the settings map of the analysis |
| Compressor.FasterPreset | pkg/compressor/compressor.go:137-148 | the "fast" preference always yields a known preset that is no slower than the current one, and strictly faster unless already ultrafast; an unknown preset becomes ultrafast |
| Compressor.SlowerPreset | pkg/compressor/compressor.go:152-161 | the "thorough" preference always yields a known preset no faster than the current one, and strictly slower unless already veryslow; an unknown preset becomes veryslow |
| Compressor.ThoroughCrf | pkg/compressor/compressor.go:163-168 | a CRF that reads as more than 20 reads two lower afterwards; any other CRF text is unchanged |
| Compressor.AdjustSettingsForPreset | pkg/compressor/compressor.go:132-172 | "fast" changes only preset and threads, with threads set to the worker count; "thorough" changes only preset and an existing crf; any other preference leaves the map unchanged |
| Compressor.OptionsOrdered | pkg/compressor/compressor.go:603-727 | the emitted options follow the fixed order input, codec, preset, crf, profile, level, tune, codec block, pix_fmt, key frames, audio, threads, bitrate |
| Compressor.OptionsRanksIncrease | pkg/compressor/compressor.go:603-727 | no option is emitted twice, and each comes after every option earlier in that order |
| Compressor.BuildFFmpegArgs | pkg/compressor/compressor.go:603-730 | the arguments are `-y`, `-i input`, each option as a flag/value pair, and the output file last |
| Compressor.PlainOptionEmitted | pkg/compressor/compressor.go:609-724 | each option copied from a setting is emitted exactly when that setting is non-empty, and with its value |
| Compressor.X265ParamsEmitted | pkg/compressor/compressor.go:645-647 | `-x265-params` is emitted exactly for libx265 with non-empty parameters, and with them |
| Compressor.NvencDefaultBitrate | pkg/compressor/compressor.go:655-668 | without a configured bitrate NVENC gets 2M up to 720 lines, 4M up to 1080 lines or when probing failed, and 8M above |
| Compressor.NvencRateControlEmitted | pkg/compressor/compressor.go:647-670 | `-rc vbr` and the NVENC target bitrate are emitted exactly for h264_nvenc and hevc_nvenc |
| Compressor.NvencTuningEmitted | pkg/compressor/compressor.go:672-681 | look-ahead and adaptive quantisation are emitted exactly for the NVENC encoders when not on Windows |
| Compressor.AudioOptionsEmitted | pkg/compressor/compressor.go:697-712 | `-c:a` is emitted whenever an audio codec is set; `-b:a` only with a codec other than copy, and only when set |
| Compressor.EstimateFrameQuality | pkg/compressor/compressor.go:733-770 | the estimate always lies in 0 .. 100 and is 0 for any codec other than x264, x265 and VP9; for x264 a missing or unparsable CRF gives the estimate at CRF 23 |
| Compressor.AssumedCrf | pkg/compressor/compressor.go:735-743 | the CRF is the parsed setting when it parses, 23 otherwise |
| Compressor.QualityFor | pkg/compressor/compressor.go:745-767 | the quality lies in 0 .. 100, is 0 for an unknown codec, and is the linear estimate 100 − crf × slope whenever that lies in range, 0 below and 100 above |
| Compressor.FrameQualityNonIncreasingInCrf | pkg/compressor/compressor.go:733-770 | a higher integer CRF never raises the frame-quality estimate |
| Compressor.SegmentCount | pkg/compressor/compressor.go:309-312 | the segment count is the worker count capped at 8 |
| Compressor.SegmentSettings | pkg/compressor/compressor.go:368-374 | a segment's settings are the video's, with a key frame forced at the segment's first frame |
| Compressor.UnpackPack | pkg/compressor/compressor.go:338-339 | unpacking a report gives back segment and progress when the progress fits in 16 bits |
| Compressor.PackWideProgress | pkg/compressor/compressor.go:783-788 | a progress wider than 16 bits spills into the segment number: its high bits are or-ed into the segment and only its low 16 bits come back as progress |
| Compressor.AverageProgressBounds | pkg/compressor/compressor.go:344-350 | with segments in 0..100 percent, the overall progress lies in 0..90 and is 90 exactly when every segment is complete |
| Compressor.AggregateStep | pkg/compressor/compressor.go:337-353 | a report for a missing segment is an index failure; otherwise it replaces that segment's entry, and the average is passed on exactly when below 90 |
| Compressor.AggregateStepReports | pkg/compressor/compressor.go:350-353 | a report is suppressed exactly when it leaves every segment complete; a passed-on value lies in 0..89 |
| Compressor.AggregateReportsInRange | pkg/compressor/compressor.go:335-355 | every value the aggregator passes on lies in 0..89 |
| Compressor.ParallelProgress | pkg/compressor/compressor.go:335-422 | the main goroutine's own updates are 90 once all segments succeeded and then 100 once the merge succeeded; every aggregated value is below 90; in the modelled interleaving, where the aggregator has drained every report first, those values come before the 90 |
| Settings.NewCompressionSettings | pkg/compressor/compression_settings.go:39-48 | the defaults are h264, CRF 23, medium, no bitrate, aac at 128000, no codec parameters or extras |
| Settings.ParseFormatInt | pkg/compressor/compression_settings.go:133-151 | `parseInt` reads back every int64 that `formatInt` renders |
| Settings.FromMap | pkg/compressor/compression_settings.go:51-103 | codec, preset, audio_codec and codec_params come from their keys or default to h264, medium, aac and empty; crf, bitrate and audio_bitrate come from their keys when they parse as an int64, else 23, 0 and 128000; the numeric fields fit in int64; the extras are exactly the non-reserved keys with their values |
| Settings.FromEmptyMap | pkg/compressor/compression_settings.go:51-103 | an empty map describes the defaults |
| Settings.ToMap | pkg/compressor/compression_settings.go:105-131 | the map holds the five fields always, bitrate iff positive, codec_params iff non-empty, and every extra, which overrides a field of the same name |
| Settings.FromMapToMap | pkg/compressor/compression_settings.go:51-131 | converting to a map and back gives the settings back when the bitrate is non-negative and no extra shadows a field |
| FFmpeg.DefaultOptions | pkg/ffmpeg/ffmpeg.go:526-531 | the default options are quality 3 and the balanced preset |
| FFmpeg.NewFFmpeg | pkg/ffmpeg/ffmpeg.go:52-64 | a job keeps its files, and its options or, when none are given, the defaults |
| FFmpeg.HdrTransferNamed | pkg/ffmpeg/ffmpeg.go:186-190 | a colour-transfer tag holding smpte2084 or arib-std-b67 anywhere, in any letter case, marks the stream HDR |
| FFmpeg.HdrTransferHasName | pkg/ffmpeg/ffmpeg.go:186-190 | conversely a tag is HDR only if one of the two names starts at some position of its lower-cased text; a missing tag and a tag shorter than nine characters are not HDR |
| FFmpeg.CutSeconds | pkg/ffmpeg/ffmpeg.go:552-559 | the seconds field is a prefix of the text, cut to at most two decimals after the first dot |
| FFmpeg.ParseFFmpegTime | pkg/ffmpeg/ffmpeg.go:534-569 | 0 for trimmed text shorter than 8 bytes, for a field count other than 3, or for an unparsable field; otherwise hours·3600 + minutes·60 + seconds |
| FFmpeg.ParseTimeText | pkg/ffmpeg/ffmpeg.go:534-569 | the text ffmpeg prints for a time reads back as that time to the hundredth, whatever further digits follow |
| FFmpeg.ScaledWidth | pkg/ffmpeg/ffmpeg.go:589-598 | the downscaled width is even; it is the fallback when a source dimension is unknown |
| FFmpeg.CalculateEncodingSettings | pkg/ffmpeg/ffmpeg.go:572-649 | always libx264; the CRF table 28/26/23/20/18; fast forces faster and thorough forces slow; a target bitrate exists iff level 1 or 2 without thorough; a downscale happens iff level 1 above 720 lines or level 2 above 1080; the width is always even |
| FFmpeg.OutOfRangeQualityIsBalanced | pkg/ffmpeg/ffmpeg.go:629-632 | a quality outside 1..5 behaves as 3 |
| FFmpeg.DownscaleWidth | pkg/ffmpeg/ffmpeg.go:585-616 | the downscaled width keeps the aspect ratio, rounded down to even; without dimensions it is 1280 or 1920 |
| FFmpeg.ScaleFallbackUnreachable | pkg/ffmpeg/ffmpeg.go:667-681 | when the filter is emitted one limit is positive, so the 1280x720 fallback branch is dead |
| FFmpeg.BuildFFmpegCommand | pkg/ffmpeg/ffmpeg.go:652-695 | codec, CRF and preset come first and the AAC/faststart trailer always closes the list |
| FFmpeg.CommandRateControl | pkg/ffmpeg/ffmpeg.go:661-664 | `-maxrate T -bufsize 2T` follows the preset exactly when the target T is positive |
| FFmpeg.CommandScaling | pkg/ffmpeg/ffmpeg.go:667-686 | the scale filter is emitted exactly when either limit is positive |
| Reporter.BandsDisjoint | pkg/reporter/reporter.go:167-183 | the score bands of the quality labels do not overlap |
| Reporter.QualityEstimate | pkg/reporter/reporter.go:167-183 | the label is the one whose band (thresholds 90/80/70/60/50/40) holds the score |
| Reporter.QualityEstimateMonotone | pkg/reporter/reporter.go:167-183 | a higher score never gets a worse label |
| Reporter.TimeBonus | pkg/reporter/reporter.go:144-154 | the speed bonus lies in 0..10; it is positive iff faster than real time and full iff at least 10 times faster |
| Reporter.PerformanceScore | pkg/reporter/reporter.go:132-164 | the score always lies in 0..100 and is at least 50 for a non-negative saving and quality |
| Reporter.ScoreMonotoneInSaving | pkg/reporter/reporter.go:136-138 | saving more space never lowers the score |
| Reporter.ScoreMonotoneInQuality | pkg/reporter/reporter.go:140-142 | a better frame quality never lowers the score |
| Reporter.CompressionTips | pkg/reporter/reporter.go:87-129 | exactly the applicable tips are listed, each once, in report order |
| Reporter.FinalizeReport | pkg/reporter/reporter.go:61-84 | the report keeps its files and analysis, gets the result, the performance score of its saving, quality, duration and processing time (in 0..100) and the label of its quality; megabytes saved are bytes/2^20 and seconds saved are megabytes·8/10; tips are exactly those that apply |
| Reporter.TryHevcNeverListed | pkg/reporter/reporter.go:95-97 | the HEVC tip asks for `libx264` but the analysis names a codec family, so it is never listed |
| Reporter.CreateReport | pkg/reporter/reporter.go:47-58 | a new report has its files, source and analysis, and no result or tips |
| Reporter.ReportPathInDir | pkg/reporter/reporter.go:252-255 | the report for `dir/stem.ext` is `dir/stem_report.txt` |
| Reporter.ReportPathBare | pkg/reporter/reporter.go:252-255 | the report for a bare `stem.ext` is `stem_report.txt` |
| Reporter.ReportPath | pkg/reporter/reporter.go:252-255 | the report path is never empty; its value for `dir/stem.ext` and for a bare name is stated by the two lemmas above |
| Format.FormatSize | pkg/util/format.go:9-31 | below 1024 bytes the size is printed as `<n> B` |
| Format.FormatSizeAsWritten | pkg/util/format.go:9-31 | the size text as written is never empty; its values are stated by the `FormatSizeAsWritten…` lemmas below |
| Format.FormatSizeUnits | pkg/util/format.go:9-31 | KB, MB and GB are used exactly on their power-of-1024 ranges, TB from 1024^4 on, each dividing by its own power |
| Format.FormatSizeExamples | pkg/util/format.go:7-8 | 1024 prints as 1.00 KB and 1048576 as 1.00 MB |
| Format.FormatSizeAsWrittenBelowPebibyte | pkg/util/format.go:15-30 | below 1024^5 bytes the code as written prints the intended text |
| Format.FormatSizeAsWrittenPebibytes | pkg/util/format.go:15-30 | from 1024^5 up to 2^60 bytes the code as written divides by 1024^5 and still says TB |
| Format.FormatSizeAsWrittenInfinite | pkg/util/format.go:15-30 | from 2^60 bytes on the divisor wraps to 0 and the code as written prints +Inf TB |
| Format.FormatSizePebibyteAsWritten | pkg/util/format.go:15-30 | one pebibyte prints as 1.00 TB |
| Format.FormatSizePebibyte | pkg/util/format.go:15-30 | the corrected formatter prints one pebibyte as 1024.00 TB |
| Format.FormatBitrate | pkg/util/format.go:35-41 | Mbps iff at least 1,000,000 bits per second, with the amount in megabits; kbps otherwise, in kilobits |
| Format.DurationParts | pkg/util/format.go:45-52 | hours·3600 + minutes·60 + seconds is the input; minutes and seconds lie below 60 for a non-negative input |
| Format.DurationPartsUnique | pkg/util/format.go:45-52 | any decomposition with minutes and seconds below 60 is the one computed |
| Format.FormatDuration | pkg/util/format.go:45-60 | for a non-negative input `Xh Ym Zs` from an hour up, `Ym Zs` from a minute up and `Zs` below, with X, Y and Z the Euclidean hours, minutes and seconds |
| Format.FormatDurationExamples | pkg/util/format.go:43-44 | 65 prints as 1m 5s and 3600 as 1h 0m 0s |
| Progress.RoundSecond | pkg/util/progressbar.go:194 | the duration is rounded to the nearest second, halves away from zero, saturating at the int64 bounds |
| Progress.RoundedParts | pkg/util/progressbar.go:196-202 | the hours, minutes and seconds recompose to the rounded duration, with minutes and seconds below 60 |
| Progress.FormatDurationNs | pkg/util/progressbar.go:193-210 | a non-negative duration prints as the seconds formatter prints its value rounded to the nearest second |
| Progress.EstimateTimeRemaining | pkg/util/progressbar.go:171-185 | 0 without progress or without elapsed time; otherwise the remaining units times the elapsed time over the progress, truncated, in whole seconds; never negative before completion and never positive after it |
| Progress.EstimateMonotoneInElapsed | pkg/util/progressbar.go:176-184 | for the same progress, a longer elapsed time never gives a shorter estimate |
| Platform.GetCurrentOS | pkg/util/os_specific.go:23-34 | linux, windows and darwin map to themselves and anything else to unknown |
| Platform.CurrentOSOfName | pkg/util/os_specific.go:23-34 | reading back a system's name gives the system |
| Platform.IsUnixLike | pkg/util/os_specific.go:36-39 | Unix-like iff linux or darwin |
| Platform.IsWindows | pkg/util/os_specific.go:42-44 | Windows iff windows, and then never Unix-like |
| Platform.GetPathSeparator | pkg/util/os_specific.go:48-53 | the separator is a backslash exactly on Windows, `/` otherwise |
| Platform.GetExecutableExtension | pkg/util/os_specific.go:56-61 | `.exe` exactly on Windows, empty otherwise |
| Platform.GetTempDir | pkg/util/os_specific.go:64-82 | never empty; TEMP then TMP then C:\Windows\Temp on Windows; TMPDIR then /tmp on Unix-like systems; /tmp elsewhere |
| Platform.TempDirIgnoresForeignVariables | pkg/util/os_specific.go:64-82 | TMPDIR never matters on Windows and TEMP and TMP never matter elsewhere |
| Cli.DefaultFlags | cmd/compressvideo/cmd/root.go:66-79 | the flag defaults are quality 3, balanced, no force, no acceleration and no output |
| Cli.ValidateFlags | cmd/compressvideo/cmd/root.go:83-130 | each error is reported exactly when its check is the first to fail (input, quality, preset, accelerator, existing output); success gives the explicit output or `input-compressed.ext` |
| Cli.SuffixedName | cmd/compressvideo/cmd/root.go:124-126 | tagging `stem.ext` gives `stem<tag>.ext` with the same extension |
| Cli.Process | cmd/compressvideo/cmd/root.go:133-224 | validation errors pass through; success iff validation succeeds and the input is a directory or the validated output does not exist or is forced; the value is always the validated output, so neither fallback changes anything; a single file's output is never overwritten without force |
| Cli.Contains | cmd/compressvideo/cmd/root.go:228-235 | true exactly when the value is in the list |
| Cli.ResolveHwAccel | cmd/compressvideo/cmd/root.go:488-524 | the result is none or a detected accelerator; none skips detection; an error or an empty list gives none; a named accelerator is kept exactly when it was detected, and gives none otherwise |
| Cli.AutoPriority | cmd/compressvideo/cmd/root.go:498-516 | auto picks nvidia over intel over amd, and none when none of them is detected |
| Cli.ResolvedIsValid | cmd/compressvideo/cmd/root.go:488-524 | a valid accelerator flag resolves to a valid accelerator flag |
| Cli.IsVideoFile | cmd/compressvideo/cmd/root.go:679-683 | true exactly when the lower-cased extension is one of the eleven video extensions |
| Cli.VideoFileByExtension | cmd/compressvideo/cmd/root.go:679-683 | a name is a video file iff its extension is, in any letter case; a name without extension is not |
| Cli.GetFileExtension | cmd/compressvideo/cmd/root.go:393-400 | empty iff there is no dot; otherwise a suffix of the name starting at its last dot |
| Cli.GetFileExtensionOfName | cmd/compressvideo/cmd/root.go:393-400 | on a name without slashes it agrees with `filepath.Ext` |
| Cli.EntryActionOf | cmd/compressvideo/cmd/root.go:419-441 | subdirectories and non-video files are skipped; a video is compressed to `outputDir/stem-compressed.ext` unless that exists and force is off |
| Cli.DirectoryOutputIsVideo | cmd/compressvideo/cmd/root.go:434-435 | the output name keeps the video extension and differs from the input name |
| Cli.VideoCount | cmd/compressvideo/cmd/root.go:416-431 | the count is at most the number of entries and is 0 exactly when no entry is a video file |
| Cli.ContentTypeEmojiDistinct | cmd/compressvideo/cmd/root.go:323-341 | each known content type has its own emoji; only the unknown one gets the generic camera |
| Cli.ContentTypeEmoji | cmd/compressvideo/cmd/root.go:323-341 | the generic camera exactly for a label that is none of the six content type names |
| Cli.MotionEmojiFallback | cmd/compressvideo/cmd/root.go:343-356 | an unknown motion label is shown like Medium; the four levels are told apart |
| Cli.MotionComplexityEmoji | cmd/compressvideo/cmd/root.go:343-356 | the walking figure exactly for Medium and for any label that is not Low, High or Very High |
| InternalCli.CheckFlags | internal/cmd/root.go:79-105 | each error is reported exactly when its check is the first to fail (input, quality, preset, existing output); there is no accelerator check |
| InternalCli.CheckFlagsIgnoresHwAccel | internal/cmd/root.go:79-114 | the accelerator flag plays no part in validation |
| InternalCli.ValidateFlagsAsWritten | internal/cmd/root.go:106-110 | validation as written succeeds exactly when the checks pass, with the doubling default output |
| InternalCli.ValidateFlags | internal/cmd/root.go:79-114 | corrected validation: the same errors, and the default output `dir/stem_compressed.ext` |
| InternalCli.DefaultOutputDoublesDirectory | internal/cmd/root.go:107-110 | as written, `dir/stem.ext` defaults to `dir/dir/stem_compressed.ext` |
| InternalCli.DefaultOutputBesideInput | internal/cmd/root.go:128-135 | as intended, `dir/stem.ext` defaults to `dir/stem_compressed.ext` |
| InternalCli.DefaultOutputOfBareName | internal/cmd/root.go:107-110 | without a directory part both versions give `stem_compressed.ext` |
| InternalCli.Process | internal/cmd/root.go:117-160 | as written: validation errors pass through; success iff the checks pass and the explicit output, or else the doubled default output, does not exist or is forced; the value is that output |
| InternalCli.ProcessTargetsDoubledPath | internal/cmd/root.go:107-110 | without an explicit output, `process` on `dir/stem.ext` targets `dir/dir/stem_compressed.ext`, and the existence of that path stops it |
| InternalCli.ProcessIntended | internal/cmd/root.go:117-160 | with the intended validation: success iff validation succeeds and its output does not exist or is forced; an existing validated output is rejected by the repeated check |
| InternalCli.ProcessIntendedTargetsBeside | internal/cmd/root.go:128-135 | the intended `process` on `dir/stem.ext` targets `dir/stem_compressed.ext` |
| InternalCli.ExecuteCompressionOutput | internal/cmd/root.go:528-539 | the output is the explicit one or `stem_compressed.ext`; an existing output without force is the Portuguese overwrite error |
| InternalCli.ExecuteCompressionNaming | internal/cmd/root.go:529-532 | `executeCompression` names `dir/stem.ext`'s output as the intended default does |

## Left out

- Every subprocess is left out: ffprobe and its JSON decoding, scene and complexity detection, the ffmpeg runs, segment splitting and merging, two-pass encoding. Their results are inputs where the core uses them.
- Concurrency is left out: goroutines, channels and wait groups. The parallel path is modelled as the sequence of progress reports it receives.
- The analysis cache, the logger, the console display functions and the progress bar's `Update`/`Finish` are left out. They are SQLite, console and wall-clock I/O.
- The ffmpeg download helper (`pkg/util/ffmpeg_helper.go`) and the Python test-video downloader are left out. They are network and archive I/O.
- `calculateSpatialComplexity` is left out because it needs `math.Log10`. The spatial score is an input of `Analyzer.AnalyzeVideo`.
- Float64 arithmetic is exact `real` arithmetic here. Rounding of the bitrate formulas, the aspect-ratio width and the performance score is not modelled; NaN and infinities appear only where a division by zero is a branch.
- Numbers.Fixed2: `%.2f` rounds the exact real value half away from zero. Go rounds the binary float64 value, so the two can differ in the last digit.
- Numbers.ParseDecimal: `strconv.ParseFloat` is modelled for plain decimals only. Exponents, hexadecimal floats, `inf`, `nan` and underscores count as parse failures.
- Paths: `path/filepath` is modelled for Unix `/` paths. `Join` and `Dir` clean their result, but the path lemmas assume clean relative directories.
- Text.ToLower: lower-cases ASCII letters only.
- The file system is the set of existing paths. A `Stat` error other than "does not exist" is not modelled.
- Cli.GetFileExtension: it agrees with `filepath.Ext` only on names without slashes, which is proved. For a directory name that holds a dot, the two differ.
- Compressor.BuildFFmpegArgs: a second `-b:v` for NVENC with a configured bitrate is modelled as written, but no lemma is stated about it.
- Compressor.UseParallel is the duration-and-type test itself; there is nothing further to prove about it.
- Compressor.ParallelProgress: assumes the aggregator goroutine has drained every report before the main goroutine sends 90. The source closes the channel but never waits for the aggregator, so a value below 90 can in fact arrive after the 90 or the 100, and the two goroutines can call `Update` at the same time. Those interleavings are not modelled.
- Progress.EstimateTimeRemaining: the float-to-Duration conversion is modelled as truncation toward zero. Its int64 overflow for huge estimates is not modelled.
- Reporter.ReportPath: its own contract states only that the path is not empty. Its value is proved for inputs `dir/stem.ext` with a clean relative `dir` and for bare names, by `Reporter.ReportPathInDir` and `Reporter.ReportPathBare`; other shapes, such as absolute or unclean directories, are not covered.
- Format.FormatSizeAsWritten: its own contract states only that the text is not empty. Its values are proved by the three `Format.FormatSizeAsWritten…` lemmas, which together cover every int64 size.
- Reporter: start and completion times and the report file's text are not modelled. Only the report's path is.
- `DetectAvailableHWAccelerators` is not part of this model. Its result is the `detected` input of `Cli.ResolveHwAccel`.
- `GetVideoInfo` is not part of this model. Its probed height is the `probedHeight` input of `Compressor.BuildFFmpegArgs`.

## Findings

| source | as written | input that shows it | evidently intended | confidence | as-written member | corrected member |
|---|---|---|---|---|---|---|
| pkg/util/format.go:15-30 | the loop's divisor keeps growing past 1024^4 while every exponent from 3 up is labelled TB; from 2^60 bytes `div*unit` wraps to 0 in int64. The same code is in cmd/compressvideo/cmd/root.go:359-381 and internal/cmd/root.go:417-439 | 1024^5 bytes gives "1.00 TB"; 2^60 bytes gives "+Inf TB" | "1024.00 TB": every size from 1024^4 up divided by 1024^4 | not executed | Format.FormatSizeAsWritten (Format.FormatSizePebibyteAsWritten, Format.FormatSizeAsWrittenInfinite) | Format.FormatSize (Format.FormatSizePebibyte, Format.FormatSizeUnits) |
| internal/cmd/root.go:107-110 | the default output joins the input's directory with the whole tagged input path | "videos/a.mp4" gives "videos/videos/a_compressed.mp4" | "videos/a_compressed.mp4", as `process` and `executeCompression` name it | not executed | InternalCli.ValidateFlagsAsWritten (InternalCli.DefaultOutputDoublesDirectory, InternalCli.Process, InternalCli.ProcessTargetsDoubledPath) | InternalCli.ValidateFlags (InternalCli.DefaultOutputBesideInput, InternalCli.ProcessIntended, InternalCli.ProcessIntendedTargetsBeside) |

=== FILE: analyzer.dfy ===
/**
 The content analyzer: it classifies a video by its file name and stream
 properties, estimates its motion complexity, recommends a codec and a
 bitrate, and turns an analysis into the encoder settings map the
 compressor consumes.

 The measurements that need ffmpeg (scene changes, frame complexity) and
 the logarithmic spatial-complexity score are inputs here.
 */
module Analyzer {
  import opened Wrappers
  import Text
  import Numbers
  import Paths
  import Maps
  import Presets
  import opened Video

  datatype ContentType =
    | Unknown
    | Animation
    | Screencast
    | Gaming
    | LiveAction
    | SportsAction
    | Documentary
  {
    /** The label shown to the user. */
    function Name(): (s: string)
      ensures s == "Unknown" <==> this == Unknown
      ensures s != ""
    {
      match this
      case Animation => "Animation"
      case Screencast => "Screencast"
      case Gaming => "Gaming"
      case LiveAction => "Live Action"
      case SportsAction => "Sports Action"
      case Documentary => "Documentary"
      case Unknown => "Unknown"
    }
  }

  /** Different content types have different labels. */
  lemma ContentTypeNameInjective(a: ContentType, b: ContentType)
    ensures a.Name() == b.Name() ==> a == b
  {
  }

  /** `MotionUnset` is the zero value of the enumeration, which no analysis
      step produces. */
  datatype MotionComplexity = MotionUnset | Low | Medium | High | VeryHigh
  {
    function Name(): (s: string)
      ensures s == "Unknown" <==> this == MotionUnset
    {
      match this
      case Low => "Low"
      case Medium => "Medium"
      case High => "High"
      case VeryHigh => "Very High"
      case MotionUnset => "Unknown"
    }

    /** Position on the scale from calm to very dynamic. */
    function Rank(): (r: nat)
      ensures r <= 4
      ensures r == 0 <==> this == MotionUnset
    {
      match this
      case MotionUnset => 0
      case Low => 1
      case Medium => 2
      case High => 3
      case VeryHigh => 4
    }
  }

  lemma MotionNameInjective(a: MotionComplexity, b: MotionComplexity)
    ensures a.Name() == b.Name() ==> a == b
  {
  }

  datatype VideoAnalysis = VideoAnalysis(
    videoFile: VideoFile,
    contentType: ContentType,
    motionComplexity: MotionComplexity,
    sceneChanges: int,
    frameComplexity: real,
    compressionPotential: int,
    recommendedCodec: string,
    optimalBitrate: int,
    spatialComplexity: real,
    isHdContent: bool,
    isUhdContent: bool)

  /** Whether `s` contains at least one of `subs`; false for an empty list. */
  function ContainsAny(s: string, subs: seq<string>): (b: bool)
    ensures b <==> exists i :: 0 <= i < |subs| && Text.Contains(s, subs[i])
  {
    if |subs| == 0 then false
    else
      var rest := ContainsAny(s, subs[1..]);
      assert forall i :: 1 <= i < |subs| ==> subs[i] == subs[1..][i - 1];
      Text.Contains(s, subs[0]) || rest
  }

  const ScreencastWords: seq<string> :=
    ["screencast", "screen", "capture", "tutorial", "recording", "desktop", "presentation"]
  const AnimationWords: seq<string> := ["anime", "animation", "cartoon", "animated", "3d", "cgi"]
  const GamingWords: seq<string> :=
    ["game", "gaming", "gameplay", "playthrough", "walkthrough", "let's play"]
  const SportsWords: seq<string> :=
    ["sports", "football", "soccer", "basketball", "hockey", "match", "race"]
  const DocumentaryWords: seq<string> := ["documentary", "nature", "wildlife", "science", "history"]

  /** The classification from stream properties alone, used when the file
      name has no keyword: common screen widths at up to 30 fps suggest a
      screencast, 30 or 60 fps at gaming widths suggest gaming. The
      animation rule between them can never fire, since every stream it
      matches is already a screencast. */
  function PropertyContentType(info: VideoStreamInfo): (ct: ContentType)
    ensures ct != Animation
    ensures ct == Screencast || ct == Gaming || ct == LiveAction
    ensures ct == Screencast ==> info.fps <= 30.0
    ensures ct == Gaming ==> info.fps == 30.0 || info.fps == 60.0
  {
    var w := info.width;
    if info.fps <= 30.0 && (w == 1920 || w == 1280 || w == 1366 || w == 1440) then Screencast
    else if info.fps < 30.0 && (w == 1920 || w == 1280) && !info.isHdr then Animation
    else if (info.fps == 30.0 || info.fps == 60.0) && (w == 1920 || w == 2560 || w == 3840) then Gaming
    else LiveAction
  }

  /** The lower-cased base name the keyword rules look at. */
  function KeywordName(path: string): string {
    Text.ToLower(Paths.Base(path))
  }

  /** Whether a lower-cased name holds none of the keyword groups. */
  predicate NoKeyword(name: string) {
    && !ContainsAny(name, ScreencastWords) && !ContainsAny(name, AnimationWords)
    && !ContainsAny(name, GamingWords) && !ContainsAny(name, SportsWords)
    && !ContainsAny(name, DocumentaryWords)
  }

  /** Classifies a video: keyword groups in the file name decide first, in
      the priority screencast, animation, gaming, sports, documentary; the
      stream properties decide otherwise. */
  function DetectContentType(v: VideoFile): (ct: ContentType)
    ensures ct != Unknown
    ensures var name := KeywordName(v.path);
      && (ct == Screencast <==>
            (ContainsAny(name, ScreencastWords)
             || (!ContainsAny(name, AnimationWords) && !ContainsAny(name, GamingWords)
                 && !ContainsAny(name, SportsWords) && !ContainsAny(name, DocumentaryWords)
                 && PropertyContentType(v.videoInfo) == Screencast)))
      && (ct == Animation <==> !ContainsAny(name, ScreencastWords) && ContainsAny(name, AnimationWords))
      && (ct == Gaming <==>
            (!ContainsAny(name, ScreencastWords) && !ContainsAny(name, AnimationWords)
             && ContainsAny(name, GamingWords))
            || (NoKeyword(name) && PropertyContentType(v.videoInfo) == Gaming))
      && (ct == SportsAction <==>
            (!ContainsAny(name, ScreencastWords) && !ContainsAny(name, AnimationWords)
             && !ContainsAny(name, GamingWords) && ContainsAny(name, SportsWords)))
      && (ct == Documentary <==>
            (!ContainsAny(name, ScreencastWords) && !ContainsAny(name, AnimationWords)
             && !ContainsAny(name, GamingWords) && !ContainsAny(name, SportsWords)
             && ContainsAny(name, DocumentaryWords)))
      && (ct == LiveAction <==> NoKeyword(name) && PropertyContentType(v.videoInfo) == LiveAction)
      && (NoKeyword(name) ==> ct == PropertyContentType(v.videoInfo))
  {
    var name := KeywordName(v.path);
    if ContainsAny(name, ScreencastWords) then Screencast
    else if ContainsAny(name, AnimationWords) then Animation
    else if ContainsAny(name, GamingWords) then Gaming
    else if ContainsAny(name, SportsWords) then SportsAction
    else if ContainsAny(name, DocumentaryWords) then Documentary
    else PropertyContentType(v.videoInfo)
  }

  /** A keyword in the file name makes the stream properties irrelevant;
      without one, the name is irrelevant and only the properties count. */
  lemma DetectionSources(v: VideoFile, other: VideoStreamInfo, otherPath: string)
    ensures !NoKeyword(KeywordName(v.path)) ==>
      DetectContentType(v.(videoInfo := other)) == DetectContentType(v)
    ensures NoKeyword(KeywordName(v.path)) && NoKeyword(KeywordName(otherPath)) ==>
      DetectContentType(v.(path := otherPath)) == DetectContentType(v)
  {
  }

  /** The video's length in minutes as the motion estimate uses it: a
      non-positive duration counts as one minute. */
  function DurationMinutes(duration: real): (m: real)
    ensures m > 0.0
    ensures duration <= 0.0 ==> m == 1.0
    ensures duration > 0.0 ==> m == duration / 60.0
  {
    if duration / 60.0 <= 0.0 then 1.0 else duration / 60.0
  }

  /** Motion complexity from the scene-change rate per minute and the mean
      frame complexity. */
  function DetermineMotionComplexity(duration: real, sceneChanges: int, frameComplexity: real): (m: MotionComplexity)
    ensures m != MotionUnset
    ensures m == Low ==> frameComplexity < 200.0
    ensures m == Medium ==> frameComplexity < 500.0
    ensures m == High ==> frameComplexity < 1000.0
    ensures frameComplexity >= 1000.0 ==> m == VeryHigh
    ensures sceneChanges <= 0 && frameComplexity < 200.0 ==> m == Low
    ensures var perMinute := sceneChanges as real / DurationMinutes(duration);
      && (m == Low <==> perMinute < 2.0 && frameComplexity < 200.0)
      && (m == Medium <==>
            !(perMinute < 2.0 && frameComplexity < 200.0) && perMinute < 5.0 && frameComplexity < 500.0)
      && (m == High <==>
            !(perMinute < 2.0 && frameComplexity < 200.0) && !(perMinute < 5.0 && frameComplexity < 500.0)
            && perMinute < 10.0 && frameComplexity < 1000.0)
      && (m == VeryHigh <==>
            !(perMinute < 5.0 && frameComplexity < 500.0) && !(perMinute < 10.0 && frameComplexity < 1000.0))
  {
    var perMinute := sceneChanges as real / DurationMinutes(duration);
    if perMinute < 2.0 && frameComplexity < 200.0 then Low
    else if perMinute < 5.0 && frameComplexity < 500.0 then Medium
    else if perMinute < 10.0 && frameComplexity < 1000.0 then High
    else VeryHigh
  }

  lemma DivMonotone(a: real, b: real, d: real)
    requires a <= b && d > 0.0
    ensures a / d <= b / d
  {
    assert b / d - a / d == (b - a) / d;
  }

  /** More scene changes never give a calmer classification. */
  lemma MotionMonotoneInSceneChanges(duration: real, s1: int, s2: int, fc: real)
    requires s1 <= s2
    ensures DetermineMotionComplexity(duration, s1, fc).Rank() <= DetermineMotionComplexity(duration, s2, fc).Rank()
  {
    DivMonotone(s1 as real, s2 as real, DurationMinutes(duration));
  }

  /** A higher frame complexity never gives a calmer classification. */
  lemma MotionMonotoneInFrameComplexity(duration: real, sc: int, f1: real, f2: real)
    requires f1 <= f2
    ensures DetermineMotionComplexity(duration, sc, f1).Rank() <= DetermineMotionComplexity(duration, sc, f2).Rank()
  {
  }

  /** The codec family recommended for the analysis report. */
  function DetermineOptimalCodec(info: VideoStreamInfo, ct: ContentType): (c: string)
    ensures c == "hevc" || c == "vp9" || c == "h264"
    ensures info.isHdr ==> c == "hevc"
    ensures c == "vp9" <==> !info.isHdr && ct == Animation
    ensures !info.isHdr && ct == Screencast ==> c == "hevc"
    ensures !info.isHdr && (ct == Gaming || ct == SportsAction) ==> (c == "hevc" <==> info.height >= 1080)
    ensures !info.isHdr && ct !in {Animation, Screencast, Gaming, SportsAction} ==> (c == "hevc" <==> info.height >= 1440)
  {
    if info.isHdr then "hevc"
    else match ct
      case Animation => "vp9"
      case Screencast => "hevc"
      case Gaming => if info.height >= 1080 then "hevc" else "h264"
      case SportsAction => if info.height >= 1080 then "hevc" else "h264"
      case _ => if info.height >= 1440 then "hevc" else "h264"
  }

  /** Bits per second per pixel per frame, by content type. */
  function ContentBitrateFactor(ct: ContentType): (f: real)
    ensures f > 0.0
  {
    match ct
    case Screencast => 0.0001
    case Animation => 0.00015
    case Gaming => 0.0003
    case SportsAction => 0.00035
    case _ => 0.00025
  }

  /** Bitrate multiplier by motion; the unset level counts as medium. */
  function MotionFactor(m: MotionComplexity): (f: real)
    ensures 0.7 <= f <= 1.6
  {
    match m
    case Low => 0.7
    case Medium => 1.0
    case High => 1.3
    case VeryHigh => 1.6
    case MotionUnset => 1.0
  }

  /** Bitrate multiplier by codec efficiency relative to H.264. */
  function CodecFactor(codec: string): (f: real)
    ensures 0.5 <= f <= 1.0
  {
    if codec == "hevc" then 0.6
    else if codec == "vp9" then 0.7
    else if codec == "av1" then 0.5
    else 1.0
  }

  const MinOptimalBitrate: int := 500000
  const MaxOptimalBitrate: int := 15000000

  /** `x` limited to `lo .. hi`. */
  function ClampReal(x: real, lo: real, hi: real): (r: real)
    requires lo <= hi
    ensures lo <= r <= hi
    ensures lo <= x <= hi ==> r == x
    ensures x < lo ==> r == lo
    ensures x > hi ==> r == hi
  {
    if x < lo then lo else if x > hi then hi else x
  }

  lemma ClampRealMonotone(x: real, y: real, lo: real, hi: real)
    requires lo <= hi && x <= y
    ensures ClampReal(x, lo, hi) <= ClampReal(y, lo, hi)
  {
  }

  /** The unclamped target bitrate: the pixel rate scaled by the content,
      motion and codec factors. */
  function RawOptimalBitrate(info: VideoStreamInfo, ct: ContentType, m: MotionComplexity, codec: string): real {
    (info.width * info.height) as real * info.fps * ContentBitrateFactor(ct) * MotionFactor(m) * CodecFactor(codec)
  }

  /** The target bitrate in bits per second, clamped to 500 kbps .. 15 Mbps. */
  function CalculateOptimalBitrate(info: VideoStreamInfo, ct: ContentType, m: MotionComplexity, codec: string): (r: int)
    ensures MinOptimalBitrate <= r <= MaxOptimalBitrate
    ensures var raw := RawOptimalBitrate(info, ct, m, codec);
      && (MinOptimalBitrate as real <= raw <= MaxOptimalBitrate as real ==> r as real <= raw < r as real + 1.0)
      && (raw < MinOptimalBitrate as real ==> r == MinOptimalBitrate)
      && (raw > MaxOptimalBitrate as real ==> r == MaxOptimalBitrate)
  {
    Numbers.Trunc(ClampReal(RawOptimalBitrate(info, ct, m, codec), MinOptimalBitrate as real, MaxOptimalBitrate as real))
  }

  lemma MulMonotone(a: real, x: real, y: real)
    requires a >= 0.0 && x <= y
    ensures a * x <= a * y
  {
    assert a * y - a * x == a * (y - x);
  }

  lemma ScaleMonotone(base: real, x: real, y: real, c: real)
    requires base >= 0.0 && c >= 0.0 && x <= y
    ensures base * x * c <= base * y * c
  {
    MulMonotone(base, x, y);
    MulMonotone(c, base * x, base * y);
    assert base * x * c == c * (base * x);
    assert base * y * c == c * (base * y);
  }

  lemma TruncMonotone(x: real, y: real)
    requires x <= y
    ensures Numbers.Trunc(x) <= Numbers.Trunc(y)
  {
    if x < 0.0 && y < 0.0 {
      assert (-y).Floor <= (-x).Floor;
    }
  }

  lemma RawOptimalBitrateMotionMonotone(info: VideoStreamInfo, ct: ContentType, m1: MotionComplexity, m2: MotionComplexity, codec: string)
    requires info.width * info.height >= 0 && info.fps >= 0.0
    requires m1 != MotionUnset && m1.Rank() <= m2.Rank()
    ensures RawOptimalBitrate(info, ct, m1, codec) <= RawOptimalBitrate(info, ct, m2, codec)
  {
    var base := (info.width * info.height) as real * info.fps * ContentBitrateFactor(ct);
    BaseRateNonNegative((info.width * info.height) as real, info.fps, ContentBitrateFactor(ct));
    MotionFactorMonotone(m1, m2);
    ScaleMonotone(base, MotionFactor(m1), MotionFactor(m2), CodecFactor(codec));
  }

  lemma BaseRateNonNegative(pixels: real, fps: real, factor: real)
    requires pixels >= 0.0 && fps >= 0.0 && factor >= 0.0
    ensures pixels * fps * factor >= 0.0
  {
    MulMonotone(pixels, 0.0, fps);
    MulMonotone(pixels * fps, 0.0, factor);
  }

  lemma MotionFactorMonotone(m1: MotionComplexity, m2: MotionComplexity)
    requires m1 != MotionUnset && m1.Rank() <= m2.Rank()
    ensures MotionFactor(m1) <= MotionFactor(m2)
  {
  }

  /** With a non-negative pixel rate, more motion never lowers the target
      bitrate. */
  lemma OptimalBitrateMotionMonotone(info: VideoStreamInfo, ct: ContentType, m1: MotionComplexity, m2: MotionComplexity, codec: string)
    requires info.width * info.height >= 0 && info.fps >= 0.0
    requires m1 != MotionUnset && m1.Rank() <= m2.Rank()
    ensures CalculateOptimalBitrate(info, ct, m1, codec) <= CalculateOptimalBitrate(info, ct, m2, codec)
  {
    var r1 := RawOptimalBitrate(info, ct, m1, codec);
    var r2 := RawOptimalBitrate(info, ct, m2, codec);
    RawOptimalBitrateMotionMonotone(info, ct, m1, m2, codec);
    var lo := MinOptimalBitrate as real;
    var hi := MaxOptimalBitrate as real;
    ClampRealMonotone(r1, r2, lo, hi);
    TruncMonotone(ClampReal(r1, lo, hi), ClampReal(r2, lo, hi));
  }

  /** The saving in percent when the bitrate drops from `source` to
      `target`. The source computes 1 / (source / target), which is
      target / source, also for a zero target, where the float ratio is
      +Inf and its inverse 0. */
  function SavingPercent(source: int, target: int): (x: real)
    requires source > 0
    ensures target >= source ==> x <= 0.0
    ensures target <= 0 ==> x >= 100.0
  {
    var ratio := target as real / source as real;
    assert target >= source ==> ratio >= 1.0 by {
      if target >= source {
        DivMonotone(source as real, target as real, source as real);
      }
    }
    assert target <= 0 ==> ratio <= 0.0 by {
      if target <= 0 {
        DivMonotone(target as real, 0.0, source as real);
      }
    }
    (1.0 - ratio) * 100.0
  }

  /** A higher target never promises a larger saving. */
  lemma SavingPercentMonotone(source: int, t1: int, t2: int)
    requires source > 0 && t1 <= t2
    ensures SavingPercent(source, t2) <= SavingPercent(source, t1)
  {
    DivMonotone(t1 as real, t2 as real, source as real);
  }

  /** The estimated space saving in percent: a fixed guess by resolution
      when the source bitrate is unknown, otherwise the saving from the
      source bitrate to the target, truncated and clamped to 0 .. 95. */
  function EstimateCompressionPotential(info: VideoStreamInfo, isHd: bool, isUhd: bool, optimal: int): (p: int)
    ensures 0 <= p <= 95
    ensures info.bitRate <= 0 ==> (p == 50 <==> isUhd) && (p == 60 <==> !isUhd && isHd) && (p == 65 <==> !isUhd && !isHd)
    ensures info.bitRate > 0 && optimal >= info.bitRate ==> p == 0
    ensures info.bitRate > 0 && optimal <= 0 ==> p == 95
    ensures info.bitRate > 0 && 0.0 <= SavingPercent(info.bitRate, optimal) < 95.0 ==>
      p as real <= SavingPercent(info.bitRate, optimal) < p as real + 1.0
    ensures info.bitRate > 0 && SavingPercent(info.bitRate, optimal) >= 95.0 ==> p == 95
    ensures info.bitRate > 0 && SavingPercent(info.bitRate, optimal) < 1.0 ==> p == 0
  {
    if info.bitRate <= 0 then
      if isUhd then 50 else if isHd then 60 else 65
    else
      var potential := Numbers.Trunc(SavingPercent(info.bitRate, optimal));
      if potential < 0 then 0 else if potential > 95 then 95 else potential
  }

  /** For a known source bitrate, a higher target never promises more
      saving. */
  lemma CompressionPotentialMonotone(info: VideoStreamInfo, isHd: bool, isUhd: bool, o1: int, o2: int)
    requires info.bitRate > 0 && o1 <= o2
    ensures EstimateCompressionPotential(info, isHd, isUhd, o2) <= EstimateCompressionPotential(info, isHd, isUhd, o1)
  {
    SavingPercentMonotone(info.bitRate, o1, o2);
    TruncMonotone(SavingPercent(info.bitRate, o2), SavingPercent(info.bitRate, o1));
  }
  /** The frame complexity assumed when it cannot be measured. */
  function DefaultFrameComplexity(ct: ContentType): (f: real)
    ensures f == 100.0 || f == 200.0 || f == 500.0
    ensures f == 100.0 <==> ct == Screencast
    ensures f == 200.0 <==> ct == Animation
  {
    match ct
    case Screencast => 100.0
    case Animation => 200.0
    case _ => 500.0
  }

  /** The whole analysis of one file. The scene-change count and frame
      complexity are `None` when their measurement failed; the spatial
      complexity is supplied. */
  function AnalyzeVideo(v: VideoFile, sceneChanges: Option<nat>, frameComplexity: Option<real>, spatial: real): (a: VideoAnalysis)
    ensures a.videoFile == v
    ensures a.contentType == DetectContentType(v)
    ensures a.contentType != Unknown && a.motionComplexity != MotionUnset
    ensures sceneChanges.None? ==> a.sceneChanges == 0
    ensures sceneChanges.Some? ==> a.sceneChanges == sceneChanges.value
    ensures frameComplexity.None? ==> a.frameComplexity == DefaultFrameComplexity(a.contentType)
    ensures frameComplexity.Some? ==> a.frameComplexity == frameComplexity.value
    ensures a.motionComplexity == DetermineMotionComplexity(v.duration, a.sceneChanges, a.frameComplexity)
    ensures a.recommendedCodec == DetermineOptimalCodec(v.videoInfo, a.contentType)
    ensures a.optimalBitrate == CalculateOptimalBitrate(v.videoInfo, a.contentType, a.motionComplexity, a.recommendedCodec)
    ensures a.compressionPotential ==
      EstimateCompressionPotential(v.videoInfo, a.isHdContent, a.isUhdContent, a.optimalBitrate)
    ensures a.isHdContent <==> v.videoInfo.height >= 720
    ensures a.isUhdContent <==> v.videoInfo.height >= 2160 || v.videoInfo.width >= 3840
    ensures a.recommendedCodec in {"hevc", "vp9", "h264"}
    ensures MinOptimalBitrate <= a.optimalBitrate <= MaxOptimalBitrate
    ensures 0 <= a.compressionPotential <= 95
  {
    var ct := DetectContentType(v);
    var sc := if sceneChanges.Some? then sceneChanges.value else 0;
    var fc := if frameComplexity.Some? then frameComplexity.value else DefaultFrameComplexity(ct);
    var mc := DetermineMotionComplexity(v.duration, sc, fc);
    var isHd := v.videoInfo.height >= 720;
    var isUhd := v.videoInfo.height >= 2160 || v.videoInfo.width >= 3840;
    var codec := DetermineOptimalCodec(v.videoInfo, ct);
    var bitrate := CalculateOptimalBitrate(v.videoInfo, ct, mc, codec);
    var potential := EstimateCompressionPotential(v.videoInfo, isHd, isUhd, bitrate);
    VideoAnalysis(v, ct, mc, sc, fc, potential, codec, bitrate, spatial, isHd, isUhd)
  }

  /** The encoder library: x265 for flat, sharp-edged content, x264
      otherwise. */
  function SelectCodec(ct: ContentType): (c: string)
    ensures c == "libx265" || c == "libx264"
    ensures c == "libx265" <==> ct == Screencast || ct == Animation
  {
    match ct
    case Screencast => "libx265"
    case Animation => "libx265"
    case _ => "libx264"
  }

  /** The CRF before clamping starts from a value per content type. */
  function BaseCrf(ct: ContentType): (c: int)
    ensures 20 <= c <= 28
  {
    match ct
    case Screencast => 28
    case Animation => 26
    case Gaming => 23
    case LiveAction => 20
    case Documentary => 20
    case _ => 23
  }

  /** The constant rate factor: the per-type base, two lower for high motion
      and two higher for low motion, two lower per quality step above 3,
      clamped to 18 .. 32. */
  function CrfValue(ct: ContentType, m: MotionComplexity, quality: int): (crf: int)
    ensures 18 <= crf <= 32
    ensures var unclamped := BaseCrf(ct) + (if m == High then -2 else if m == Low then 2 else 0) + (3 - quality) * 2;
      && (18 <= unclamped <= 32 ==> crf == unclamped)
      && (unclamped < 18 <==> crf == 18 && unclamped != 18)
      && (unclamped > 32 <==> crf == 32 && unclamped != 32)
  {
    var base := BaseCrf(ct);
    var adjusted := if m == High then base - 2 else if m == Low then base + 2 else base;
    var c := adjusted + (3 - quality) * 2;
    if c < 18 then 18 else if c > 32 then 32 else c
  }

  /** A higher quality level never raises the CRF. */
  lemma CrfNonIncreasing(ct: ContentType, m: MotionComplexity, q1: int, q2: int)
    requires q1 <= q2
    ensures CrfValue(ct, m, q2) <= CrfValue(ct, m, q1)
  {
  }

  /** The CRF as the decimal text stored in the settings map. */
  function CalculateCrf(ct: ContentType, m: MotionComplexity, quality: int): (s: string)
    ensures |s| == 2 && Numbers.AllDigits(s)
    ensures Numbers.DigitsValue(s) == CrfValue(ct, m, quality)
  {
    var crf := CrfValue(ct, m, quality);
    var s := Numbers.FormatInt(crf);
    assert |s| == 2 by {
      assert Numbers.FormatNat(crf / 10) == [Numbers.DigitChar(crf / 10)];
    }
    s
  }

  /** Both integer parsers the compressor uses read the CRF text back as
      the CRF. */
  lemma CrfTextRoundTrip(ct: ContentType, m: MotionComplexity, quality: int)
    ensures Numbers.AtoiValue(CalculateCrf(ct, m, quality)) == CrfValue(ct, m, quality)
    ensures Numbers.ScanInt(CalculateCrf(ct, m, quality)) == Some(CrfValue(ct, m, quality))
  {
    var crf := CrfValue(ct, m, quality);
    Numbers.AtoiFormatInt(crf);
    Numbers.ScanFormatInt(crf);
  }

  /** The encoder preset for a quality level: slower presets for stronger
      compression. */
  function SelectPreset(quality: int, m: MotionComplexity): (p: string)
    ensures Presets.IsPreset(p)
    ensures p == "veryslow" <==> quality == 1 && m == High
    ensures quality == 1 && m != High ==> p == "slower"
    ensures quality == 2 ==> p == "slow"
    ensures quality == 4 ==> p == "fast"
    ensures p == "ultrafast" <==> quality == 5
    ensures quality !in {1, 2, 4, 5} ==> p == "medium"
  {
    if quality == 1 then (if m == High then "veryslow" else "slower")
    else if quality == 2 then "slow"
    else if quality == 3 then "medium"
    else if quality == 4 then "fast"
    else if quality == 5 then "ultrafast"
    else "medium"
  }

  /** Within the levels 1 .. 5, a higher quality level never picks a slower
      preset. */
  lemma PresetSpeedsUpWithQuality(q1: int, q2: int, m: MotionComplexity)
    requires 1 <= q1 <= q2 <= 5
    ensures Presets.Slowness(SelectPreset(q2, m)) <= Presets.Slowness(SelectPreset(q1, m))
  {
  }

  /** The keys `AddCodecSpecificSettings` may write. */
  const CodecSpecificKeys: set<string> := {"profile", "level", "tune", "x265-params", "pix_fmt"}

  /** Profile, level and tuning for the chosen encoder library, and the
      pixel format. */
  function AddCodecSpecificSettings(m: map<string, string>, ct: ContentType): (r: map<string, string>)
    ensures Maps.AgreeOutside(m, r, CodecSpecificKeys)
    ensures "pix_fmt" in r && r["pix_fmt"] == "yuv420p"
    ensures Maps.Get(m, "codec") == "libx265" ==>
      && "profile" in r && r["profile"] == "main"
      && (ct == Screencast ==> "tune" in r && r["tune"] == "zerolatency" && "x265-params" in r && r["x265-params"] == "bframes=0")
      && (ct != Screencast ==> Maps.AgreeOutside(m, r, {"profile", "pix_fmt"}))
    ensures Maps.Get(m, "codec") == "libx264" ==>
      && "profile" in r && "level" in r
      && (r["profile"] == "high" <==> ct == Gaming || ct == LiveAction)
      && (r["level"] == "4.1" <==> ct == Gaming || ct == LiveAction)
      && (r["profile"] == "main" <==> r["level"] == "3.1")
      && (ct == LiveAction || ct == Documentary ==> "tune" in r && r["tune"] == "film")
      && (ct != LiveAction && ct != Documentary ==> Maps.AgreeOutside(m, r, {"profile", "level", "pix_fmt"}))
    ensures Maps.Get(m, "codec") !in {"libx264", "libx265"} ==> r == m["pix_fmt" := "yuv420p"]
  {
    var codec := Maps.Get(m, "codec");
    var m1 :=
      if codec == "libx265" then
        if ct == Screencast then m["profile" := "main"]["tune" := "zerolatency"]["x265-params" := "bframes=0"]
        else m["profile" := "main"]
      else m;
    var m2 :=
      if codec == "libx264" then
        var withProfile :=
          if ct == Gaming || ct == LiveAction then m1["profile" := "high"]["level" := "4.1"]
          else m1["profile" := "main"]["level" := "3.1"];
        if ct == LiveAction || ct == Documentary then withProfile["tune" := "film"] else withProfile
      else m1;
    m2["pix_fmt" := "yuv420p"]
  }

  /** Kilobits per second per million pixels, by content type. */
  function KbpsPerMegapixel(ct: ContentType): (f: real)
    ensures 1000.0 <= f <= 2000.0
  {
    match ct
    case Screencast => 1000.0
    case Animation => 1200.0
    case Gaming => 1800.0
    case LiveAction => 2000.0
    case Documentary => 2000.0
    case _ => 1500.0
  }

  /** The floor of the bitrate string, by resolution tier. */
  function MinBitrateKbps(width: int, height: int): (k: int)
    ensures k == 500 || k == 1000 || k == 2000
    ensures k == 2000 <==> width >= 1920 || height >= 1080
    ensures k == 500 <==> width < 1280 && height < 720
  {
    if width >= 1920 || height >= 1080 then 2000
    else if width >= 1280 || height >= 720 then 1000
    else 500
  }

  /** The motion scaling of the kilobit rate: 1.5 for high motion, 0.7 for
      low motion. */
  function KbpsMotionScale(m: MotionComplexity): (f: real)
    ensures 0.7 <= f <= 1.5
  {
    if m == High then 1.5 else if m == Low then 0.7 else 1.0
  }

  /** The unfloored kilobit rate: pixels per frame in millions times the
      per-type rate, scaled by motion and by a quality multiplier of
      0.6 + 0.2 per level. */
  function RawBitrateKbps(width: int, height: int, ct: ContentType, m: MotionComplexity, quality: int): real {
    (width * height) as real / 1000000.0 * (KbpsPerMegapixel(ct) * KbpsMotionScale(m)) * (0.6 + quality as real * 0.2)
  }

  /** The target bitrate in kilobits per second, never below the resolution
      tier's floor. */
  function OptimalBitrateKbps(width: int, height: int, ct: ContentType, m: MotionComplexity, quality: int): (k: int)
    ensures k >= MinBitrateKbps(width, height)
    ensures k == MinBitrateKbps(width, height) || k == Numbers.Trunc(RawBitrateKbps(width, height, ct, m, quality))
    ensures k >= Numbers.Trunc(RawBitrateKbps(width, height, ct, m, quality))
  {
    var bitrate := Numbers.Trunc(RawBitrateKbps(width, height, ct, m, quality));
    var floor := MinBitrateKbps(width, height);
    if bitrate < floor then floor else bitrate
  }

  lemma RawBitrateKbpsMonotone(width: int, height: int, ct: ContentType, m: MotionComplexity, q1: int, q2: int)
    requires width * height >= 0 && q1 <= q2
    ensures RawBitrateKbps(width, height, ct, m, q1) <= RawBitrateKbps(width, height, ct, m, q2)
  {
    var megapixels := (width * height) as real / 1000000.0;
    var factor := KbpsPerMegapixel(ct) * KbpsMotionScale(m);
    MulMonotone(megapixels, 0.0, factor);
    MulMonotone(megapixels * factor, 0.6 + q1 as real * 0.2, 0.6 + q2 as real * 0.2);
  }

  /** A higher quality level never lowers the bitrate. */
  lemma OptimalBitrateKbpsMonotone(width: int, height: int, ct: ContentType, m: MotionComplexity, q1: int, q2: int)
    requires width * height >= 0 && q1 <= q2
    ensures OptimalBitrateKbps(width, height, ct, m, q1) <= OptimalBitrateKbps(width, height, ct, m, q2)
  {
    RawBitrateKbpsMonotone(width, height, ct, m, q1, q2);
    TruncMonotone(RawBitrateKbps(width, height, ct, m, q1), RawBitrateKbps(width, height, ct, m, q2));
  }

  /** The bitrate setting: the kilobit rate followed by `k`. */
  function CalculateOptimalBitrateString(width: int, height: int, ct: ContentType, m: MotionComplexity, quality: int): (s: string)
    ensures |s| >= 2 && Text.HasSuffix(s, "k")
    ensures Numbers.AllDigits(s[..|s| - 1])
    ensures Numbers.DigitsValue(s[..|s| - 1]) == OptimalBitrateKbps(width, height, ct, m, quality)
  {
    var k := OptimalBitrateKbps(width, height, ct, m, quality);
    var s := Numbers.FormatInt(k) + "k";
    assert s[..|s| - 1] == Numbers.FormatInt(k);
    s
  }

  /** Scanning the bitrate setting as an integer gives the kilobit rate
      back, the `k` being ignored. */
  lemma BitrateStringRoundTrip(width: int, height: int, ct: ContentType, m: MotionComplexity, quality: int)
    requires Numbers.IsInt64(OptimalBitrateKbps(width, height, ct, m, quality))
    ensures Numbers.ScanInt(CalculateOptimalBitrateString(width, height, ct, m, quality)) == Some(OptimalBitrateKbps(width, height, ct, m, quality))
  {
    Numbers.ScanFormatIntSuffix(OptimalBitrateKbps(width, height, ct, m, quality), "k");
  }

  /** The keys `SetAudioSettings` may write. */
  const AudioKeys: set<string> := {"audio_codec", "audio_bitrate"}

  /** The audio settings: nothing without an audio stream; otherwise the
      audio is copied, except that an overly rich first stream is
      re-encoded to AAC at 128k for screencasts and animation and at 192k
      for live action and documentaries. */
  function SetAudioSettings(m: map<string, string>, audio: seq<AudioStreamInfo>, ct: ContentType): (r: map<string, string>)
    ensures |audio| == 0 ==> r == m
    ensures Maps.AgreeOutside(m, r, AudioKeys)
    ensures |audio| > 0 ==> "audio_codec" in r && r["audio_codec"] in {"copy", "aac"}
    ensures |audio| > 0 ==>
      (r["audio_codec"] == "aac" <==>
        (audio[0].bitRate > 128000 && (ct == Screencast || ct == Animation))
        || (audio[0].bitRate > 192000 && (ct == LiveAction || ct == Documentary)))
    ensures |audio| > 0 && r["audio_codec"] == "aac" ==>
      "audio_bitrate" in r && (r["audio_bitrate"] == "128k" <==> ct == Screencast || ct == Animation)
      && (r["audio_bitrate"] == "128k" || r["audio_bitrate"] == "192k")
    ensures |audio| > 0 && r["audio_codec"] == "copy" ==> Maps.AgreeOutside(m, r, {"audio_codec"})
  {
    if |audio| == 0 then m
    else if audio[0].bitRate > 128000 && (ct == Screencast || ct == Animation) then
      m["audio_codec" := "aac"]["audio_bitrate" := "128k"]
    else if audio[0].bitRate > 192000 && (ct == LiveAction || ct == Documentary) then
      m["audio_codec" := "aac"]["audio_bitrate" := "192k"]
    else m["audio_codec" := "copy"]
  }

  /** The settings every analysis starts from: codec, CRF and preset. */
  function CoreSettings(ct: ContentType, m: MotionComplexity, quality: int): (r: map<string, string>)
    ensures r.Keys == {"codec", "crf", "preset"}
    ensures r["codec"] == SelectCodec(ct)
    ensures r["crf"] == CalculateCrf(ct, m, quality)
    ensures r["preset"] == SelectPreset(quality, m)
  {
    map["codec" := SelectCodec(ct), "crf" := CalculateCrf(ct, m, quality), "preset" := SelectPreset(quality, m)]
  }

  /** The core settings completed by the codec-specific ones. */
  function EncoderSettings(ct: ContentType, m: MotionComplexity, quality: int): (r: map<string, string>)
    ensures {"codec", "crf", "preset", "pix_fmt"} <= r.Keys
    ensures "audio_codec" !in r
    ensures r["codec"] == SelectCodec(ct)
    ensures r["crf"] == CalculateCrf(ct, m, quality)
    ensures r["preset"] == SelectPreset(quality, m)
    ensures r["pix_fmt"] == "yuv420p"
  {
    var base := CoreSettings(ct, m, quality);
    var r := AddCodecSpecificSettings(base, ct);
    KeepsCoreKeys(base, r);
    r
  }

  /** The codec-specific step keeps the core keys and their values and adds
      no audio setting. */
  lemma KeepsCoreKeys(base: map<string, string>, r: map<string, string>)
    requires base.Keys == {"codec", "crf", "preset"}
    requires Maps.AgreeOutside(base, r, CodecSpecificKeys)
    ensures {"codec", "crf", "preset"} <= r.Keys
    ensures r["codec"] == base["codec"] && r["crf"] == base["crf"] && r["preset"] == base["preset"]
    ensures "audio_codec" !in r
  {
    assert "codec" !in CodecSpecificKeys && "crf" !in CodecSpecificKeys && "preset" !in CodecSpecificKeys;
    assert "audio_codec" !in CodecSpecificKeys && "audio_codec" !in base;
  }

  /** The video settings for an analysis: the encoder settings and the
      bitrate. */
  function VideoSettings(a: VideoAnalysis, quality: int): (m: map<string, string>)
    ensures {"codec", "crf", "preset", "pix_fmt", "bitrate"} <= m.Keys
    ensures "audio_codec" !in m
    ensures m["codec"] == SelectCodec(a.contentType)
    ensures m["crf"] == CalculateCrf(a.contentType, a.motionComplexity, quality)
    ensures m["preset"] == SelectPreset(quality, a.motionComplexity)
    ensures m["pix_fmt"] == "yuv420p"
    ensures m["bitrate"] == CalculateOptimalBitrateString(a.videoFile.videoInfo.width, a.videoFile.videoInfo.height, a.contentType, a.motionComplexity, quality)
  {
    var info := a.videoFile.videoInfo;
    var encoder := EncoderSettings(a.contentType, a.motionComplexity, quality);
    var bitrate := CalculateOptimalBitrateString(info.width, info.height, a.contentType, a.motionComplexity, quality);
    if bitrate != "" then encoder["bitrate" := bitrate] else encoder
  }

  /** The settings map for an analysis at a quality level: the video
      settings followed by the audio settings. */
  function SettingsFor(a: VideoAnalysis, quality: int): (m: map<string, string>)
    ensures Maps.AgreeOutside(VideoSettings(a, quality), m, AudioKeys)
    ensures {"codec", "crf", "preset", "pix_fmt", "bitrate"} <= m.Keys
    ensures "audio_codec" in m <==> |a.videoFile.audioInfo| > 0
    ensures forall k :: k in AudioKeys ==>
      var audio := SetAudioSettings(VideoSettings(a, quality), a.videoFile.audioInfo, a.contentType);
      (k in m <==> k in audio) && (k in m ==> m[k] == audio[k])
  {
    var video := VideoSettings(a, quality);
    var m := SetAudioSettings(video, a.videoFile.audioInfo, a.contentType);
    KeepsVideoKeys(video, m);
    m
  }

  /** The video keys are not audio keys, so the audio step keeps them and
      their values. */
  lemma KeepsVideoKeys(video: map<string, string>, m: map<string, string>)
    requires Maps.AgreeOutside(video, m, AudioKeys)
    requires {"codec", "crf", "preset", "pix_fmt", "bitrate"} <= video.Keys
    ensures {"codec", "crf", "preset", "pix_fmt", "bitrate"} <= m.Keys
    ensures forall k :: k in {"codec", "crf", "preset", "pix_fmt", "bitrate"} ==> m[k] == video[k]
  {
    assert forall k :: k in {"codec", "crf", "preset", "pix_fmt", "bitrate"} ==> k !in AudioKeys;
  }

  /** The encoder settings for an analysis; an error when there is none. */
  function GetCompressionSettings(analysis: Option<VideoAnalysis>, quality: int): (r: Result<map<string, string>, string>)
    ensures r.Failure? <==> analysis.None?
    ensures r.Failure? ==> r.error == "video analysis is required"
    ensures r.Success? ==>
      && {"codec", "crf", "preset", "pix_fmt", "bitrate"} <= r.value.Keys
      && r.value["codec"] in {"libx264", "libx265"}
      && Numbers.AllDigits(r.value["crf"]) && 18 <= Numbers.DigitsValue(r.value["crf"]) <= 32
      && Presets.IsPreset(r.value["preset"])
      && r.value["pix_fmt"] == "yuv420p"
      && Text.HasSuffix(r.value["bitrate"], "k")
    ensures r.Success? ==> r.value == SettingsFor(analysis.value, quality)
    ensures r.Success? ==>
      var b := r.value["bitrate"];
      var info := analysis.value.videoFile.videoInfo;
      |b| >= 2 && Numbers.AllDigits(b[..|b| - 1])
      && Numbers.DigitsValue(b[..|b| - 1])
         == OptimalBitrateKbps(info.width, info.height, analysis.value.contentType, analysis.value.motionComplexity, quality)
  {
    if analysis.None? then Failure("video analysis is required")
    else
      var a := analysis.value;
      var video := VideoSettings(a, quality);
      var m := SettingsFor(a, quality);
      KeepsVideoKeys(video, m);
      Success(m)
  }
}

=== FILE: cli.dfy ===
/**
 The command-line front end of `cmd/compressvideo`: flag validation and
 output naming, the hardware-accelerator choice, the video-file filter,
 the per-entry decision of directory processing and the emoji labels.
 The file system is a parameter: `existing` holds the paths `os.Stat`
 finds and `directories` those among them that are directories. The
 accelerator detection is a parameter too, as its result.
 */
module Cli {
  import opened Wrappers
  import Text
  import Numbers
  import Paths
  import Analyzer

  /** The flag values `validateFlags` reads. */
  datatype Flags = Flags(
    inputFile: string,
    outputFile: string,
    quality: int,
    preset: string,
    force: bool,
    hwaccel: string)

  /** The flag defaults: quality 3, the balanced preset, no forced
      overwrite, no hardware acceleration and no output file. */
  function DefaultFlags(inputFile: string): (f: Flags)
    ensures f.inputFile == inputFile && f.outputFile == ""
    ensures f.quality == 3 && f.preset == "balanced" && !f.force && f.hwaccel == "none"
  {
    Flags(inputFile, "", 3, "balanced", false, "none")
  }

  const Presets: set<string> := {"fast", "balanced", "thorough"}
  const HwAccels: set<string> := {"none", "auto", "nvidia", "intel", "amd"}

  /** Why validation stopped, in the order the checks run. */
  datatype FlagError =
    | InputMissing(path: string)
    | QualityOutOfRange(quality: int)
    | UnknownPreset(preset: string)
    | UnknownHwAccel(hwaccel: string)
    | OutputExists(path: string)
  {
    function Message(): string {
      match this
      case InputMissing(p) => "input file does not exist: " + p
      case QualityOutOfRange(q) => "quality must be between 1-5 (got " + Numbers.FormatInt(q) + ")"
      case UnknownPreset(p) => "preset must be one of: fast, balanced, thorough (got " + p + ")"
      case UnknownHwAccel(h) =>
        "hardware acceleration must be one of: none, auto, nvidia, intel, amd (got " + h + ")"
      case OutputExists(p) => "output file already exists (use -f to force overwrite): " + p
    }
  }

  /** `path` with `tag` inserted before its extension (appended when it
      has none). */
  function Suffixed(path: string, tag: string): string {
    var ext := Paths.Ext(path);
    Text.TrimSuffix(path, ext) + tag + ext
  }

  /** `stem.ext` becomes `stem<tag>.ext`, with the same extension. */
  lemma SuffixedName(stem: string, tag: string, ext: string)
    requires Paths.IsExtension(ext)
    ensures Suffixed(stem + ext, tag) == stem + tag + ext
    ensures Paths.Ext(Suffixed(stem + ext, tag)) == ext
  {
    Paths.TrimExt(stem, ext);
    Paths.ExtOfSuffix(stem + tag, ext);
  }

  /** A path without an extension gets the tag appended. */
  lemma SuffixedPlain(path: string, tag: string)
    requires Paths.Ext(path) == ""
    ensures Suffixed(path, tag) == path + tag
  {
    assert path + "" == path;
    assert path + tag + "" == path + tag;
  }

  /** The tagged path is never the path itself. */
  lemma SuffixedDiffers(path: string, tag: string)
    requires tag != ""
    ensures Suffixed(path, tag) != path
  {
    var ext := Paths.Ext(path);
    assert Text.TrimSuffix(path, ext) + ext == path;
  }

  /** The default output: the input with `-compressed` before its
      extension. */
  function DefaultOutput(inputFile: string): string {
    Suffixed(inputFile, "-compressed")
  }

  /** `validateFlags`: the input must exist, the quality lie in 1..5, the
      preset and the accelerator be known, and an explicit output must not
      exist unless forced; the first failing check is reported. On success
      the value is the output path, the default one when none was given. */
  function ValidateFlags(f: Flags, existing: set<string>): (r: Result<string, FlagError>)
    ensures r == Failure(InputMissing(f.inputFile)) <==> f.inputFile !in existing
    ensures r == Failure(QualityOutOfRange(f.quality)) <==>
      f.inputFile in existing && !(1 <= f.quality <= 5)
    ensures r == Failure(UnknownPreset(f.preset)) <==>
      f.inputFile in existing && 1 <= f.quality <= 5 && f.preset !in Presets
    ensures r == Failure(UnknownHwAccel(f.hwaccel)) <==>
      f.inputFile in existing && 1 <= f.quality <= 5 && f.preset in Presets && f.hwaccel !in HwAccels
    ensures r.Success? <==>
      f.inputFile in existing && 1 <= f.quality <= 5 && f.preset in Presets && f.hwaccel in HwAccels
      && (f.outputFile == "" || f.outputFile !in existing || f.force)
    ensures r.Failure? ==> r.error.OutputExists? ==> r.error.path == f.outputFile
    ensures r.Success? && f.outputFile != "" ==> r.value == f.outputFile
    ensures r.Success? && f.outputFile == "" ==> r.value == DefaultOutput(f.inputFile)
  {
    if f.inputFile !in existing then Failure(InputMissing(f.inputFile))
    else if f.quality < 1 || f.quality > 5 then Failure(QualityOutOfRange(f.quality))
    else if f.preset !in Presets then Failure(UnknownPreset(f.preset))
    else if f.hwaccel !in HwAccels then Failure(UnknownHwAccel(f.hwaccel))
    else if f.outputFile != "" then
      if f.outputFile in existing && !f.force then Failure(OutputExists(f.outputFile))
      else Success(f.outputFile)
    else Success(DefaultOutput(f.inputFile))
  }

  /** The output `process` falls back to when the flags left none: the
      input's directory joined with its tagged base name. */
  function ProcessFallbackOutput(inputFile: string, outputFile: string): string {
    if outputFile == "" then
      var ext := Paths.Ext(inputFile);
      Paths.Join(Paths.Dir(inputFile), Text.TrimSuffix(Paths.Base(inputFile), ext) + "-compressed" + ext)
    else outputFile
  }

  /** The output directory `process` falls back to for a directory input. */
  function DirectoryFallbackOutput(inputFile: string, outputFile: string): string {
    if outputFile == "" then inputFile + "_compressed" else outputFile
  }

  /** `process` up to the point where it hands over to the single-file or
      the directory path: validation, the two output fallbacks, and for a
      single file the overwrite check `processSingleFile` repeats. On
      success the value is the output the work goes to. Validation always
      leaves an output path, so neither fallback is ever taken: a
      directory given without an output goes to `<dir>-compressed`, never
      to `<dir>_compressed`, and a single file is never written over
      without `--force`. */
  function Process(f: Flags, existing: set<string>, directories: set<string>): (r: Result<string, FlagError>)
    ensures ValidateFlags(f, existing).Failure? ==> r == ValidateFlags(f, existing)
    ensures r.Success? <==>
      ValidateFlags(f, existing).Success?
      && (f.inputFile in directories || ValidateFlags(f, existing).value !in existing || f.force)
    ensures r.Success? ==> r.value == ValidateFlags(f, existing).value
    ensures r.Success? && f.inputFile !in directories ==> r.value !in existing || f.force
    ensures r.Failure? && ValidateFlags(f, existing).Success? ==>
      r.error == OutputExists(ValidateFlags(f, existing).value)
  {
    var validated :- ValidateFlags(f, existing);
    assert validated != "" by {
      if f.outputFile == "" {
        SuffixedLonger(f.inputFile, "-compressed");
      }
    }
    var out := ProcessFallbackOutput(f.inputFile, validated);
    if f.inputFile in directories then Success(DirectoryFallbackOutput(f.inputFile, out))
    else if out in existing && !f.force then Failure(OutputExists(out))
    else Success(out)
  }

  lemma SuffixedLonger(path: string, tag: string)
    ensures |Suffixed(path, tag)| == |path| + |tag|
  {
    var ext := Paths.Ext(path);
    assert |Text.TrimSuffix(path, ext)| + |ext| == |path|;
  }

  /** `contains`: whether `value` occurs in `slice`, scanning from the
      front. */
  function Contains(slice: seq<string>, value: string): (r: bool)
    ensures r <==> value in slice
  {
    if |slice| == 0 then false
    else if slice[0] == value then true
    else Contains(slice[1..], value)
  }

  /** The accelerator choice of `processSingleFile`. `detected` is what
      `DetectAvailableHWAccelerators` returned: the accelerators, or the
      error it reported. "none" skips detection; an error or an empty
      list gives "none"; "auto" takes nvidia, then intel, then amd; a
      named accelerator is kept only when detected. */
  function ResolveHwAccel(hwaccel: string, detected: Result<seq<string>, string>): (r: string)
    ensures r == "none" || (detected.Success? && r in detected.value)
    ensures hwaccel == "none" || detected.Failure? ==> r == "none"
    ensures detected.Success? && |detected.value| == 0 ==> r == "none"
    ensures hwaccel != "auto" && r != "none" ==> r == hwaccel
    ensures hwaccel != "none" && hwaccel != "auto" && detected.Success? ==>
      (r == hwaccel <==> hwaccel in detected.value) && (hwaccel !in detected.value ==> r == "none")
  {
    if hwaccel == "none" then "none"
    else if detected.Failure? then "none"
    else if |detected.value| == 0 then "none"
    else if hwaccel == "auto" then
      if Contains(detected.value, "nvidia") then "nvidia"
      else if Contains(detected.value, "intel") then "intel"
      else if Contains(detected.value, "amd") then "amd"
      else "none"
    else if !Contains(detected.value, hwaccel) then "none"
    else hwaccel
  }

  /** "auto" prefers nvidia over intel over amd. */
  lemma AutoPriority(accelerators: seq<string>)
    ensures "nvidia" in accelerators ==> ResolveHwAccel("auto", Success(accelerators)) == "nvidia"
    ensures "nvidia" !in accelerators && "intel" in accelerators ==>
      ResolveHwAccel("auto", Success(accelerators)) == "intel"
    ensures "nvidia" !in accelerators && "intel" !in accelerators && "amd" in accelerators ==>
      ResolveHwAccel("auto", Success(accelerators)) == "amd"
    ensures "nvidia" !in accelerators && "intel" !in accelerators && "amd" !in accelerators ==>
      ResolveHwAccel("auto", Success(accelerators)) == "none"
  {
  }

  /** A validated accelerator flag resolves to a value the flag itself
      accepts. */
  lemma ResolvedIsValid(hwaccel: string, detected: Result<seq<string>, string>)
    requires hwaccel in HwAccels
    ensures ResolveHwAccel(hwaccel, detected) in HwAccels
  {
  }

  /** The extensions `isVideoFile` accepts, lower case. */
  const VideoExtensions: seq<string> :=
    [".mp4", ".mkv", ".avi", ".mov", ".wmv", ".flv", ".webm", ".m4v", ".mpg", ".mpeg", ".3gp"]

  /** `isVideoFile`: the lower-cased extension is a video extension. */
  function IsVideoFile(filename: string): (r: bool)
    ensures r <==> Text.ToLower(Paths.Ext(filename)) in VideoExtensions
  {
    Contains(VideoExtensions, Text.ToLower(Paths.Ext(filename)))
  }

  /** A name ending in a video extension, in any letter case, is a video
      file; a name without an extension is not. */
  lemma VideoFileByExtension(stem: string, ext: string)
    requires Paths.IsExtension(ext)
    ensures IsVideoFile(stem + ext) <==> Text.ToLower(ext) in VideoExtensions
    ensures Paths.Ext(stem) == "" && '.' !in stem ==> !IsVideoFile(stem)
  {
    Paths.ExtOfSuffix(stem, ext);
  }

  /** `getFileExtension`: the suffix from the last dot, or "" when there
      is no dot. Unlike `filepath.Ext` it does not stop at a slash. */
  function GetFileExtension(filename: string): (r: string)
    ensures r == "" <==> '.' !in filename
    ensures r != "" ==> r[0] == '.' && '.' !in r[1..] && Text.HasSuffix(filename, r)
  {
    if |filename| == 0 then ""
    else
      var last := filename[|filename| - 1];
      var init := filename[..|filename| - 1];
      assert filename == init + [last];
      if last == '.' then "."
      else
        var e := GetFileExtension(init);
        if e == "" then "" else e + [last]
  }

  /** On a name without slashes it agrees with `filepath.Ext`. */
  lemma {:induction false} GetFileExtensionOfName(filename: string)
    requires '/' !in filename
    ensures GetFileExtension(filename) == Paths.Ext(filename)
    decreases |filename|
  {
    if |filename| > 0 {
      var init := filename[..|filename| - 1];
      assert filename == init + [filename[|filename| - 1]];
      GetFileExtensionOfName(init);
    }
  }

  /** One entry of the input directory as `os.ReadDir` lists it. */
  datatype DirEntry = DirEntry(name: string, isDir: bool)

  /** What `processDirectory` does with one entry. */
  datatype EntryAction =
    | SkipDirectory
    | SkipNonVideo
    | SkipExisting(outputPath: string)
    | Compress(inputPath: string, outputPath: string)

  /** The output name of a video in directory mode: the name with
      `-compressed` before its extension. */
  function DirectoryOutputName(fileName: string): string {
    Suffixed(fileName, "-compressed")
  }

  /** The decision of `processDirectory` for one entry: subdirectories
      and non-video files are skipped, and so is a video whose output
      already exists unless forced. */
  function EntryActionOf(e: DirEntry, inputDir: string, outputDir: string, existing: set<string>, force: bool): (a: EntryAction)
    ensures a.Compress? <==>
      !e.isDir && IsVideoFile(e.name) && (Paths.Join(outputDir, DirectoryOutputName(e.name)) !in existing || force)
    ensures a.SkipNonVideo? <==> !e.isDir && !IsVideoFile(e.name)
    ensures a.SkipDirectory? <==> e.isDir
    ensures a.Compress? ==> a.inputPath == Paths.Join(inputDir, e.name)
    ensures a.Compress? || a.SkipExisting? ==> a.outputPath == Paths.Join(outputDir, DirectoryOutputName(e.name))
  {
    if e.isDir then SkipDirectory
    else if !IsVideoFile(e.name) then SkipNonVideo
    else
      var outputPath := Paths.Join(outputDir, DirectoryOutputName(e.name));
      if outputPath in existing && !force then SkipExisting(outputPath)
      else Compress(Paths.Join(inputDir, e.name), outputPath)
  }

  /** A compressed entry keeps its video extension, so the output is a
      video file too, and its name differs from the input's. */
  lemma DirectoryOutputIsVideo(stem: string, ext: string)
    requires Paths.IsExtension(ext)
    ensures DirectoryOutputName(stem + ext) == stem + "-compressed" + ext
    ensures IsVideoFile(DirectoryOutputName(stem + ext)) == IsVideoFile(stem + ext)
    ensures DirectoryOutputName(stem + ext) != stem + ext
  {
    SuffixedName(stem, "-compressed", ext);
    Paths.ExtOfSuffix(stem, ext);
    SuffixedDiffers(stem + ext, "-compressed");
  }

  /** `videoCount`: the entries that are files with a video extension. */
  function VideoCount(entries: seq<DirEntry>): (n: nat)
    ensures n <= |entries|
    ensures n == 0 <==> forall i :: 0 <= i < |entries| ==> entries[i].isDir || !IsVideoFile(entries[i].name)
  {
    if |entries| == 0 then 0
    else
      var rest := VideoCount(entries[1..]);
      assert forall i :: 1 <= i < |entries| ==> entries[i] == entries[1..][i - 1];
      (if !entries[0].isDir && IsVideoFile(entries[0].name) then 1 else 0) + rest
  }

  /** `getContentTypeEmoji` on the labels of `ContentType.String`. */
  function ContentTypeEmoji(contentType: string): (e: string)
    ensures e == "\U{1F4F9}" <==>
      contentType !in {"Screencast", "Animation", "Gaming", "Sports Action", "Live Action", "Documentary"}
  {
    match contentType
    case "Screencast" => "\U{1F4BB}"
    case "Animation" => "\U{1F3A8}"
    case "Gaming" => "\U{1F3AE}"
    case "Sports Action" => "\U{26BD}"
    case "Live Action" => "\U{1F3AC}"
    case "Documentary" => "\U{1F30D}"
    case _ => "\U{1F4F9}"
  }

  /** Each known content type has its own emoji, and only the unknown one
      gets the generic camera. */
  lemma ContentTypeEmojiDistinct(a: Analyzer.ContentType, b: Analyzer.ContentType)
    ensures ContentTypeEmoji(a.Name()) == "\U{1F4F9}" <==> a == Analyzer.Unknown
    ensures a != b ==> ContentTypeEmoji(a.Name()) != ContentTypeEmoji(b.Name())
  {
  }

  /** `getMotionComplexityEmoji` on the labels of `MotionComplexity.String`. */
  function MotionComplexityEmoji(complexity: string): (e: string)
    ensures e == "\U{1F6B6}" <==> complexity !in {"Low", "High", "Very High"}
  {
    match complexity
    case "Low" => "\U{1F422}"
    case "Medium" => "\U{1F6B6}"
    case "High" => "\U{1F3C3}"
    case "Very High" => "\U{1F680}"
    case _ => "\U{1F6B6}"
  }

  /** An unknown label is shown like Medium; the four levels are told
      apart. */
  lemma MotionEmojiFallback(shown: string, a: Analyzer.MotionComplexity, b: Analyzer.MotionComplexity)
    ensures shown !in {"Low", "Medium", "High", "Very High"} ==>
      MotionComplexityEmoji(shown) == MotionComplexityEmoji("Medium")
    ensures a != b && a != Analyzer.MotionUnset && b != Analyzer.MotionUnset ==>
      MotionComplexityEmoji(a.Name()) != MotionComplexityEmoji(b.Name())
  {
  }
}

=== FILE: compressor.dfy ===
/**
 The compressor's pure decisions: adapting the analyzer's settings to the
 user's speed preference, turning a settings map into an ffmpeg argument
 list, choosing between the single and the segmented parallel path,
 packing segment progress into one integer and aggregating it, and the
 frame-quality estimate.
 */
module Compressor {
  import opened Wrappers
  import Text
  import Numbers
  import Maps
  import Presets
  import Analyzer

  /** The outcome of one compression: sizes in bytes, the size ratio and
      the percentage of space saved, the processing time in seconds, the
      estimated frame quality (0 to 100), the command line, the settings
      used, and the error that ended it, if any. */
  datatype CompressionResult = CompressionResult(
    inputFile: string,
    outputFile: string,
    originalSize: int,
    compressedSize: int,
    compressionRatio: real,
    savedSpaceBytes: int,
    savedSpacePercent: real,
    processingSeconds: real,
    averageFrameQuality: real,
    ffmpegCommand: string,
    settings: map<string, string>,
    error: Option<string>)

  // ---------------------------------------------------------------------
  // Speed preference

  /** The preset the "fast" preference switches to. */
  function FasterPreset(current: string): (p: string)
    ensures Presets.IsPreset(p)
    ensures Presets.IsPreset(current) ==> Presets.Slowness(p) <= Presets.Slowness(current)
    ensures Presets.IsPreset(current) && current != "ultrafast" ==> Presets.Slowness(p) < Presets.Slowness(current)
    ensures !Presets.IsPreset(current) ==> p == "ultrafast"
  {
    if current == "veryslow" then "medium"
    else if current == "slower" || current == "slow" then "fast"
    else if current == "medium" then "veryfast"
    else "ultrafast"
  }

  /** The preset the "thorough" preference switches to. */
  function SlowerPreset(current: string): (p: string)
    ensures Presets.IsPreset(p)
    ensures Presets.IsPreset(current) ==> Presets.Slowness(p) >= Presets.Slowness(current)
    ensures Presets.IsPreset(current) && current != "veryslow" ==> Presets.Slowness(p) > Presets.Slowness(current)
    ensures !Presets.IsPreset(current) ==> p == "veryslow"
  {
    if current == "ultrafast" || current == "veryfast" then "medium"
    else if current == "fast" || current == "medium" then "slow"
    else "veryslow"
  }

  /** The CRF text after the "thorough" preference: two lower when it reads
      as more than 20, unchanged otherwise. */
  function ThoroughCrf(crf: string): (r: string)
    ensures Numbers.AtoiValue(crf) > 20 ==> Numbers.AtoiValue(r) == Numbers.AtoiValue(crf) - 2
    ensures Numbers.AtoiValue(crf) <= 20 ==> r == crf
  {
    var v := Numbers.AtoiValue(crf);
    if v > 20 then
      Numbers.AtoiFormatInt(v - 2);
      Numbers.FormatInt(v - 2)
    else crf
  }

  /** Adapts the settings to the speed preference: "fast" moves to a faster
      preset and pins the thread count to the worker count; "thorough"
      moves to a slower preset and lowers a CRF above 20 by two; any other
      preference keeps the analyzer's settings. */
  function AdjustSettingsForPreset(settings: map<string, string>, preference: string, workers: int): (r: map<string, string>)
    ensures preference != "fast" && preference != "thorough" ==> r == settings
    ensures preference == "fast" ==>
      && Maps.AgreeOutside(settings, r, {"preset", "threads"})
      && "preset" in r && r["preset"] == FasterPreset(Maps.Get(settings, "preset"))
      && "threads" in r && r["threads"] == Numbers.FormatInt(workers)
    ensures preference == "thorough" ==>
      && Maps.AgreeOutside(settings, r, {"preset", "crf"})
      && "preset" in r && r["preset"] == SlowerPreset(Maps.Get(settings, "preset"))
      && ("crf" in r <==> "crf" in settings)
      && ("crf" in settings ==> r["crf"] == ThoroughCrf(settings["crf"]))
  {
    var current := Maps.Get(settings, "preset");
    if preference == "fast" then
      settings["preset" := FasterPreset(current)]["threads" := Numbers.FormatInt(workers)]
    else if preference == "thorough" then
      var slower := settings["preset" := SlowerPreset(current)];
      if "crf" in settings then slower["crf" := ThoroughCrf(settings["crf"])] else slower
    else settings
  }

  // ---------------------------------------------------------------------
  // ffmpeg arguments

  /** The ffmpeg options the compressor may emit, in the order it emits
      them. `-b:v` has two places: inside the NVENC block and at the end. */
  const FlagTexts: seq<string> := [
    "-i", "-c:v", "-preset", "-crf", "-profile:v",
    "-level", "-tune", "-x265-params", "-rc", "-b:v",
    "-rc-lookahead", "-spatial-aq", "-temporal-aq", "-pix_fmt", "-force_key_frames",
    "-c:a", "-b:a", "-threads", "-b:v"]

  type FlagRank = r: nat | r < 19

  /** An option, identified by its position in the order of emission. */
  datatype Flag = Flag(rank: FlagRank)
  {
    function Text(): string {
      FlagTexts[rank]
    }
  }

  const Input := Flag(0)
  const VideoCodec := Flag(1)
  const Preset := Flag(2)
  const Crf := Flag(3)
  const Profile := Flag(4)
  const Level := Flag(5)
  const Tune := Flag(6)
  const X265Params := Flag(7)
  const RateControl := Flag(8)
  const NvencBitrate := Flag(9)
  const Lookahead := Flag(10)
  const SpatialAq := Flag(11)
  const TemporalAq := Flag(12)
  const PixFmt := Flag(13)
  const ForceKeyFrames := Flag(14)
  const AudioCodec := Flag(15)
  const AudioBitrate := Flag(16)
  const Threads := Flag(17)
  const Bitrate := Flag(18)

  /** An option and its value, which become two consecutive arguments. */
  datatype Opt = Opt(flag: Flag, value: string)

  /** Each option's flag comes later in the emission order than the one
      before it. */
  predicate Ordered(opts: seq<Opt>)
    decreases |opts|
  {
    |opts| <= 1 || (opts[0].flag.rank < opts[1].flag.rank && Ordered(opts[1..]))
  }

  /** Every option's rank lies in `lo .. hi`. */
  predicate RanksWithin(opts: seq<Opt>, lo: nat, hi: nat)
    decreases |opts|
  {
    |opts| == 0 || (lo <= opts[0].flag.rank <= hi && RanksWithin(opts[1..], lo, hi))
  }

  lemma {:induction false} RanksWithinFirst(opts: seq<Opt>, lo: nat, hi: nat)
    requires RanksWithin(opts, lo, hi)
    ensures forall i :: 0 <= i < |opts| ==> lo <= opts[i].flag.rank <= hi
    decreases |opts|
  {
    if |opts| > 0 {
      RanksWithinFirst(opts[1..], lo, hi);
      assert forall i :: 1 <= i < |opts| ==> opts[i] == opts[1..][i - 1];
    }
  }

  /** Ordered options have strictly increasing ranks, so no flag repeats. */
  lemma {:induction false} OrderedRanksIncrease(opts: seq<Opt>)
    requires Ordered(opts)
    ensures forall i, j :: 0 <= i < j < |opts| ==> opts[i].flag.rank < opts[j].flag.rank
    decreases |opts|
  {
    if |opts| > 1 {
      var rest := opts[1..];
      OrderedRanksIncrease(rest);
      forall i, j | 0 <= i < j < |opts|
        ensures opts[i].flag.rank < opts[j].flag.rank
      {
        if i > 0 {
          assert opts[i] == rest[i - 1] && opts[j] == rest[j - 1];
        } else if j > 1 {
          assert opts[1] == rest[0] && opts[j] == rest[j - 1];
        }
      }
    }
  }

  /** Ordered options whose ranks lie in disjoint consecutive ranges
      concatenate to ordered options. */
  lemma {:induction false} OrderedAppend(a: seq<Opt>, b: seq<Opt>, lo: nat, mid: nat, hi: nat)
    requires lo <= mid <= hi
    requires Ordered(a) && Ordered(b)
    requires RanksWithin(a, lo, mid) && RanksWithin(b, mid + 1, hi)
    ensures Ordered(a + b) && RanksWithin(a + b, lo, hi)
    decreases |a|
  {
    if |a| == 0 {
      assert a + b == b;
      RanksWithinWiden(b, mid + 1, hi, lo);
    } else {
      OrderedAppend(a[1..], b, lo, mid, hi);
      assert (a + b)[1..] == a[1..] + b;
      assert (a + b)[0] == a[0];
      if |a| >= 2 {
        assert (a + b)[1] == a[1];
      } else if |b| > 0 {
        assert (a + b)[1] == b[0];
      }
    }
  }

  lemma {:induction false} RanksWithinWidenHigh(opts: seq<Opt>, lo: nat, hi: nat, higher: nat)
    requires RanksWithin(opts, lo, hi) && hi <= higher
    ensures RanksWithin(opts, lo, higher)
    decreases |opts|
  {
    if |opts| > 0 {
      RanksWithinWidenHigh(opts[1..], lo, hi, higher);
    }
  }

  lemma {:induction false} RanksWithinWiden(opts: seq<Opt>, lo: nat, hi: nat, lower: nat)
    requires RanksWithin(opts, lo, hi) && lower <= lo
    ensures RanksWithin(opts, lower, hi)
    decreases |opts|
  {
    if |opts| > 0 {
      RanksWithinWiden(opts[1..], lo, hi, lower);
    }
  }

  /** The single option `flag value`. */
  function One(flag: Flag, value: string): (o: seq<Opt>)
    ensures Ordered(o) && RanksWithin(o, flag.rank, flag.rank)
    ensures o == [Opt(flag, value)]
  {
    [Opt(flag, value)]
  }

  /** `flag value` when the value is non-empty, nothing otherwise. */
  function OptIf(flag: Flag, value: string): (o: seq<Opt>)
    ensures Ordered(o) && RanksWithin(o, flag.rank, flag.rank)
    ensures forall x :: x in o <==> x == Opt(flag, value) && value != ""
  {
    if value != "" then One(flag, value) else []
  }

  predicate IsNvenc(codec: string) {
    codec == "h264_nvenc" || codec == "hevc_nvenc"
  }

  /** The NVENC target bitrate when the settings have none: by the probed
      height, or 4M when probing failed. */
  function NvencDefaultBitrate(probedHeight: Option<int>): (b: string)
    ensures b in {"2M", "4M", "8M"}
    ensures probedHeight.None? ==> b == "4M"
    ensures probedHeight.Some? ==>
      (b == "2M" <==> probedHeight.value <= 720) && (b == "8M" <==> probedHeight.value > 1080)
  {
    if probedHeight.None? then "4M"
    else if probedHeight.value <= 720 then "2M"
    else if probedHeight.value <= 1080 then "4M"
    else "8M"
  }

  /** The NVENC target bitrate: the configured one, or the default by
      height when none is set. */
  function NvencTarget(settings: map<string, string>, probedHeight: Option<int>): (b: string)
    ensures b != ""
    ensures Maps.Get(settings, "bitrate") != "" ==> b == settings["bitrate"]
    ensures Maps.Get(settings, "bitrate") == "" ==> b == NvencDefaultBitrate(probedHeight)
  {
    var bitrate := Maps.Get(settings, "bitrate");
    if "bitrate" in settings && bitrate != "" then bitrate else NvencDefaultBitrate(probedHeight)
  }

  /** The NVENC block: variable bit rate control at the configured bitrate
      (or the default by height), and except on Windows the look-ahead and
      adaptive quantisation options. */
  function NvencOpts(settings: map<string, string>, goos: string, probedHeight: Option<int>): (o: seq<Opt>)
    ensures Ordered(o) && RanksWithin(o, 8, 12)
  {
    var nvencBitrate := NvencTarget(settings, probedHeight);
    var base := One(RateControl, "vbr") + One(NvencBitrate, nvencBitrate);
    OrderedAppend(One(RateControl, "vbr"), One(NvencBitrate, nvencBitrate), 8, 8, 9);
    if goos == "windows" then base
    else
      var o1 := base + One(Lookahead, "20");
      OrderedAppend(base, One(Lookahead, "20"), 8, 9, 10);
      var o2 := o1 + One(SpatialAq, "1");
      OrderedAppend(o1, One(SpatialAq, "1"), 8, 10, 11);
      OrderedAppend(o2, One(TemporalAq, "1"), 8, 11, 12);
      o2 + One(TemporalAq, "1")
  }

  /** The codec-specific block: x265 parameters for libx265, or the NVENC
      block for the two NVENC encoders. */
  function CodecParamOpts(settings: map<string, string>, goos: string, probedHeight: Option<int>): (o: seq<Opt>)
    ensures Ordered(o) && RanksWithin(o, 7, 12)
  {
    var codec := Maps.Get(settings, "codec");
    if codec == "libx265" && Maps.Get(settings, "x265-params") != "" then
      var x := One(X265Params, settings["x265-params"]);
      RanksWithinWidenHigh(x, 7, 7, 12);
      x
    else if Text.Contains(codec, "nvenc") then
      if IsNvenc(codec) then
        var n := NvencOpts(settings, goos, probedHeight);
        RanksWithinWiden(n, 8, 12, 7);
        n
      else []
    else []
  }

  /** The audio block: `-c:a` with the codec, and for a codec other than
      `copy` also `-b:a` with a non-empty audio bitrate. */
  function AudioOpts(settings: map<string, string>): (o: seq<Opt>)
    ensures Ordered(o) && RanksWithin(o, 15, 16)
  {
    var audioCodec := Maps.Get(settings, "audio_codec");
    if audioCodec == "" then []
    else if audioCodec == "copy" then
      var c := One(AudioCodec, "copy");
      RanksWithinWidenHigh(c, 15, 15, 16);
      c
    else
      var b := OptIf(AudioBitrate, Maps.Get(settings, "audio_bitrate"));
      OrderedAppend(One(AudioCodec, audioCodec), b, 15, 15, 16);
      One(AudioCodec, audioCodec) + b
  }

  /** The options up to `-tune`: the input, then the video codec, preset,
      CRF, profile, level and tune that are set. */
  function HeadOpts(input: string, settings: map<string, string>): seq<Opt> {
    One(Input, input)
      + OptIf(VideoCodec, Maps.Get(settings, "codec"))
      + OptIf(Preset, Maps.Get(settings, "preset"))
      + OptIf(Crf, Maps.Get(settings, "crf"))
      + OptIf(Profile, Maps.Get(settings, "profile"))
      + OptIf(Level, Maps.Get(settings, "level"))
      + OptIf(Tune, Maps.Get(settings, "tune"))
  }

  /** The options after the codec-specific block: pixel format, key frames,
      audio, threads and the target bitrate that are set. */
  function TailOpts(settings: map<string, string>): seq<Opt> {
    OptIf(PixFmt, Maps.Get(settings, "pix_fmt"))
      + OptIf(ForceKeyFrames, Maps.Get(settings, "force_key_frames"))
      + AudioOpts(settings)
      + OptIf(Threads, Maps.Get(settings, "threads"))
      + OptIf(Bitrate, Maps.Get(settings, "bitrate"))
  }

  /** The options between `-y` and the output file. */
  function Options(input: string, settings: map<string, string>, goos: string, probedHeight: Option<int>): (o: seq<Opt>)
    ensures |o| > 0 && o[0] == Opt(Input, input)
  {
    HeadOpts(input, settings) + CodecParamOpts(settings, goos, probedHeight) + TailOpts(settings)
  }

  lemma HeadOrdered(input: string, settings: map<string, string>)
    ensures Ordered(HeadOpts(input, settings)) && RanksWithin(HeadOpts(input, settings), 0, 6)
  {
    var o0 := One(Input, input);
    var o1 := o0 + OptIf(VideoCodec, Maps.Get(settings, "codec"));
    OrderedAppend(o0, OptIf(VideoCodec, Maps.Get(settings, "codec")), 0, 0, 1);
    var o2 := o1 + OptIf(Preset, Maps.Get(settings, "preset"));
    OrderedAppend(o1, OptIf(Preset, Maps.Get(settings, "preset")), 0, 1, 2);
    var o3 := o2 + OptIf(Crf, Maps.Get(settings, "crf"));
    OrderedAppend(o2, OptIf(Crf, Maps.Get(settings, "crf")), 0, 2, 3);
    var o4 := o3 + OptIf(Profile, Maps.Get(settings, "profile"));
    OrderedAppend(o3, OptIf(Profile, Maps.Get(settings, "profile")), 0, 3, 4);
    var o5 := o4 + OptIf(Level, Maps.Get(settings, "level"));
    OrderedAppend(o4, OptIf(Level, Maps.Get(settings, "level")), 0, 4, 5);
    OrderedAppend(o5, OptIf(Tune, Maps.Get(settings, "tune")), 0, 5, 6);
  }

  lemma TailOrdered(settings: map<string, string>)
    ensures Ordered(TailOpts(settings)) && RanksWithin(TailOpts(settings), 13, 18)
  {
    var o0 := OptIf(PixFmt, Maps.Get(settings, "pix_fmt"));
    var o1 := o0 + OptIf(ForceKeyFrames, Maps.Get(settings, "force_key_frames"));
    OrderedAppend(o0, OptIf(ForceKeyFrames, Maps.Get(settings, "force_key_frames")), 13, 13, 14);
    var o2 := o1 + AudioOpts(settings);
    OrderedAppend(o1, AudioOpts(settings), 13, 14, 16);
    var o3 := o2 + OptIf(Threads, Maps.Get(settings, "threads"));
    OrderedAppend(o2, OptIf(Threads, Maps.Get(settings, "threads")), 13, 16, 17);
    OrderedAppend(o3, OptIf(Bitrate, Maps.Get(settings, "bitrate")), 13, 17, 18);
  }

  /** The options follow the fixed emission order. */
  lemma OptionsOrdered(input: string, settings: map<string, string>, goos: string, probedHeight: Option<int>)
    ensures Ordered(Options(input, settings, goos, probedHeight))
  {
    HeadOrdered(input, settings);
    TailOrdered(settings);
    OrderedAppendThree(HeadOpts(input, settings), CodecParamOpts(settings, goos, probedHeight), TailOpts(settings));
  }

  /** The three option blocks, each ordered within its own rank range,
      concatenate to ordered options. */
  lemma OrderedAppendThree(head: seq<Opt>, codec: seq<Opt>, tail: seq<Opt>)
    requires Ordered(head) && RanksWithin(head, 0, 6)
    requires Ordered(codec) && RanksWithin(codec, 7, 12)
    requires Ordered(tail) && RanksWithin(tail, 13, 18)
    ensures Ordered(head + codec + tail)
  {
    OrderedAppend(head, codec, 0, 6, 12);
    OrderedAppend(head + codec, tail, 0, 12, 18);
  }

  /** Ranks increase along the options, so no option is emitted twice and
      each comes after every option earlier in the emission order. */
  lemma OptionsRanksIncrease(input: string, settings: map<string, string>, goos: string, probedHeight: Option<int>)
    ensures var o := Options(input, settings, goos, probedHeight);
      forall i, j :: 0 <= i < j < |o| ==> o[i].flag.rank < o[j].flag.rank
  {
    OptionsOrdered(input, settings, goos, probedHeight);
    OrderedRanksIncrease(Options(input, settings, goos, probedHeight));
  }

  /** Options as arguments: each flag followed by its value. */
  function Flatten(opts: seq<Opt>): (args: seq<string>)
    ensures |args| == 2 * |opts|
    ensures forall i :: 0 <= i < |opts| ==> args[2 * i] == opts[i].flag.Text() && args[2 * i + 1] == opts[i].value
  {
    if |opts| == 0 then []
    else
      var rest := Flatten(opts[1..]);
      var args := [opts[0].flag.Text(), opts[0].value] + rest;
      assert forall k :: 2 <= k < |args| ==> args[k] == rest[k - 2];
      assert forall i :: 1 <= i < |opts| ==> opts[i] == opts[1..][i - 1];
      args
  }

  /** `-y`, the options as flag/value pairs, then the output file. */
  function Arguments(opts: seq<Opt>, output: string): (args: seq<string>)
    ensures |args| == 2 * |opts| + 2
    ensures args[0] == "-y" && args[|args| - 1] == output
    ensures forall i :: 0 <= i < |opts| ==> args[2 * i + 1] == opts[i].flag.Text() && args[2 * i + 2] == opts[i].value
  {
    var flat := Flatten(opts);
    var args := ["-y"] + flat + [output];
    assert forall i :: 0 <= i < |flat| ==> args[i + 1] == flat[i];
    args
  }

  /** The ffmpeg argument list: overwrite, the options, the output file. The
      probed height is `None` when probing the input failed. */
  function BuildFFmpegArgs(input: string, output: string, settings: map<string, string>, goos: string, probedHeight: Option<int>): (args: seq<string>)
    ensures var opts := Options(input, settings, goos, probedHeight);
      && |args| == 2 * |opts| + 2
      && args[0] == "-y"
      && (forall i :: 0 <= i < |opts| ==> args[2 * i + 1] == opts[i].flag.Text() && args[2 * i + 2] == opts[i].value)
      && args[|args| - 1] == output
    ensures |args| >= 4 && args[1] == "-i" && args[2] == input
  {
    var opts := Options(input, settings, goos, probedHeight);
    var args := Arguments(opts, output);
    assert args[1] == opts[0].flag.Text() && args[2] == opts[0].value;
    args
  }

  lemma NotOutsideRanks(o: seq<Opt>, lo: nat, hi: nat, x: Opt)
    requires RanksWithin(o, lo, hi) && (x.flag.rank < lo || x.flag.rank > hi)
    ensures x !in o
  {
    RanksWithinFirst(o, lo, hi);
  }

  /** The setting each plain option copies; "" for the other options. */
  function PlainKey(f: Flag): string {
    if f == VideoCodec then "codec"
    else if f == Preset then "preset"
    else if f == Crf then "crf"
    else if f == Profile then "profile"
    else if f == Level then "level"
    else if f == Tune then "tune"
    else if f == PixFmt then "pix_fmt"
    else if f == ForceKeyFrames then "force_key_frames"
    else if f == Threads then "threads"
    else if f == Bitrate then "bitrate"
    else ""
  }

  /** The options copied straight from a setting. */
  const PlainFlags: set<Flag> :=
    {VideoCodec, Preset, Crf, Profile, Level, Tune, PixFmt, ForceKeyFrames, Threads, Bitrate}

  /** The setting behind plain option `x` is set to `x`'s value. */
  predicate PlainSet(settings: map<string, string>, x: Opt) {
    x.value != "" && x.value == Maps.Get(settings, PlainKey(x.flag))
  }

  /** Appending an optional option adds exactly that option when its value
      is set. */
  lemma InWithOptIf(a: seq<Opt>, flag: Flag, value: string, x: Opt)
    ensures x in a + OptIf(flag, value) <==> x in a || (x == Opt(flag, value) && value != "")
  {
  }

  /** A plain option with a given flag is set exactly when it carries its
      setting's non-empty value. */
  lemma PlainSetOf(settings: map<string, string>, flag: Flag, x: Opt)
    requires flag in PlainFlags && x.flag == flag
    ensures PlainSet(settings, x) <==> x == Opt(flag, Maps.Get(settings, PlainKey(flag))) && x.value != ""
  {
  }

  lemma HeadMembers(input: string, settings: map<string, string>, x: Opt)
    ensures x in HeadOpts(input, settings) <==>
      x == Opt(Input, input) || (x.flag in {VideoCodec, Preset, Crf, Profile, Level, Tune} && PlainSet(settings, x))
  {
    var o0 := One(Input, input);
    var o1 := o0 + OptIf(VideoCodec, Maps.Get(settings, "codec"));
    InWithOptIf(o0, VideoCodec, Maps.Get(settings, "codec"), x);
    var o2 := o1 + OptIf(Preset, Maps.Get(settings, "preset"));
    InWithOptIf(o1, Preset, Maps.Get(settings, "preset"), x);
    var o3 := o2 + OptIf(Crf, Maps.Get(settings, "crf"));
    InWithOptIf(o2, Crf, Maps.Get(settings, "crf"), x);
    var o4 := o3 + OptIf(Profile, Maps.Get(settings, "profile"));
    InWithOptIf(o3, Profile, Maps.Get(settings, "profile"), x);
    var o5 := o4 + OptIf(Level, Maps.Get(settings, "level"));
    InWithOptIf(o4, Level, Maps.Get(settings, "level"), x);
    InWithOptIf(o5, Tune, Maps.Get(settings, "tune"), x);
    if x.flag in {VideoCodec, Preset, Crf, Profile, Level, Tune} {
      PlainSetOf(settings, x.flag, x);
    }
  }

  lemma TailMembers(settings: map<string, string>, x: Opt)
    ensures x in TailOpts(settings) <==>
      (x.flag in {PixFmt, ForceKeyFrames, Threads, Bitrate} && PlainSet(settings, x)) || x in AudioOpts(settings)
  {
    var o0 := OptIf(PixFmt, Maps.Get(settings, "pix_fmt"));
    var o1 := o0 + OptIf(ForceKeyFrames, Maps.Get(settings, "force_key_frames"));
    InWithOptIf(o0, ForceKeyFrames, Maps.Get(settings, "force_key_frames"), x);
    var o2 := o1 + AudioOpts(settings);
    var o3 := o2 + OptIf(Threads, Maps.Get(settings, "threads"));
    InWithOptIf(o2, Threads, Maps.Get(settings, "threads"), x);
    InWithOptIf(o3, Bitrate, Maps.Get(settings, "bitrate"), x);
    if x.flag in {PixFmt, ForceKeyFrames, Threads, Bitrate} {
      PlainSetOf(settings, x.flag, x);
    }
  }

  /** A plain option is emitted exactly when its setting is present and
      non-empty, and then with the setting's value. */
  lemma PlainOptionEmitted(input: string, settings: map<string, string>, goos: string, probedHeight: Option<int>, x: Opt)
    requires x.flag in PlainFlags
    ensures x in Options(input, settings, goos, probedHeight) <==> PlainSet(settings, x)
  {
    NotOutsideRanks(CodecParamOpts(settings, goos, probedHeight), 7, 12, x);
    if x.flag.rank <= 6 {
      HeadMembers(input, settings, x);
      TailOrdered(settings);
      NotOutsideRanks(TailOpts(settings), 13, 18, x);
    } else {
      HeadOrdered(input, settings);
      NotOutsideRanks(HeadOpts(input, settings), 0, 6, x);
      TailMembers(settings, x);
      NotOutsideRanks(AudioOpts(settings), 15, 16, x);
    }
  }

  /** An option ranked within the codec-specific block is emitted exactly
      when that block holds it; likewise for the audio block. */
  lemma InOptionsByBlock(input: string, settings: map<string, string>, goos: string, probedHeight: Option<int>, x: Opt)
    ensures 7 <= x.flag.rank <= 12 ==>
      (x in Options(input, settings, goos, probedHeight) <==> x in CodecParamOpts(settings, goos, probedHeight))
    ensures 15 <= x.flag.rank <= 16 ==>
      (x in Options(input, settings, goos, probedHeight) <==> x in AudioOpts(settings))
  {
    if 7 <= x.flag.rank <= 12 {
      HeadOrdered(input, settings);
      NotOutsideRanks(HeadOpts(input, settings), 0, 6, x);
      TailOrdered(settings);
      NotOutsideRanks(TailOpts(settings), 13, 18, x);
    } else if 15 <= x.flag.rank <= 16 {
      HeadOrdered(input, settings);
      NotOutsideRanks(HeadOpts(input, settings), 0, 6, x);
      NotOutsideRanks(CodecParamOpts(settings, goos, probedHeight), 7, 12, x);
      TailMembers(settings, x);
    }
  }

  /** x265 parameters are passed exactly for libx265 with non-empty
      parameters. */
  lemma X265ParamsEmitted(input: string, settings: map<string, string>, goos: string, probedHeight: Option<int>, v: string)
    ensures Opt(X265Params, v) in Options(input, settings, goos, probedHeight)
      <==> Maps.Get(settings, "codec") == "libx265" && v != "" && v == Maps.Get(settings, "x265-params")
  {
    InOptionsByBlock(input, settings, goos, probedHeight, Opt(X265Params, v));
    var codec := Maps.Get(settings, "codec");
    if IsNvenc(codec) {
      NotOutsideRanks(NvencOpts(settings, goos, probedHeight), 8, 12, Opt(X265Params, v));
    }
  }

  lemma NvencContainsNvenc(codec: string)
    requires IsNvenc(codec)
    ensures Text.Contains(codec, "nvenc")
  {
    assert codec[5..] == "nvenc";
    Text.ContainsAt(codec, 5, "nvenc");
  }

  /** What the NVENC block holds, by itself. */
  lemma NvencMembers(settings: map<string, string>, goos: string, probedHeight: Option<int>, v: string)
    ensures var n := NvencOpts(settings, goos, probedHeight);
      && (Opt(RateControl, v) in n <==> v == "vbr")
      && (Opt(NvencBitrate, v) in n <==> v == NvencTarget(settings, probedHeight))
      && (Opt(Lookahead, v) in n <==> goos != "windows" && v == "20")
      && (Opt(SpatialAq, v) in n <==> goos != "windows" && v == "1")
      && (Opt(TemporalAq, v) in n <==> goos != "windows" && v == "1")
  {
    var base := One(RateControl, "vbr") + One(NvencBitrate, NvencTarget(settings, probedHeight));
    if goos != "windows" {
      assert NvencOpts(settings, goos, probedHeight)
        == base + One(Lookahead, "20") + One(SpatialAq, "1") + One(TemporalAq, "1");
    }
  }

  /** Within the NVENC ranks, the codec-specific block is the NVENC block
      for the NVENC encoders and holds nothing otherwise. */
  lemma CodecBlockNvencMembers(settings: map<string, string>, goos: string, probedHeight: Option<int>, x: Opt)
    requires 8 <= x.flag.rank <= 12
    ensures x in CodecParamOpts(settings, goos, probedHeight)
      <==> IsNvenc(Maps.Get(settings, "codec")) && x in NvencOpts(settings, goos, probedHeight)
  {
    var codec := Maps.Get(settings, "codec");
    if IsNvenc(codec) {
      NvencContainsNvenc(codec);
    }
  }

  /** The NVENC encoders get variable bit rate control at the target
      bitrate; no other codec gets either option. */
  lemma NvencRateControlEmitted(input: string, settings: map<string, string>, goos: string, probedHeight: Option<int>, v: string)
    ensures var o := Options(input, settings, goos, probedHeight);
      var nvenc := IsNvenc(Maps.Get(settings, "codec"));
      && (Opt(RateControl, v) in o <==> nvenc && v == "vbr")
      && (Opt(NvencBitrate, v) in o <==> nvenc && v == NvencTarget(settings, probedHeight))
  {
    NvencMembers(settings, goos, probedHeight, v);
    InOptionsByBlock(input, settings, goos, probedHeight, Opt(RateControl, v));
    CodecBlockNvencMembers(settings, goos, probedHeight, Opt(RateControl, v));
    InOptionsByBlock(input, settings, goos, probedHeight, Opt(NvencBitrate, v));
    CodecBlockNvencMembers(settings, goos, probedHeight, Opt(NvencBitrate, v));
  }

  /** The NVENC encoders get the look-ahead and adaptive quantisation
      options except on Windows; no other codec gets them. */
  lemma NvencTuningEmitted(input: string, settings: map<string, string>, goos: string, probedHeight: Option<int>, v: string)
    ensures var o := Options(input, settings, goos, probedHeight);
      var tuned := IsNvenc(Maps.Get(settings, "codec")) && goos != "windows";
      && (Opt(Lookahead, v) in o <==> tuned && v == "20")
      && (Opt(SpatialAq, v) in o <==> tuned && v == "1")
      && (Opt(TemporalAq, v) in o <==> tuned && v == "1")
  {
    NvencMembers(settings, goos, probedHeight, v);
    InOptionsByBlock(input, settings, goos, probedHeight, Opt(Lookahead, v));
    CodecBlockNvencMembers(settings, goos, probedHeight, Opt(Lookahead, v));
    InOptionsByBlock(input, settings, goos, probedHeight, Opt(SpatialAq, v));
    CodecBlockNvencMembers(settings, goos, probedHeight, Opt(SpatialAq, v));
    InOptionsByBlock(input, settings, goos, probedHeight, Opt(TemporalAq, v));
    CodecBlockNvencMembers(settings, goos, probedHeight, Opt(TemporalAq, v));
  }

  /** The audio codec is passed whenever set; the audio bitrate only with a
      codec other than `copy`, and only when set. */
  lemma AudioOptionsEmitted(input: string, settings: map<string, string>, goos: string, probedHeight: Option<int>, v: string)
    ensures var o := Options(input, settings, goos, probedHeight);
      var audioCodec := Maps.Get(settings, "audio_codec");
      && (Opt(AudioCodec, v) in o <==> v != "" && v == audioCodec)
      && (Opt(AudioBitrate, v) in o <==> audioCodec != "" && audioCodec != "copy" && v != "" && v == Maps.Get(settings, "audio_bitrate"))
  {
    AudioMembers(settings, v);
    InOptionsByBlock(input, settings, goos, probedHeight, Opt(AudioCodec, v));
    InOptionsByBlock(input, settings, goos, probedHeight, Opt(AudioBitrate, v));
  }

  /** What the audio block holds, by itself. */
  lemma AudioMembers(settings: map<string, string>, v: string)
    ensures var a := AudioOpts(settings);
      var audioCodec := Maps.Get(settings, "audio_codec");
      && (Opt(AudioCodec, v) in a <==> v != "" && v == audioCodec)
      && (Opt(AudioBitrate, v) in a <==> audioCodec != "" && audioCodec != "copy" && v != "" && v == Maps.Get(settings, "audio_bitrate"))
  {
    var audioCodec := Maps.Get(settings, "audio_codec");
    if audioCodec != "" && audioCodec != "copy" {
      var b := OptIf(AudioBitrate, Maps.Get(settings, "audio_bitrate"));
      assert AudioOpts(settings) == [Opt(AudioCodec, audioCodec)] + b;
      assert Opt(AudioCodec, v) !in b;
    }
  }

  // ---------------------------------------------------------------------
  // Frame-quality estimate

  /** The CRF the estimate assumes: the setting when it parses as a number,
      23 otherwise. */
  function AssumedCrf(settings: map<string, string>): (crf: real)
    ensures "crf" in settings && Numbers.ParseDecimal(settings["crf"]).Some? ==> crf == Numbers.ParseDecimal(settings["crf"]).value
    ensures "crf" !in settings || Numbers.ParseDecimal(settings["crf"]).None? ==> crf == 23.0
  {
    if "crf" in settings && Numbers.ParseDecimal(settings["crf"]).Some? then Numbers.ParseDecimal(settings["crf"]).value
    else 23.0
  }

  /** Quality points lost per CRF step; `None` for a codec the estimate
      does not know. */
  function QualitySlope(codec: string): (k: Option<real>)
    ensures k.Some? <==> codec in {"libx264", "libx265", "libvpx-vp9"}
    ensures k.Some? ==> k.value > 0.0
  {
    if codec == "libx264" then Some(1.96)
    else if codec == "libx265" then Some(1.76)
    else if codec == "libvpx-vp9" then Some(1.58)
    else None
  }

  /** The estimate for a codec and CRF, clamped to 0 .. 100. */
  function QualityFor(codec: string, crf: real): (q: real)
    ensures 0.0 <= q <= 100.0
    ensures QualitySlope(codec).None? ==> q == 0.0
    ensures QualitySlope(codec).Some? && 0.0 <= 100.0 - crf * QualitySlope(codec).value <= 100.0 ==>
      q == 100.0 - crf * QualitySlope(codec).value
    ensures QualitySlope(codec).Some? && 100.0 - crf * QualitySlope(codec).value < 0.0 ==> q == 0.0
    ensures QualitySlope(codec).Some? && 100.0 - crf * QualitySlope(codec).value > 100.0 ==> q == 100.0
  {
    var raw := if QualitySlope(codec).Some? then 100.0 - crf * QualitySlope(codec).value else 0.0;
    if raw < 0.0 then 0.0 else if raw > 100.0 then 100.0 else raw
  }

  /** The estimated visual quality of the settings' output on a 0 .. 100
      scale: a linear function of the CRF for x264, x265 and VP9, 0 for any
      other codec. */
  function EstimateFrameQuality(settings: map<string, string>): (q: real)
    ensures 0.0 <= q <= 100.0
    ensures Maps.Get(settings, "codec") !in {"libx264", "libx265", "libvpx-vp9"} ==> q == 0.0
    ensures ("crf" !in settings || Numbers.ParseDecimal(settings["crf"]).None?) && Maps.Get(settings, "codec") == "libx264"
      ==> q == 100.0 - 23.0 * 1.96
  {
    QualityFor(Maps.Get(settings, "codec"), AssumedCrf(settings))
  }

  /** A higher CRF never raises the estimate. */
  lemma QualityNonIncreasingInCrf(codec: string, crf1: real, crf2: real)
    requires crf1 <= crf2
    ensures QualityFor(codec, crf2) <= QualityFor(codec, crf1)
  {
    if QualitySlope(codec).Some? {
      var k := QualitySlope(codec).value;
      assert crf1 * k <= crf2 * k;
    }
  }

  /** The same, for settings that differ only in their integer CRF. */
  lemma FrameQualityNonIncreasingInCrf(settings: map<string, string>, crf1: int, crf2: int)
    requires crf1 <= crf2
    ensures EstimateFrameQuality(settings["crf" := Numbers.FormatInt(crf2)])
      <= EstimateFrameQuality(settings["crf" := Numbers.FormatInt(crf1)])
  {
    Numbers.ParseDecimalFormatInt(crf1);
    Numbers.ParseDecimalFormatInt(crf2);
    QualityNonIncreasingInCrf(Maps.Get(settings, "codec"), crf1 as real, crf2 as real);
  }

  // ---------------------------------------------------------------------
  // Parallel compression

  /** Videos longer than a minute are compressed in parallel segments,
      except screencasts. */
  predicate UseParallel(duration: real, contentType: Analyzer.ContentType) {
    duration > 60.0 && contentType != Analyzer.Screencast
  }

  /** One segment per worker, at most eight. */
  function SegmentCount(workers: int): (n: int)
    ensures n <= 8 && n <= workers
    ensures n == 8 || n == workers
  {
    if workers > 8 then 8 else workers
  }

  /** The settings each segment is compressed with: the video's settings
      with a key frame forced at the segment's first frame. */
  function SegmentSettings(settings: map<string, string>): (r: map<string, string>)
    ensures Maps.AgreeOutside(settings, r, {"force_key_frames"})
    ensures "force_key_frames" in r && r["force_key_frames"] == "expr:eq(n,0)"
  {
    settings["force_key_frames" := "expr:eq(n,0)"]
  }

  /** A segment's progress report as one integer: the segment number above
      the low 16 bits, the percentage in them. Both are the bit patterns of
      Go `int`s. */
  function PackProgress(segment: bv64, progress: bv64): bv64 {
    (segment << 16) | progress
  }

  function SegmentOf(update: bv64): bv64 {
    update >> 16
  }

  function ProgressOf(update: bv64): (p: bv64)
    ensures p < 0x1_0000
  {
    update & 0xFFFF
  }

  /** Unpacking a report gives back the segment and the progress, as long as
      the progress fits in 16 bits and the segment number leaves the sign
      bit clear. */
  lemma UnpackPack(segment: bv64, progress: bv64)
    requires progress < 0x1_0000 && segment < 0x8000_0000_0000
    ensures SegmentOf(PackProgress(segment, progress)) == segment
    ensures ProgressOf(PackProgress(segment, progress)) == progress
    ensures PackProgress(segment, progress) < 0x8000_0000_0000_0000
  {
  }

  /** A progress wider than 16 bits spills into the segment number: its
      high bits are or-ed into the segment and only its low 16 bits are
      read back as progress. */
  lemma PackWideProgress(segment: bv64, progress: bv64)
    requires segment < 0x1_0000_0000_0000
    ensures SegmentOf(PackProgress(segment, progress)) == segment | (progress >> 16)
    ensures ProgressOf(PackProgress(segment, progress)) == progress & 0xFFFF
    ensures progress >= 0x1_0000 ==> ProgressOf(PackProgress(segment, progress)) != progress
  {
  }

  function Sum(s: seq<int>): int {
    if |s| == 0 then 0 else Sum(s[..|s| - 1]) + s[|s| - 1]
  }

  lemma {:induction false} SumBounds(s: seq<int>)
    requires forall i :: 0 <= i < |s| ==> 0 <= s[i] <= 100
    ensures 0 <= Sum(s) <= 100 * |s|
    ensures Sum(s) == 100 * |s| <==> forall i :: 0 <= i < |s| ==> s[i] == 100
  {
    if |s| > 0 {
      var init := s[..|s| - 1];
      assert forall i :: 0 <= i < |init| ==> init[i] == s[i];
      SumBounds(init);
    }
  }

  lemma {:induction false} SumUpdate(s: seq<int>, k: nat, v: int)
    requires k < |s|
    ensures Sum(s[k := v]) == Sum(s) - s[k] + v
  {
    var t := s[k := v];
    if k < |s| - 1 {
      assert t[..|t| - 1] == s[..|s| - 1][k := v];
      SumUpdate(s[..|s| - 1], k, v);
    } else {
      assert t[..|t| - 1] == s[..|s| - 1];
    }
  }

  /** The overall progress during the segment phase: the mean segment
      percentage scaled to the 90% the segments account for, truncated. */
  function AverageProgress(segments: seq<int>): (avg: int)
    requires |segments| > 0
  {
    Numbers.Trunc(Sum(segments) as real / ((|segments| * 100) as real) * 90.0)
  }

  /** With every segment between 0 and 100 percent, the overall progress is
      between 0 and 90, and reaches 90 exactly when every segment is done. */
  lemma AverageProgressBounds(segments: seq<int>)
    requires |segments| > 0
    requires forall i :: 0 <= i < |segments| ==> 0 <= segments[i] <= 100
    ensures 0 <= AverageProgress(segments) <= 90
    ensures AverageProgress(segments) == 90 <==> forall i :: 0 <= i < |segments| ==> segments[i] == 100
  {
    SumBounds(segments);
    var total := Sum(segments) as real;
    var den := (|segments| * 100) as real;
    var x := total / den * 90.0;
    assert 0.0 <= total <= den;
    assert 0.0 <= x <= 90.0 by {
      DivBelowOne(total, den);
    }
    if Sum(segments) == 100 * |segments| {
      assert total / den == 1.0;
    } else {
      assert total <= den - 1.0;
      DivStrictlyBelowOne(total, den);
      assert x < 90.0;
    }
  }

  lemma DivBelowOne(a: real, b: real)
    requires 0.0 <= a <= b && b > 0.0
    ensures 0.0 <= a / b <= 1.0
  {
  }

  lemma DivStrictlyBelowOne(a: real, b: real)
    requires 0.0 <= a < b
    ensures a / b < 1.0
  {
  }

  /** One report reaching the aggregator: the segment's entry is replaced,
      and the new overall progress is passed on when it is below 90. A
      segment number outside the segment list is an index panic. */
  function AggregateStep(segments: seq<int>, update: bv64): (r: Result<(seq<int>, Option<int>), string>)
    ensures r.Failure? <==> SegmentOf(update) as int >= |segments|
    ensures r.Success? ==>
      var k := SegmentOf(update) as int;
      && r.value.0 == segments[k := ProgressOf(update) as int]
      && (r.value.1.Some? <==> AverageProgress(r.value.0) < 90)
      && (r.value.1.Some? ==> r.value.1.value == AverageProgress(r.value.0))
  {
    var k := SegmentOf(update) as int;
    if k >= |segments| then Failure("index out of range")
    else
      var next := segments[k := ProgressOf(update) as int];
      var avg := AverageProgress(next);
      Success((next, if avg < 90 then Some(avg) else None))
  }

  /** The segment list stays within 0 .. 100 percent as long as every report
      carries a percentage in that range. */
  lemma AggregateStepKeepsRange(segments: seq<int>, update: bv64)
    requires forall i :: 0 <= i < |segments| ==> 0 <= segments[i] <= 100
    requires ProgressOf(update) <= 100
    requires AggregateStep(segments, update).Success?
    ensures var next := AggregateStep(segments, update).value.0;
      forall i :: 0 <= i < |next| ==> 0 <= next[i] <= 100
  {
  }

  /** Reaching the aggregator, a report is suppressed exactly when it leaves
      every segment complete, and a passed-on value is in 0 .. 89. */
  lemma AggregateStepReports(segments: seq<int>, update: bv64)
    requires forall i :: 0 <= i < |segments| ==> 0 <= segments[i] <= 100
    requires ProgressOf(update) <= 100
    requires AggregateStep(segments, update).Success?
    ensures var (next, reported) := AggregateStep(segments, update).value;
      && (reported.None? <==> forall i :: 0 <= i < |next| ==> next[i] == 100)
      && (reported.Some? ==> 0 <= reported.value < 90)
  {
    var next := AggregateStep(segments, update).value.0;
    AggregateStepKeepsRange(segments, update);
    AverageProgressBounds(next);
  }

  /** The progress values reported while the segments run, in order, or the
      panic of a report for a segment that does not exist. */
  function Aggregate(segments: seq<int>, updates: seq<bv64>): (r: Result<seq<int>, string>)
    ensures r.Success? ==> forall i :: 0 <= i < |r.value| ==> r.value[i] < 90
    decreases |updates|
  {
    if |updates| == 0 then Success([])
    else
      match AggregateStep(segments, updates[0])
      case Failure(e) => Failure(e)
      case Success((next, reported)) =>
        match Aggregate(next, updates[1..])
        case Failure(e) => Failure(e)
        case Success(rest) =>
          Success((if reported.Some? then [reported.value] else []) + rest)
  }

  /** Every value reported by the aggregator is a true percentage below 90
      when every report carries a percentage of at most 100. */
  lemma {:induction false} AggregateReportsInRange(segments: seq<int>, updates: seq<bv64>)
    requires |segments| > 0
    requires forall i :: 0 <= i < |segments| ==> 0 <= segments[i] <= 100
    requires forall i :: 0 <= i < |updates| ==> ProgressOf(updates[i]) <= 100
    requires Aggregate(segments, updates).Success?
    ensures forall i :: 0 <= i < |Aggregate(segments, updates).value| ==> 0 <= Aggregate(segments, updates).value[i] < 90
    decreases |updates|
  {
    if |updates| > 0 {
      var (next, reported) := AggregateStep(segments, updates[0]).value;
      AggregateStepReports(segments, updates[0]);
      AggregateStepKeepsRange(segments, updates[0]);
      AggregateReportsInRange(next, updates[1..]);
    }
  }

  /** Everything the parallel path reports, in the interleaving where the
      aggregator has drained every report before the main goroutine moves
      on: the aggregated segment progress, then 90 once every segment
      succeeded, then 100 once the merge succeeded. The source does not
      wait for the aggregator, so other interleavings exist. */
  function ParallelProgress(segmentCount: nat, updates: seq<bv64>, segmentsOk: bool, mergeOk: bool): (r: Result<seq<int>, string>)
    ensures r.Success? && segmentsOk ==> |r.value| >= 1
    ensures r.Success? && segmentsOk && mergeOk ==> |r.value| >= 2 && r.value[|r.value| - 1] == 100 && r.value[|r.value| - 2] == 90
    ensures r.Success? && segmentsOk && !mergeOk ==> r.value[|r.value| - 1] == 90
    ensures r.Success? && !segmentsOk ==> forall i :: 0 <= i < |r.value| ==> r.value[i] < 90
  {
    match Aggregate(seq(segmentCount, _ => 0), updates)
    case Failure(e) => Failure(e)
    case Success(during) =>
      Success(during + (if segmentsOk then [90] + (if mergeOk then [100] else []) else []))
  }
}

=== FILE: ffmpeg.dfy ===
/**
 The legacy single-pass encoder: its options and defaults, the HDR test on
 a stream's colour transfer tag, the reading of ffmpeg's `HH:MM:SS.ss`
 progress times, the quality table and the ffmpeg arguments it builds.
 */
module FFmpeg {
  import opened Wrappers
  import Text
  import Numbers

  /** The user's choices: quality 1 (smallest) to 5 (best), and a speed
      preference `fast`, `balanced` or `thorough`. */
  datatype Options = Options(quality: int, preset: string)

  /** An encoder job for one input and output file. */
  datatype Job = Job(inputFile: string, outputFile: string, options: Options)

  function DefaultOptions(): (o: Options)
    ensures o.quality == 3 && o.preset == "balanced"
  {
    Options(3, "balanced")
  }

  /** A job for the files with the given options, or the defaults when there
      are none. */
  function NewFFmpeg(inputFile: string, outputFile: string, options: Option<Options>): (j: Job)
    ensures j.inputFile == inputFile && j.outputFile == outputFile
    ensures options.Some? ==> j.options == options.value
    ensures options.None? ==> j.options == DefaultOptions()
  {
    Job(inputFile, outputFile, options.GetOr(DefaultOptions()))
  }

  // ---------------------------------------------------------------------
  // HDR

  /** A video stream is HDR when its `color_transfer` tag names the PQ
      (SMPTE ST 2084) or HLG (ARIB STD-B67) transfer, in any letter case.
      `None` stands for a stream without that tag. */
  predicate IsHdrTransfer(colorTransfer: Option<string>) {
    colorTransfer.Some? &&
      var t := Text.ToLower(colorTransfer.value);
      Text.Contains(t, "smpte2084") || Text.Contains(t, "arib-std-b67")
  }

  /** A tag holding one of the two transfer names anywhere in it, in any
      letter case, marks the stream HDR. */
  lemma HdrTransferNamed(prefix: string, written: string, suffix: string)
    requires Text.ToLower(written) == "smpte2084" || Text.ToLower(written) == "arib-std-b67"
    ensures IsHdrTransfer(Some(prefix + written + suffix))
  {
    var s := prefix + written + suffix;
    var name := Text.ToLower(written);
    var lower := Text.ToLower(s);
    forall i | 0 <= i < |name|
      ensures lower[|prefix|..][i] == name[i]
    {
      assert s[|prefix| + i] == written[i];
    }
    Text.ContainsAt(lower, |prefix|, name);
  }

  /** The converse: an HDR tag has one of the two names, in lower case,
      at some position of its lower-cased text; so a missing tag and any
      tag shorter than nine characters, such as `bt709`, are not HDR. */
  lemma HdrTransferHasName(tag: string)
    ensures IsHdrTransfer(Some(tag)) <==>
      var lower := Text.ToLower(tag);
      exists k :: 0 <= k <= |lower| && ("smpte2084" <= lower[k..] || "arib-std-b67" <= lower[k..])
    ensures |tag| < 9 ==> !IsHdrTransfer(Some(tag))
    ensures !IsHdrTransfer(None) && !IsHdrTransfer(Some("bt709"))
  {
    var lower := Text.ToLower(tag);
    Text.ContainsEitherIff(lower, "smpte2084", "arib-std-b67");
    Text.ContainsIff(lower, "smpte2084");
    Text.ContainsIff(lower, "arib-std-b67");
  }

  // ---------------------------------------------------------------------
  // Progress times

  /** The seconds field cut to at most two decimals. */
  function CutSeconds(s: string): (r: string)
    ensures r <= s
    ensures Text.IndexOf(s, '.') < 0 ==> r == s
    ensures Text.IndexOf(s, '.') >= 0 ==> |r| == if |s| > Text.IndexOf(s, '.') + 3 then Text.IndexOf(s, '.') + 3 else |s|
  {
    var dot := Text.IndexOf(s, '.');
    if dot >= 0 && |s| > dot + 3 then s[..dot + 3] else s
  }

  /** The seconds ffmpeg reports as `HH:MM:SS.ss`, or 0 when the text (after
      trimming white space) is shorter than 8 bytes, does not have exactly
      three colon-separated fields, or has a field that is not a number.
      The seconds field counts to two decimals at most. */
  function ParseFFmpegTime(timeStr: string): (r: real)
    ensures var t := Text.TrimSpace(timeStr);
      Text.Utf8Len(t) < 8 || |Text.Split(t, ':')| != 3 ==> r == 0.0
    ensures var t := Text.TrimSpace(timeStr);
      var parts := Text.Split(t, ':');
      Text.Utf8Len(t) >= 8 && |parts| == 3 ==>
        var h := Numbers.ParseDecimal(parts[0]);
        var m := Numbers.ParseDecimal(parts[1]);
        var s := Numbers.ParseDecimal(CutSeconds(parts[2]));
        && (h.None? || m.None? || s.None? ==> r == 0.0)
        && (h.Some? && m.Some? && s.Some? ==> r == h.value * 3600.0 + m.value * 60.0 + s.value)
  {
    var t := Text.TrimSpace(timeStr);
    if Text.Utf8Len(t) < 8 then 0.0
    else
      var parts := Text.Split(t, ':');
      if |parts| != 3 then 0.0
      else
        var hours := Numbers.ParseDecimal(parts[0]);
        var minutes := Numbers.ParseDecimal(parts[1]);
        var seconds := Numbers.ParseDecimal(CutSeconds(parts[2]));
        if hours.None? || minutes.None? || seconds.None? then 0.0
        else hours.value * 3600.0 + minutes.value * 60.0 + seconds.value
  }

  /** `HH:MM:SS.cc` followed by further digits of the fraction. */
  function TimeText(h: nat, m: nat, s: nat, cs: nat, moreDigits: string): (t: string)
    requires h < 100 && m < 100 && s < 100 && cs < 100
  {
    Numbers.TwoDigits(h) + ":" + Numbers.TwoDigits(m) + ":" + Numbers.TwoDigits(s) + "." + Numbers.TwoDigits(cs) + moreDigits
  }

  lemma TwoDigitsValue(n: nat)
    requires n < 100
    ensures Numbers.DigitsValue(Numbers.TwoDigits(n)) == n
  {
    var t := Numbers.TwoDigits(n);
    var a, b := n / 10, n % 10;
    assert n % 100 == n;
    assert t == [Numbers.DigitChar(a), Numbers.DigitChar(b)];
    assert Numbers.DigitsValue(t[..1]) == a by {
      assert t[..1] == [Numbers.DigitChar(a)];
      assert t[..1][..0] == [];
    }
    assert Numbers.DigitsValue(t) == Numbers.DigitsValue(t[..1]) * 10 + Numbers.DigitValue(t[1]);
    assert n == a * 10 + b;
  }

  /** A plain two-digit field reads as its value. */
  lemma ParseTwoDigits(n: nat)
    requires n < 100
    ensures Numbers.ParseDecimal(Numbers.TwoDigits(n)) == Some(n as real)
  {
    var t := Numbers.TwoDigits(n);
    Numbers.LeadingDigitsOfDigits(t);
    TwoDigitsValue(n);
    assert Numbers.DigitsValue("") == 0;
  }

  /** Unsigned `I.F` reads as the value of `I` plus `F` as a fraction. */
  lemma ParsePointed(ip: string, fp: string)
    requires |ip| > 0 && Numbers.AllDigits(ip) && Numbers.AllDigits(fp)
    ensures Numbers.ParseDecimal(ip + "." + fp) == Some(Numbers.DecimalValue(ip, fp))
  {
    var f := ip + "." + fp;
    assert f[0] != '-' && Numbers.DropSign(f) == f by {
      assert f[0] == ip[0];
    }
    assert Numbers.LeadingDigits(f) == ip by {
      Numbers.LeadingDigitsStop(ip, "." + fp);
      assert f == ip + ("." + fp);
    }
    assert f[|ip|..][1..] == fp && |f[|ip|..]| > 0 && f[|ip|..][0] == '.' by {
      assert f[|ip|..] == "." + fp;
    }
  }

  lemma TwoDigitsFraction(s: nat, cs: nat)
    requires s < 100 && cs < 100
    ensures Numbers.DecimalValue(Numbers.TwoDigits(s), Numbers.TwoDigits(cs)) == s as real + cs as real / 100.0
  {
    TwoDigitsValue(s);
    TwoDigitsValue(cs);
    assert Numbers.Pow10(2) == 100;
  }

  /** `SS.cc` reads as `SS + cc/100`. */
  lemma ParseSecondsField(s: nat, cs: nat)
    requires s < 100 && cs < 100
    ensures Numbers.ParseDecimal(Numbers.TwoDigits(s) + "." + Numbers.TwoDigits(cs)) == Some(s as real + cs as real / 100.0)
  {
    ParsePointed(Numbers.TwoDigits(s), Numbers.TwoDigits(cs));
    TwoDigitsFraction(s, cs);
  }

  /** The text ffmpeg prints for a time reads back as that time, to the
      hundredth of a second; further digits are ignored. */
  lemma ParseTimeText(h: nat, m: nat, s: nat, cs: nat, moreDigits: string)
    requires h < 100 && m < 100 && s < 100 && cs < 100
    requires Numbers.AllDigits(moreDigits)
    ensures ParseFFmpegTime(TimeText(h, m, s, cs, moreDigits))
      == (h * 3600 + m * 60 + s) as real + cs as real / 100.0
  {
    TimeTextFields(h, m, s, cs, moreDigits);
    CutSecondsField(s, cs, moreDigits);
    ParseTwoDigits(h);
    ParseTwoDigits(m);
    ParseSecondsField(s, cs);
  }

  /** The time text needs no trimming, is long enough, and splits into its
      hours, minutes and seconds fields. */
  lemma TimeTextFields(h: nat, m: nat, s: nat, cs: nat, moreDigits: string)
    requires h < 100 && m < 100 && s < 100 && cs < 100
    requires Numbers.AllDigits(moreDigits)
    ensures var t := TimeText(h, m, s, cs, moreDigits);
      && Text.TrimSpace(t) == t
      && Text.Utf8Len(t) >= 8
      && Text.Split(t, ':') == [Numbers.TwoDigits(h), Numbers.TwoDigits(m),
           Numbers.TwoDigits(s) + "." + Numbers.TwoDigits(cs) + moreDigits]
  {
    TimeTextTrimmed(h, m, s, cs, moreDigits);
    TimeTextSplit(h, m, s, cs, moreDigits);
  }

  lemma TimeTextTrimmed(h: nat, m: nat, s: nat, cs: nat, moreDigits: string)
    requires h < 100 && m < 100 && s < 100 && cs < 100
    requires Numbers.AllDigits(moreDigits)
    ensures Text.TrimSpace(TimeText(h, m, s, cs, moreDigits)) == TimeText(h, m, s, cs, moreDigits)
    ensures Text.Utf8Len(TimeText(h, m, s, cs, moreDigits)) >= 8
  {
    var t := TimeText(h, m, s, cs, moreDigits);
    TrimSpaceDigits(t);
  }

  lemma SecondsFieldNoColon(s: nat, cs: nat, moreDigits: string)
    requires s < 100 && cs < 100
    requires Numbers.AllDigits(moreDigits)
    ensures ':' !in Numbers.TwoDigits(s) + "." + Numbers.TwoDigits(cs) + moreDigits
  {
    var secs := Numbers.TwoDigits(s) + "." + Numbers.TwoDigits(cs) + moreDigits;
    assert forall i :: 0 <= i < |secs| ==> secs[i] != ':';
  }

  lemma TimeTextSplit(h: nat, m: nat, s: nat, cs: nat, moreDigits: string)
    requires h < 100 && m < 100 && s < 100 && cs < 100
    requires Numbers.AllDigits(moreDigits)
    ensures Text.Split(TimeText(h, m, s, cs, moreDigits), ':') == [Numbers.TwoDigits(h), Numbers.TwoDigits(m),
      Numbers.TwoDigits(s) + "." + Numbers.TwoDigits(cs) + moreDigits]
  {
    var hh := Numbers.TwoDigits(h);
    var mm := Numbers.TwoDigits(m);
    var secs := Numbers.TwoDigits(s) + "." + Numbers.TwoDigits(cs) + moreDigits;
    assert TimeText(h, m, s, cs, moreDigits) == hh + [':'] + (mm + [':'] + secs);
    Text.SplitAppend(hh, mm + [':'] + secs, ':');
    Text.SplitAppend(mm, secs, ':');
    assert ':' !in hh && ':' !in mm;
    SecondsFieldNoColon(s, cs, moreDigits);
    Text.SplitNoSep(hh, ':');
    Text.SplitNoSep(mm, ':');
    Text.SplitNoSep(secs, ':');
  }

  lemma CutSecondsField(s: nat, cs: nat, moreDigits: string)
    requires s < 100 && cs < 100
    requires Numbers.AllDigits(moreDigits)
    ensures CutSeconds(Numbers.TwoDigits(s) + "." + Numbers.TwoDigits(cs) + moreDigits)
      == Numbers.TwoDigits(s) + "." + Numbers.TwoDigits(cs)
  {
    var f := Numbers.TwoDigits(s) + "." + Numbers.TwoDigits(cs) + moreDigits;
    assert f[2] == '.' && f[0] != '.' && f[1] != '.';
    assert Text.IndexOf(f, '.') == 2 by {
      assert '.' !in f[..2];
    }
    assert f[..5] == Numbers.TwoDigits(s) + "." + Numbers.TwoDigits(cs);
  }

  /** Text made of digits, colons and dots has no surrounding white space. */
  lemma TrimSpaceDigits(t: string)
    requires |t| > 0
    requires forall i :: 0 <= i < |t| ==> Numbers.IsDigit(t[i]) || t[i] == ':' || t[i] == '.'
    ensures Text.TrimSpace(t) == t
  {
    Text.TrimSpaceOfUnspaced(t);
  }

  // ---------------------------------------------------------------------
  // Encoding settings

  /** The encoder's settings; a non-positive dimension means "no limit",
      and a zero target bitrate leaves the rate to the CRF. */
  datatype EncodingSettings = EncodingSettings(
    videoCodec: string,
    crf: int,
    preset: string,
    maxWidth: int,
    maxHeight: int,
    targetBitrate: int)

  /** The width that keeps the source's aspect ratio at `maxHeight`, made
      even; `fallback` when a source dimension is unknown. */
  function ScaledWidth(width: int, height: int, maxHeight: nat, fallback: nat): (w: int)
    ensures w % 2 == 0 || (w == fallback && fallback % 2 == 1)
    ensures width > 0 && height > 0 ==>
      0 <= w && w as real <= maxHeight as real * (width as real / height as real) < w as real + 2.0
    ensures !(width > 0 && height > 0) ==> w == fallback
  {
    if width > 0 && height > 0 then
      var x := maxHeight as real * (width as real / height as real);
      assert x >= 0.0 by {
        MulNonneg(maxHeight as real, width as real / height as real);
      }
      var w := Numbers.Trunc(x);
      w - Numbers.GoMod(w, 2)
    else fallback
  }

  lemma MulNonneg(a: real, b: real)
    requires a >= 0.0 && b >= 0.0
    ensures a * b >= 0.0
  {
  }

  /** The settings for a quality level: a fixed CRF, preset and target
      bitrate per level (level 3's for any other value), a downscale to 720
      lines at level 1 and 1080 lines at level 2 for taller videos, then the
      speed preference: `fast` switches to the `faster` preset, `thorough`
      to `slow` and drops the target bitrate of levels 1 and 2. */
  function CalculateEncodingSettings(width: int, height: int, quality: int, preference: string): (e: EncodingSettings)
    ensures e.videoCodec == "libx264"
    ensures e.crf == (if quality == 1 then 28 else if quality == 2 then 26 else if quality == 4 then 20 else if quality == 5 then 18 else 23)
    ensures preference == "fast" ==> e.preset == "faster"
    ensures preference == "thorough" ==> e.preset == "slow"
    ensures preference != "fast" && preference != "thorough" ==>
      e.preset == (if quality == 1 then "faster" else if quality == 4 || quality == 5 then "slow" else "medium")
    ensures e.targetBitrate > 0 <==> (quality == 1 || quality == 2) && preference != "thorough"
    ensures e.targetBitrate > 0 ==> e.targetBitrate == (if quality == 1 then 1000000 else 2000000)
    ensures e.maxHeight > 0 <==> (quality == 1 && height > 720) || (quality == 2 && height > 1080)
    ensures e.maxHeight > 0 ==> e.maxHeight == (if quality == 1 then 720 else 1080)
    ensures e.maxHeight <= 0 ==> e.maxWidth == 0 && e.maxHeight == 0
    ensures e.maxWidth % 2 == 0
  {
    var base :=
      if quality == 1 then
        var scaled := height > 720;
        EncodingSettings("libx264", 28, "faster",
          if scaled then ScaledWidth(width, height, 720, 1280) else 0,
          if scaled then 720 else 0, 1000000)
      else if quality == 2 then
        var scaled := height > 1080;
        EncodingSettings("libx264", 26, "medium",
          if scaled then ScaledWidth(width, height, 1080, 1920) else 0,
          if scaled then 1080 else 0, 2000000)
      else if quality == 4 then EncodingSettings("libx264", 20, "slow", 0, 0, 0)
      else if quality == 5 then EncodingSettings("libx264", 18, "slow", 0, 0, 0)
      else EncodingSettings("libx264", 23, "medium", 0, 0, 0);
    if preference == "fast" then base.(preset := "faster")
    else if preference == "thorough" then
      base.(preset := "slow", targetBitrate := if quality <= 2 then 0 else base.targetBitrate)
    else base
  }

  /** A quality outside 1 .. 5 behaves as 3. */
  lemma OutOfRangeQualityIsBalanced(width: int, height: int, quality: int, preference: string)
    requires quality < 1 || quality > 5
    ensures CalculateEncodingSettings(width, height, quality, preference)
      == CalculateEncodingSettings(width, height, 3, preference)
  {
  }

  /** The downscaled width keeps the source's aspect ratio at the new
      height, rounded down to an even number of pixels; without known
      dimensions it is the 16:9 width of the new height. */
  lemma DownscaleWidth(width: int, height: int, quality: int, preference: string)
    requires (quality == 1 && height > 720) || (quality == 2 && height > 1080)
    ensures var e := CalculateEncodingSettings(width, height, quality, preference);
      && (width > 0 ==>
        0 <= e.maxWidth && e.maxWidth as real <= e.maxHeight as real * (width as real / height as real) < e.maxWidth as real + 2.0)
      && (width <= 0 ==> e.maxWidth == (if quality == 1 then 1280 else 1920))
  {
  }

  // ---------------------------------------------------------------------
  // Arguments

  /** The scale filter's dimensions: a non-positive limit becomes -2 (keep
      the aspect ratio), and when both are -2 the 1280x720 fallback. */
  function ScaleDims(maxWidth: int, maxHeight: int): (d: (int, int))
    ensures d.0 == (if maxWidth <= 0 && maxHeight <= 0 then 1280 else if maxWidth <= 0 then -2 else maxWidth)
    ensures d.1 == (if maxWidth <= 0 && maxHeight <= 0 then 720 else if maxHeight <= 0 then -2 else maxHeight)
  {
    var w := if maxWidth <= 0 then -2 else maxWidth;
    var h := if maxHeight <= 0 then -2 else maxHeight;
    if w == -2 && h == -2 then (1280, 720) else (w, h)
  }

  /** When the filter is emitted at all, one limit is positive, so the
      1280x720 fallback never applies. */
  lemma ScaleFallbackUnreachable(maxWidth: int, maxHeight: int)
    requires maxWidth > 0 || maxHeight > 0
    ensures ScaleDims(maxWidth, maxHeight) != (1280, 720) || maxWidth == 1280 || maxHeight == 720
    ensures ScaleDims(maxWidth, maxHeight).0 == (if maxWidth > 0 then maxWidth else -2)
    ensures ScaleDims(maxWidth, maxHeight).1 == (if maxHeight > 0 then maxHeight else -2)
  {
  }

  function ScaleFilter(maxWidth: int, maxHeight: int): string {
    var d := ScaleDims(maxWidth, maxHeight);
    "scale=" + Numbers.FormatInt(d.0) + ":" + Numbers.FormatInt(d.1)
  }

  /** The arguments that always close the list: AAC audio at 128 kbps and
      the index moved to the front of the file. */
  const Trailer: seq<string> := ["-c:a", "aac", "-b:a", "128k", "-movflags", "+faststart"]

  /** The number of rate-control arguments: `-maxrate` and `-bufsize` with
      their values when a target bitrate is set. */
  function RateCount(e: EncodingSettings): nat {
    if e.targetBitrate > 0 then 4 else 0
  }

  /** The number of scaling arguments: `-vf` and its filter when either
      limit is set. */
  function ScaleCount(e: EncodingSettings): nat {
    if e.maxWidth > 0 || e.maxHeight > 0 then 2 else 0
  }

  /** The encoder arguments (input and output are added by the caller):
      codec, CRF and preset; `-maxrate T -bufsize 2T` for a positive target
      bitrate T; a scale filter when a limit is positive; then the trailer. */
  function BuildFFmpegCommand(e: EncodingSettings): (args: seq<string>)
    ensures |args| == 12 + RateCount(e) + ScaleCount(e)
    ensures args[0] == "-c:v" && args[1] == e.videoCodec
    ensures args[2] == "-crf" && args[3] == Numbers.FormatInt(e.crf)
    ensures args[4] == "-preset" && args[5] == e.preset
    ensures forall i :: 0 <= i < |Trailer| ==> args[6 + RateCount(e) + ScaleCount(e) + i] == Trailer[i]
  {
    var p := CommandPrefix(e);
    assert forall i :: 0 <= i < 6 ==> p[i] == HeadArgs(e)[i];
    p + Trailer
  }

  /** Codec, CRF and preset. */
  function HeadArgs(e: EncodingSettings): (a: seq<string>)
    ensures |a| == 6
    ensures a[0] == "-c:v" && a[1] == e.videoCodec
    ensures a[2] == "-crf" && a[3] == Numbers.FormatInt(e.crf)
    ensures a[4] == "-preset" && a[5] == e.preset
  {
    ["-c:v", e.videoCodec, "-crf", Numbers.FormatInt(e.crf), "-preset", e.preset]
  }

  function RateArgs(e: EncodingSettings): (a: seq<string>)
    ensures |a| == RateCount(e)
  {
    if e.targetBitrate > 0 then ["-maxrate", Numbers.FormatInt(e.targetBitrate), "-bufsize", Numbers.FormatInt(e.targetBitrate * 2)] else []
  }

  function ScaleArgs(e: EncodingSettings): (a: seq<string>)
    ensures |a| == ScaleCount(e)
  {
    if e.maxWidth > 0 || e.maxHeight > 0 then ["-vf", ScaleFilter(e.maxWidth, e.maxHeight)] else []
  }

  /** Everything before the trailer. */
  function CommandPrefix(e: EncodingSettings): (p: seq<string>)
    ensures |p| == 6 + RateCount(e) + ScaleCount(e)
    ensures forall i :: 0 <= i < 6 ==> p[i] == HeadArgs(e)[i]
  {
    HeadArgs(e) + RateArgs(e) + ScaleArgs(e)
  }

  /** The rate-control pair follows the preset exactly when a target bitrate
      is set, with a buffer of twice the target. */
  lemma CommandRateControl(e: EncodingSettings)
    ensures var args := BuildFFmpegCommand(e);
      && (args[6] == "-maxrate" <==> e.targetBitrate > 0)
      && (e.targetBitrate > 0 ==>
        && args[7] == Numbers.FormatInt(e.targetBitrate)
        && args[8] == "-bufsize" && args[9] == Numbers.FormatInt(e.targetBitrate * 2))
  {
  }

  /** The scale filter follows the rate control exactly when either limit is
      set. */
  lemma CommandScaling(e: EncodingSettings)
    ensures var args := BuildFFmpegCommand(e);
      && (args[6 + RateCount(e)] == "-vf" <==> e.maxWidth > 0 || e.maxHeight > 0)
      && (e.maxWidth > 0 || e.maxHeight > 0 ==> args[7 + RateCount(e)] == ScaleFilter(e.maxWidth, e.maxHeight))
  {
  }
}

=== FILE: format.dfy ===
/**
 The human-readable renderings of sizes, bit rates and durations
 (`FormatSize`, `FormatBitrate`, `FormatDuration`). `%.2f` is rendered by
 `Numbers.Fixed2` on exact reals; what is proved is the choice of unit,
 divisor and shape.
 */
module Format {
  import Numbers
  import Text

  function Pow1024(k: nat): (p: nat)
    ensures p >= 1
  {
    if k == 0 then 1 else 1024 * Pow1024(k - 1)
  }

  /** A larger exponent gives a power at least 1024 times larger. */
  lemma {:induction false} PowStrict(a: nat, b: nat)
    requires a < b
    ensures 1024 * Pow1024(a) <= Pow1024(b)
    decreases b
  {
    if a + 1 < b {
      PowStrict(a, b - 1);
    }
  }

  lemma PowValues()
    ensures Pow1024(1) == 0x400
    ensures Pow1024(2) == 0x10_0000
    ensures Pow1024(3) == 0x4000_0000
    ensures Pow1024(4) == 0x100_0000_0000
    ensures Pow1024(5) == 0x4_0000_0000_0000
    ensures Pow1024(6) == 0x1000_0000_0000_0000
    ensures Pow1024(7) == 0x40_0000_0000_0000_0000
  {
  }

  /** The iterations of the scaling loop of `FormatSize`: how often `n` is
      divided by 1024 while it is at least 1024. */
  function Divisions(n: nat): (k: nat)
    ensures n < Pow1024(k + 1)
    ensures n >= 1 ==> Pow1024(k) <= n
    decreases n
  {
    if n < 1024 then 0
    else
      var k := Divisions(n / 1024);
      assert Pow1024(k + 2) == 1024 * Pow1024(k + 1);
      assert Pow1024(k + 1) == 1024 * Pow1024(k);
      1 + k
  }

  /** The loop's final `exp` for a size of at least 1024 bytes: the size
      lies between 1024^(exp+1) and 1024^(exp+2), and `div` ends as
      1024^(exp+1). */
  function SizeExponent(size: int): (e: nat)
    requires size >= 1024
    ensures Pow1024(e + 1) <= size < Pow1024(e + 2)
  {
    var e := Divisions(size / 1024);
    assert Pow1024(e + 2) == 1024 * Pow1024(e + 1);
    assert Pow1024(e + 1) == 1024 * Pow1024(e);
    e
  }

  /** There is only one such exponent. */
  lemma SizeExponentOf(size: int, e: nat)
    requires Pow1024(e + 1) <= size < Pow1024(e + 2)
    ensures SizeExponent(size) == e
  {
    var k := SizeExponent(size);
    if k + 1 < e {
      PowStrict(k + 2, e + 1);
    } else if e + 1 < k {
      PowStrict(e + 2, k + 1);
    }
  }

  /** The unit label, with its leading space, for the loop's exponent:
      0 KB, 1 MB, 2 GB, anything larger TB. */
  function UnitSuffix(exp: nat): (u: string)
    ensures |u| == 3 && u[0] == ' ' && u[2] == 'B'
  {
    if exp == 0 then " KB" else if exp == 1 then " MB" else if exp == 2 then " GB" else " TB"
  }

  function Min(a: nat, b: nat): nat {
    if a <= b then a else b
  }

  /** `fmt.Sprintf("%.2f", float64(size)/float64(div))`. */
  function Amount(size: int, div: int): (s: string)
    requires div != 0
    ensures |s| >= 4
  {
    Numbers.Fixed2(size as real / div as real)
  }

  /** `FormatSize` as evidently intended: the divisor belongs to the unit
      label, so sizes from one tebibyte up are all divided by 1024^4. */
  function FormatSize(size: int): (r: string)
    ensures |r| > 0
    ensures size < 1024 ==> r == Numbers.FormatInt(size) + " B"
  {
    if size < 1024 then Numbers.FormatInt(size) + " B"
    else
      var exp := Min(SizeExponent(size), 3);
      Amount(size, Pow1024(exp + 1)) + UnitSuffix(exp)
  }

  /** Each unit of `FormatSize` is used exactly on its power-of-1024 range
      and divides by its own power. */
  lemma FormatSizeKB(size: int)
    requires 0x400 <= size < 0x10_0000
    ensures FormatSize(size) == Amount(size, 0x400) + " KB"
  {
    SizeExponentOf(size, 0);
  }

  lemma FormatSizeMB(size: int)
    requires 0x10_0000 <= size < 0x4000_0000
    ensures FormatSize(size) == Amount(size, 0x10_0000) + " MB"
  {
    assert Pow1024(2) == 0x10_0000;
    assert Pow1024(3) == 0x4000_0000;
    SizeExponentOf(size, 1);
  }

  lemma FormatSizeGB(size: int)
    requires 0x4000_0000 <= size < 0x100_0000_0000
    ensures FormatSize(size) == Amount(size, 0x4000_0000) + " GB"
  {
    assert Pow1024(3) == 0x4000_0000;
    assert Pow1024(4) == 0x100_0000_0000;
    SizeExponentOf(size, 2);
  }

  /** TB is used from 1024^4 bytes on, always dividing by 1024^4. */
  lemma FormatSizeTB(size: int)
    requires 0x100_0000_0000 <= size
    ensures FormatSize(size) == Amount(size, 0x100_0000_0000) + " TB"
  {
    assert Pow1024(4) == 0x100_0000_0000;
    var e := SizeExponent(size);
  }

  /** The unit ranges of `FormatSize` together. */
  lemma FormatSizeUnits(size: int)
    ensures 0x400 <= size < 0x10_0000 ==> FormatSize(size) == Amount(size, 0x400) + " KB"
    ensures 0x10_0000 <= size < 0x4000_0000 ==> FormatSize(size) == Amount(size, 0x10_0000) + " MB"
    ensures 0x4000_0000 <= size < 0x100_0000_0000 ==> FormatSize(size) == Amount(size, 0x4000_0000) + " GB"
    ensures 0x100_0000_0000 <= size ==> FormatSize(size) == Amount(size, 0x100_0000_0000) + " TB"
  {
    if 0x400 <= size < 0x10_0000 {
      FormatSizeKB(size);
    } else if 0x10_0000 <= size < 0x4000_0000 {
      FormatSizeMB(size);
    } else if 0x4000_0000 <= size < 0x100_0000_0000 {
      FormatSizeGB(size);
    } else if 0x100_0000_0000 <= size {
      FormatSizeTB(size);
    }
  }

  /** A size equal to its divisor renders as 1.00. */
  lemma AmountOne(n: int)
    requires n > 0
    ensures Amount(n, n) == "1.00"
  {
    assert n as real / n as real == 1.0;
  }

  /** The two examples the documentation of `FormatSize` gives. */
  lemma FormatSizeExamples()
    ensures FormatSize(1024) == "1.00" + " KB"
    ensures FormatSize(1048576) == "1.00" + " MB"
  {
    FormatSizeKB(1024);
    FormatSizeMB(1048576);
    AmountOne(1024);
    AmountOne(1048576);
  }

  /** `FormatSize` as written. The divisor is `div*unit/unit` in int64,
      with `div` ending as 1024^(exp+1); every exponent from 3 up is labelled
      TB. From 2^60 bytes on, `div*unit` wraps around to 0 and the float
      division gives +Inf. */
  function FormatSizeAsWritten(size: int): (r: string)
    requires Numbers.IsInt64(size)
    ensures |r| > 0
  {
    if size < 1024 then Numbers.FormatInt(size) + " B"
    else
      var exp := SizeExponent(size);
      var div := Pow1024(exp + 1);
      var shown := Numbers.GoDiv(Numbers.WrapInt64(div * 1024), 1024);
      var amount := if shown == 0 then "+Inf" else Amount(size, shown);
      amount + UnitSuffix(exp)
  }

  /** Up to 1024^4 the written divisor `div*1024/1024` does not overflow
      and equals `div`. */
  lemma ShownDivisor(e: nat)
    requires e <= 3
    ensures Numbers.GoDiv(Numbers.WrapInt64(Pow1024(e + 1) * 1024), 1024) == Pow1024(e + 1)
  {
    PowValues();
    if e == 0 {
      assert Pow1024(e + 1) * 1024 == 0x10_0000;
    } else if e == 1 {
      assert Pow1024(e + 1) * 1024 == 0x4000_0000;
    } else if e == 2 {
      assert Pow1024(e + 1) * 1024 == 0x100_0000_0000;
    } else {
      assert Pow1024(e + 1) * 1024 == 0x4_0000_0000_0000;
    }
  }

  /** Below 1024^5 bytes the written code gives the intended text. */
  lemma FormatSizeAsWrittenBelowPebibyte(size: int)
    requires Numbers.IsInt64(size)
    requires size < Pow1024(5)
    ensures FormatSizeAsWritten(size) == FormatSize(size)
  {
    if size >= 1024 {
      var e := SizeExponent(size);
      if e >= 4 {
        PowStrict(4, e + 1);
        assert false;
      }
      ShownDivisor(e);
    }
  }

  /** From 1024^5 up to 2^60 bytes the written code divides by 1024^5 and
      still labels the result TB. */
  lemma FormatSizeAsWrittenPebibytes(size: int)
    requires Numbers.IsInt64(size)
    requires Pow1024(5) <= size < Pow1024(6)
    ensures FormatSizeAsWritten(size) == Amount(size, Pow1024(5)) + " TB"
  {
    SizeExponentOf(size, 4);
    assert Pow1024(6) == Pow1024(5) * 1024;
    assert Pow1024(6) == 0x1000_0000_0000_0000 by {
      PowValues();
    }
  }

  /** From 2^60 bytes on, `div*unit` wraps around to 0 in int64 and the
      written code prints +Inf TB. */
  lemma FormatSizeAsWrittenInfinite(size: int)
    requires Numbers.IsInt64(size)
    requires Pow1024(6) <= size
    ensures FormatSizeAsWritten(size) == "+Inf TB"
  {
    assert Pow1024(7) == 0x40_0000_0000_0000_0000 by {
      PowValues();
    }
    SizeExponentOf(size, 5);
    assert Numbers.WrapInt64(Pow1024(6) * 1024) == 0 by {
      PowValues();
    }
  }

  lemma FixedOneThousandTwentyFour()
    ensures Numbers.Fixed2(1024.0) == "1024.00"
  {
    assert Numbers.FormatNat(1024) == "1024" by {
      assert Numbers.FormatNat(1) == "1";
      assert Numbers.FormatNat(10) == "10";
      assert Numbers.FormatNat(102) == "102";
    }
  }

  /** One pebibyte is 1024.00 tebibytes. */
  lemma AmountPebibyte(size: int)
    requires size == 1024 * 0x100_0000_0000
    ensures Amount(size, 0x100_0000_0000) == "1024.00"
  {
    assert size as real == 1024.0 * 0x100_0000_0000 as real;
    FixedOneThousandTwentyFour();
  }

  /** One pebibyte: the written code prints 1.00 TB ... */
  lemma FormatSizePebibyteAsWritten(size: int)
    requires size == Pow1024(5)
    ensures FormatSizeAsWritten(size) == "1.00" + " TB"
  {
    assert Pow1024(6) == size * 1024;
    assert size == 0x4_0000_0000_0000 by {
      PowValues();
    }
    FormatSizeAsWrittenPebibytes(size);
    AmountOne(size);
  }

  /** ... where 1024.00 TB is meant. */
  lemma FormatSizePebibyte(size: int)
    requires size == Pow1024(5)
    ensures FormatSize(size) == "1024.00" + " TB"
  {
    assert Pow1024(4) == 0x100_0000_0000 by {
      PowValues();
    }
    assert size == 1024 * 0x100_0000_0000;
    FormatSizeTB(size);
    AmountPebibyte(size);
  }

  /** `FormatBitrate`: megabits from 1,000,000 bits per second up,
      kilobits below. */
  function FormatBitrate(bitrate: int): (r: string)
    ensures bitrate >= 1000000 <==> Text.HasSuffix(r, " Mbps")
    ensures bitrate < 1000000 <==> Text.HasSuffix(r, " kbps")
    ensures bitrate >= 1000000 ==> r[..|r| - 5] == Numbers.Fixed2(bitrate as real / 1000000.0)
    ensures bitrate < 1000000 ==> r[..|r| - 5] == Numbers.Fixed2(bitrate as real / 1000.0)
  {
    var amount := if bitrate >= 1000000 then Numbers.Fixed2(bitrate as real / 1000000.0)
                  else Numbers.Fixed2(bitrate as real / 1000.0);
    var unit := if bitrate >= 1000000 then " Mbps" else " kbps";
    var r := amount + unit;
    assert r[|r| - 5..] == unit;
    assert r[..|r| - 5] == amount;
    r
  }

  /** The hours, minutes and seconds `FormatDuration` splits a number of
      seconds into, with Go's truncating division. */
  function DurationParts(seconds: int): (hms: (int, int, int))
    ensures hms.0 * 3600 + hms.1 * 60 + hms.2 == seconds
    ensures seconds >= 0 ==> hms.0 >= 0 && 0 <= hms.1 < 60 && 0 <= hms.2 < 60
    ensures seconds < 0 ==> hms.0 <= 0 && -60 < hms.1 <= 0 && -60 < hms.2 <= 0
  {
    var h := Numbers.GoDiv(seconds, 3600);
    var rest := seconds - h * 3600;
    var m := Numbers.GoDiv(rest, 60);
    (h, m, rest - m * 60)
  }

  /** A decomposition with minutes and seconds below 60 is the one
      `DurationParts` computes. */
  lemma DurationPartsUnique(seconds: int, h: int, m: int, s: int)
    requires h >= 0 && 0 <= m < 60 && 0 <= s < 60
    requires h * 3600 + m * 60 + s == seconds
    ensures DurationParts(seconds) == (h, m, s)
  {
    var p := DurationParts(seconds);
    assert (p.0 - h) * 3600 == (m - p.1) * 60 + (s - p.2);
  }

  /** The three output shapes shared by both duration formatters: hours
      only when there are hours, minutes when there are hours or minutes. */
  function HmsText(h: int, m: int, s: int): (r: string)
  {
    if h > 0 then
      Numbers.FormatInt(h) + "h " + Numbers.FormatInt(m) + "m " + Numbers.FormatInt(s) + "s"
    else if m > 0 then
      Numbers.FormatInt(m) + "m " + Numbers.FormatInt(s) + "s"
    else
      Numbers.FormatInt(s) + "s"
  }

  /** `FormatDuration` on a number of seconds. For a non-negative input
      the shape is `Xh Ym Zs` from an hour up, `Ym Zs` from a minute up and
      `Zs` below, with the parts given by Euclidean arithmetic. */
  function FormatDuration(seconds: int): (r: string)
    ensures seconds >= 3600 ==>
      r == Numbers.FormatInt(seconds / 3600) + "h "
        + Numbers.FormatInt(seconds % 3600 / 60) + "m " + Numbers.FormatInt(seconds % 60) + "s"
    ensures 60 <= seconds < 3600 ==>
      r == Numbers.FormatInt(seconds / 60) + "m " + Numbers.FormatInt(seconds % 60) + "s"
    ensures 0 <= seconds < 60 ==> r == Numbers.FormatInt(seconds) + "s"
  {
    var hms := DurationParts(seconds);
    if seconds >= 0 then
      DurationPartsEuclidean(seconds);
      HmsText(hms.0, hms.1, hms.2)
    else
      HmsText(hms.0, hms.1, hms.2)
  }

  /** For a non-negative input the parts are the Euclidean ones, and the
      hours and minutes are positive exactly from an hour and a minute up. */
  lemma DurationPartsEuclidean(seconds: int)
    requires seconds >= 0
    ensures DurationParts(seconds) == (seconds / 3600, seconds % 3600 / 60, seconds % 60)
    ensures seconds / 3600 > 0 <==> seconds >= 3600
    ensures seconds < 3600 ==> seconds % 3600 / 60 == seconds / 60 && (seconds / 60 > 0 <==> seconds >= 60)
    ensures seconds < 60 ==> seconds % 60 == seconds
  {
    var h, m, s := seconds / 3600, seconds % 3600 / 60, seconds % 60;
    assert h * 3600 + m * 60 + s == seconds;
    DurationPartsUnique(seconds, h, m, s);
  }

  /** The two examples the documentation of `FormatDuration` gives. */
  lemma FormatDurationExamples()
    ensures FormatDuration(65) == "1m 5s"
    ensures FormatDuration(3600) == "1h 0m 0s"
  {
    SmallInts();
    assert 65 / 60 == 1 && 65 % 60 == 5;
    assert 3600 / 3600 == 1 && 3600 % 3600 / 60 == 0 && 3600 % 60 == 0;
  }

  lemma SmallInts()
    ensures Numbers.FormatInt(1) == "1" && Numbers.FormatInt(5) == "5" && Numbers.FormatInt(0) == "0"
  {
  }

}

=== FILE: internal_cli.dfy ===
/**
 The older command-line front end in `internal/cmd`: flag validation
 without the accelerator check, `_compressed` output naming, the
 overwrite checks of `process` and `executeCompression`. Its copies of
 `getFileExtension`, `formatSize` and `formatBitrate` are the same code
 as in `cmd/compressvideo` and are modelled once, by
 `Cli.GetFileExtension`, `Format.FormatSizeAsWritten` and
 `Format.FormatBitrate`. The `hwaccel` flag value is not read here.
 */
module InternalCli {
  import opened Wrappers
  import Text
  import Paths
  import Cli

  /** The checks of `validateFlags` in order: the input exists, the
      quality lies in 1..5, the preset is known, and an explicit output
      does not exist unless forced. */
  function CheckFlags(f: Cli.Flags, existing: set<string>): (e: Option<Cli.FlagError>)
    ensures e == Some(Cli.InputMissing(f.inputFile)) <==> f.inputFile !in existing
    ensures e == Some(Cli.QualityOutOfRange(f.quality)) <==>
      f.inputFile in existing && !(1 <= f.quality <= 5)
    ensures e == Some(Cli.UnknownPreset(f.preset)) <==>
      f.inputFile in existing && 1 <= f.quality <= 5 && f.preset !in Cli.Presets
    ensures e.None? <==>
      f.inputFile in existing && 1 <= f.quality <= 5 && f.preset in Cli.Presets
      && (f.outputFile == "" || f.outputFile !in existing || f.force)
    ensures e.Some? ==> !e.value.UnknownHwAccel?
    ensures e.Some? && e.value.OutputExists? ==> e.value.path == f.outputFile
  {
    if f.inputFile !in existing then Some(Cli.InputMissing(f.inputFile))
    else if f.quality < 1 || f.quality > 5 then Some(Cli.QualityOutOfRange(f.quality))
    else if f.preset !in Cli.Presets then Some(Cli.UnknownPreset(f.preset))
    else if f.outputFile != "" && f.outputFile in existing && !f.force then Some(Cli.OutputExists(f.outputFile))
    else None
  }

  /** The accelerator flag plays no part in this front end. */
  lemma CheckFlagsIgnoresHwAccel(f: Cli.Flags, existing: set<string>, hwaccel: string)
    ensures CheckFlags(f.(hwaccel := hwaccel), existing) == CheckFlags(f, existing)
  {
  }

  /** The default output as `validateFlags` writes it: the input's
      directory joined with the whole input path, tagged. */
  function DefaultOutputAsWritten(inputFile: string): (out: string)
    ensures out != ""
  {
    Paths.Join(Paths.Dir(inputFile), Cli.Suffixed(inputFile, "_compressed"))
  }

  /** The default output as evidently intended, and as the fallback of
      `process` computes it: the input's directory joined with its tagged
      base name. */
  function DefaultOutput(inputFile: string): (out: string)
    ensures out != ""
  {
    Paths.Join(Paths.Dir(inputFile), Cli.Suffixed(Paths.Base(inputFile), "_compressed"))
  }

  /** `validateFlags` as written. */
  function ValidateFlagsAsWritten(f: Cli.Flags, existing: set<string>): (r: Result<string, Cli.FlagError>)
    ensures r.Success? <==> CheckFlags(f, existing).None?
    ensures r.Failure? ==> r.error == CheckFlags(f, existing).value
    ensures r.Success? && f.outputFile != "" ==> r.value == f.outputFile
    ensures r.Success? && f.outputFile == "" ==> r.value == DefaultOutputAsWritten(f.inputFile)
  {
    match CheckFlags(f, existing)
    case Some(e) => Failure(e)
    case None => Success(if f.outputFile != "" then f.outputFile else DefaultOutputAsWritten(f.inputFile))
  }

  /** `validateFlags` with the intended default output. */
  function ValidateFlags(f: Cli.Flags, existing: set<string>): (r: Result<string, Cli.FlagError>)
    ensures r.Success? <==> CheckFlags(f, existing).None?
    ensures r.Failure? ==> r.error == CheckFlags(f, existing).value
    ensures r.Success? && f.outputFile != "" ==> r.value == f.outputFile
    ensures r.Success? && f.outputFile == "" ==> r.value == DefaultOutput(f.inputFile)
  {
    match CheckFlags(f, existing)
    case Some(e) => Failure(e)
    case None => Success(if f.outputFile != "" then f.outputFile else DefaultOutput(f.inputFile))
  }

  /** A slash-free name other than `.` and `..` is a clean relative path. */
  lemma PlainNameClean(name: string)
    requires name != "" && name != "." && name != ".." && '/' !in name
    ensures Paths.IsCleanRelative(name)
  {
    Text.SplitNoSep(name, '/');
  }

  lemma NoSlashConcat(a: string, b: string)
    requires '/' !in a && '/' !in b
    ensures '/' !in a + b
  {
    forall i | 0 <= i < |a + b|
      ensures (a + b)[i] != '/'
    {
      if i < |a| {
        assert (a + b)[i] == a[i];
      } else {
        assert (a + b)[i] == b[i - |a|];
      }
    }
  }

  /** The tagged name of `stem.ext` is a plain file name `stem<tag>.ext`. */
  lemma TaggedName(stem: string, tag: string, ext: string)
    requires '/' !in stem && Paths.IsExtension(ext)
    requires tag != "" && '/' !in tag && tag[0] != '.'
    ensures Cli.Suffixed(stem + ext, tag) == stem + tag + ext
    ensures Paths.IsCleanRelative(stem + tag + ext)
  {
    Cli.SuffixedName(stem, tag, ext);
    var n := stem + tag + ext;
    NoSlashConcat(stem, tag);
    NoSlashConcat(stem + tag, ext);
    assert n[|stem|] == tag[0];
    PlainNameClean(n);
  }

  lemma Regroup(x: string, a: string, b: string, c: string)
    ensures x + a + b + c == x + (a + b + c)
  {
  }

  /** Tagging `dir/stem.ext` tags the file name only. */
  lemma SuffixedInDirectory(dir: string, stem: string, tag: string, ext: string)
    requires Paths.IsExtension(ext)
    ensures Cli.Suffixed(dir + "/" + (stem + ext), tag) == dir + "/" + (stem + tag + ext)
  {
    var front := dir + "/" + stem;
    assert dir + "/" + (stem + ext) == front + ext;
    Cli.SuffixedName(front, tag, ext);
    Regroup(dir + "/", stem, tag, ext);
  }

  /** For `dir/stem.ext` the written default output repeats the
      directory: `dir/dir/stem_compressed.ext`. */
  lemma DefaultOutputDoublesDirectory(dir: string, stem: string, ext: string)
    requires Paths.IsCleanRelative(dir)
    requires '/' !in stem && Paths.IsExtension(ext)
    ensures DefaultOutputAsWritten(dir + "/" + (stem + ext)) == dir + "/" + (dir + "/" + (stem + "_compressed" + ext))
  {
    var name := stem + ext;
    NoSlashConcat(stem, ext);
    Paths.DirOfJoined(dir, name);
    SuffixedInDirectory(dir, stem, "_compressed", ext);
    TaggedName(stem, "_compressed", ext);
    Paths.CleanRelativeAppend(dir, stem + "_compressed" + ext);
    Paths.JoinCleanRelative(dir, dir + "/" + (stem + "_compressed" + ext));
  }

  /** The intended default output of `dir/stem.ext` sits next to it:
      `dir/stem_compressed.ext`. */
  lemma DefaultOutputBesideInput(dir: string, stem: string, ext: string)
    requires Paths.IsCleanRelative(dir)
    requires '/' !in stem && Paths.IsExtension(ext)
    ensures DefaultOutput(dir + "/" + (stem + ext)) == dir + "/" + (stem + "_compressed" + ext)
  {
    var name := stem + ext;
    var input := dir + "/" + name;
    var tagged := stem + "_compressed" + ext;
    NoSlashConcat(stem, ext);
    assert Paths.Dir(input) == dir by {
      Paths.DirOfJoined(dir, name);
    }
    assert Paths.Base(input) == name by {
      Paths.BaseOfJoined(dir, name);
    }
    assert Cli.Suffixed(name, "_compressed") == tagged && Paths.IsCleanRelative(tagged) by {
      TaggedName(stem, "_compressed", ext);
    }
    assert Paths.Join(dir, tagged) == dir + "/" + tagged by {
      Paths.JoinCleanRelative(dir, tagged);
    }
  }

  /** Without a directory part both versions give `stem_compressed.ext`,
      which is why the doubling shows only for inputs in another
      directory. */
  lemma DefaultOutputOfBareName(stem: string, ext: string)
    requires '/' !in stem && Paths.IsExtension(ext)
    ensures DefaultOutputAsWritten(stem + ext) == stem + "_compressed" + ext
    ensures DefaultOutput(stem + ext) == stem + "_compressed" + ext
  {
    var name := stem + ext;
    NoSlashConcat(stem, ext);
    Paths.DirNoSlash(name);
    Paths.BaseNoSlash(name);
    TaggedName(stem, "_compressed", ext);
    Paths.JoinDot(stem + "_compressed" + ext);
  }

  /** `process` up to FFmpeg start-up, as written: `validateFlags` stores
      its default output in the shared flag, so the fallback naming of
      `process` never runs, and the repeated input and overwrite checks
      look at the doubled default path. On success the value is the
      output, which never exists unless the overwrite is forced; the
      repeated overwrite check is what rejects an existing default output,
      which validation lets through. */
  function Process(f: Cli.Flags, existing: set<string>): (r: Result<string, Cli.FlagError>)
    ensures r.Success? ==> r.value !in existing || f.force
    ensures r.Success? <==>
      CheckFlags(f, existing).None?
      && ((if f.outputFile != "" then f.outputFile else DefaultOutputAsWritten(f.inputFile)) !in existing || f.force)
    ensures r.Success? && f.outputFile != "" ==> r.value == f.outputFile
    ensures r.Success? && f.outputFile == "" ==> r.value == DefaultOutputAsWritten(f.inputFile)
    ensures r.Failure? && CheckFlags(f, existing).Some? ==> r.error == CheckFlags(f, existing).value
    ensures r.Failure? && CheckFlags(f, existing).None? ==>
      r.error == Cli.OutputExists(if f.outputFile != "" then f.outputFile else DefaultOutputAsWritten(f.inputFile))
  {
    var validated :- ValidateFlagsAsWritten(f, existing);
    var out := if validated == "" then DefaultOutput(f.inputFile) else validated;
    if f.inputFile !in existing then Failure(Cli.InputMissing(f.inputFile))
    else if out in existing && !f.force then Failure(Cli.OutputExists(out))
    else Success(out)
  }

  /** Without an explicit output, `process` on `dir/stem.ext` targets
      `dir/dir/stem_compressed.ext`, and it is that path whose existence
      stops it. */
  lemma ProcessTargetsDoubledPath(f: Cli.Flags, existing: set<string>, dir: string, stem: string, ext: string)
    requires Paths.IsCleanRelative(dir)
    requires '/' !in stem && Paths.IsExtension(ext)
    requires f.inputFile == dir + "/" + (stem + ext) && f.outputFile == ""
    requires CheckFlags(f, existing).None?
    ensures var doubled := dir + "/" + (dir + "/" + (stem + "_compressed" + ext));
      && (Process(f, existing).Success? <==> doubled !in existing || f.force)
      && (Process(f, existing).Success? ==> Process(f, existing).value == doubled)
  {
    DefaultOutputDoublesDirectory(dir, stem, ext);
  }

  /** `process` with the intended default output of `validateFlags`, for
      which the fallback naming of `process` agrees. */
  function ProcessIntended(f: Cli.Flags, existing: set<string>): (r: Result<string, Cli.FlagError>)
    ensures r.Success? ==> r.value !in existing || f.force
    ensures r.Success? <==>
      ValidateFlags(f, existing).Success? && (ValidateFlags(f, existing).value !in existing || f.force)
    ensures r.Failure? && ValidateFlags(f, existing).Success? ==>
      r.error == Cli.OutputExists(ValidateFlags(f, existing).value)
    ensures r.Success? ==> ValidateFlags(f, existing) == r
    ensures ValidateFlags(f, existing).Failure? ==> r == ValidateFlags(f, existing)
  {
    var validated :- ValidateFlags(f, existing);
    var out := if validated == "" then DefaultOutput(f.inputFile) else validated;
    if f.inputFile !in existing then Failure(Cli.InputMissing(f.inputFile))
    else if out in existing && !f.force then Failure(Cli.OutputExists(out))
    else Success(out)
  }

  /** The intended `process` on `dir/stem.ext` targets the path beside the
      input. */
  lemma ProcessIntendedTargetsBeside(f: Cli.Flags, existing: set<string>, dir: string, stem: string, ext: string)
    requires Paths.IsCleanRelative(dir)
    requires '/' !in stem && Paths.IsExtension(ext)
    requires f.inputFile == dir + "/" + (stem + ext) && f.outputFile == ""
    requires CheckFlags(f, existing).None?
    ensures var beside := dir + "/" + (stem + "_compressed" + ext);
      && (ProcessIntended(f, existing).Success? <==> beside !in existing || f.force)
      && (ProcessIntended(f, existing).Success? ==> ProcessIntended(f, existing).value == beside)
  {
    DefaultOutputBesideInput(dir, stem, ext);
  }

  /** `executeCompression`'s output naming and overwrite check. Its error
      message is in Portuguese. */
  function ExecuteCompressionOutput(inputFile: string, outputFile: string, existing: set<string>, force: bool): (r: Result<string, string>)
    ensures r.Success? <==> (if outputFile != "" then outputFile else Cli.Suffixed(inputFile, "_compressed")) !in existing || force
    ensures r.Success? && outputFile != "" ==> r.value == outputFile
    ensures r.Success? && outputFile == "" ==> r.value == Cli.Suffixed(inputFile, "_compressed")
    ensures r.Failure? ==> r.error == "o arquivo de saída já existe. Use a flag -f para sobrescrever"
  {
    var out := if outputFile != "" then outputFile else Cli.Suffixed(inputFile, "_compressed");
    if out in existing && !force then
      Failure("o arquivo de saída já existe. Use a flag -f para sobrescrever")
    else Success(out)
  }

  /** `executeCompression` names a `dir/stem.ext` input's output as the
      intended default does. */
  lemma ExecuteCompressionNaming(dir: string, stem: string, ext: string)
    requires Paths.IsCleanRelative(dir)
    requires '/' !in stem && Paths.IsExtension(ext)
    ensures Cli.Suffixed(dir + "/" + (stem + ext), "_compressed") == DefaultOutput(dir + "/" + (stem + ext))
  {
    DefaultOutputBesideInput(dir, stem, ext);
    SuffixedInDirectory(dir, stem, "_compressed", ext);
  }
}

=== FILE: maps.dfy ===
/**
 Go's `map[string]string` as used by the settings pipeline: a lookup of a
 missing key yields the empty string, and "nothing else changes" is stated
 key by key.
 */
module Maps {

  /** `m[k]` in Go: the stored value, or "" when `k` is absent. */
  function Get(m: map<string, string>, k: string): (v: string)
    ensures k in m ==> v == m[k]
    ensures k !in m ==> v == ""
  {
    if k in m then m[k] else ""
  }

  /** `a` and `b` agree on every key outside `keys`: the same keys are
      present and they hold the same values. */
  predicate AgreeOutside(a: map<string, string>, b: map<string, string>, keys: set<string>) {
    && (forall k :: k in a && k !in keys ==> k in b && a[k] == b[k])
    && (forall k :: k in b && k !in keys ==> k in a)
  }
}

=== FILE: numbers.dfy ===
/**
 Go's integer arithmetic and the number <-> text conversions the pipeline
 uses: `strconv.Itoa`/`fmt "%d"`, `fmt.Sscanf("%d")`, `strconv.Atoi`,
 `strconv.ParseFloat` on plain decimals, float-to-int truncation and the
 two-decimal `%.2f` rendering.
 */
module Numbers {
  import opened Wrappers
  import Text

  const MinInt64: int := -0x8000_0000_0000_0000
  const MaxInt64: int := 0x7FFF_FFFF_FFFF_FFFF
  const MaxUint64: int := 0xFFFF_FFFF_FFFF_FFFF

  predicate IsInt64(n: int) {
    MinInt64 <= n <= MaxInt64
  }

  /** Saturates `n` into the int64 range, as `strconv.ParseInt` does when it
      reports a range error. */
  function ClampInt64(n: int): (r: int)
    ensures IsInt64(r)
    ensures IsInt64(n) ==> r == n
    ensures n > MaxInt64 ==> r == MaxInt64
    ensures n < MinInt64 ==> r == MinInt64
  {
    if n > MaxInt64 then MaxInt64 else if n < MinInt64 then MinInt64 else n
  }

  /** Go's int64 arithmetic result: the exact value wrapped around into
      the 64-bit two's-complement range. */
  function WrapInt64(x: int): (r: int)
    ensures IsInt64(r)
    ensures (r - x) % 0x1_0000_0000_0000_0000 == 0
    ensures IsInt64(x) ==> r == x
  {
    (x - MinInt64) % 0x1_0000_0000_0000_0000 + MinInt64
  }

  /** Go's integer `/` by a positive divisor: truncates toward zero. */
  function GoDiv(a: int, b: int): (q: int)
    requires b > 0
    ensures a >= 0 ==> q >= 0 && q * b <= a < q * b + b
    ensures a < 0 ==> q <= 0 && q * b - b < a <= q * b
  {
    if a >= 0 then a / b else -((-a) / b)
  }

  /** Go's `%` by a positive divisor: the remainder of `GoDiv`, which takes
      the sign of the dividend. */
  function GoMod(a: int, b: int): (r: int)
    requires b > 0
    ensures a == GoDiv(a, b) * b + r
    ensures a >= 0 ==> 0 <= r < b
    ensures a < 0 ==> -b < r <= 0
  {
    a - GoDiv(a, b) * b
  }

  /** Go's conversion of a float to an integer type: truncation toward
      zero. */
  function Trunc(x: real): (n: int)
    ensures x >= 0.0 ==> 0 <= n && n as real <= x < n as real + 1.0
    ensures x < 0.0 ==> n <= 0 && n as real - 1.0 < x <= n as real
  {
    if x >= 0.0 then x.Floor else -((-x).Floor)
  }

  function Pow10(k: nat): (p: nat)
    ensures p >= 1
  {
    if k == 0 then 1 else 10 * Pow10(k - 1)
  }

  predicate IsDigit(c: char) {
    '0' <= c <= '9'
  }

  predicate AllDigits(s: string) {
    forall i :: 0 <= i < |s| ==> IsDigit(s[i])
  }

  function DigitValue(c: char): (d: nat)
    requires IsDigit(c)
    ensures d < 10
  {
    (c as int) - ('0' as int)
  }

  function DigitChar(d: nat): (c: char)
    requires d < 10
    ensures IsDigit(c) && DigitValue(c) == d
  {
    (('0' as int) + d) as char
  }

  /** The value of a string of decimal digits, most significant first. */
  function DigitsValue(s: string): nat
    requires AllDigits(s)
  {
    if |s| == 0 then 0 else DigitsValue(s[..|s| - 1]) * 10 + DigitValue(s[|s| - 1])
  }

  /** Decimal rendering of a natural number without leading zeros. */
  function FormatNat(n: nat): (s: string)
    ensures 1 <= |s| && AllDigits(s)
    ensures DigitsValue(s) == n
    ensures s[0] == '0' ==> s == "0"
    decreases n
  {
    if n < 10 then [DigitChar(n)]
    else
      var s := FormatNat(n / 10) + [DigitChar(n % 10)];
      assert s[..|s| - 1] == FormatNat(n / 10);
      s
  }

  /** `strconv.Itoa(n)` / `fmt.Sprintf("%d", n)`. */
  function FormatInt(n: int): (s: string)
    ensures 1 <= |s|
    ensures n >= 0 ==> AllDigits(s) && DigitsValue(s) == n
    ensures n < 0 ==> s[0] == '-' && AllDigits(s[1..]) && DigitsValue(s[1..]) == -n
  {
    if n < 0 then "-" + FormatNat(-n) else FormatNat(n)
  }

  /** The longest prefix of `s` made of decimal digits. */
  function LeadingDigits(s: string): (d: string)
    ensures d <= s && AllDigits(d)
    ensures |d| == |s| || !IsDigit(s[|d|])
  {
    if |s| > 0 && IsDigit(s[0]) then
      var d := [s[0]] + LeadingDigits(s[1..]);
      assert d[1..] == LeadingDigits(s[1..]);
      d
    else ""
  }

  lemma {:induction false} LeadingDigitsOfDigits(s: string)
    requires AllDigits(s)
    ensures LeadingDigits(s) == s
  {
    if |s| > 0 {
      LeadingDigitsOfDigits(s[1..]);
    }
  }

  /** Removes one leading `+` or `-`. */
  function DropSign(s: string): string {
    if |s| > 0 && (s[0] == '-' || s[0] == '+') then s[1..] else s
  }

  /** The value `fmt.Sscanf(s, "%d", &v)` stores in `v` when it reports no
      error, or `None` when it reports one. The scanner skips leading white
      space (a newline among it is an error), accepts one optional sign and
      then the longest run of decimal digits (at least one), ignores whatever
      follows, and fails when the value does not fit in 64 bits. */
  function ScanInt(s: string): (r: Option<int>)
    ensures r.Some? ==> IsInt64(r.value)
  {
    var rest := Text.TrimLeftSpace(s);
    if '\n' in s[..|s| - |rest|] || |rest| == 0 then None
    else ScanSigned(rest)
  }

  /** The scan after the white space: an optional sign, then at least one
      digit; the value must fit in 64 bits. */
  function ScanSigned(rest: string): (r: Option<int>)
    requires |rest| > 0
    ensures r.Some? ==> IsInt64(r.value)
  {
    var digits := LeadingDigits(DropSign(rest));
    if |digits| == 0 then None
    else
      var v: int := if rest[0] == '-' then -(DigitsValue(digits) as int) else DigitsValue(digits);
      if IsInt64(v) then Some(v) else None
  }

  /** Text that starts with a sign or a digit is scanned from its start. */
  lemma ScanIntUnspaced(s: string)
    requires |s| > 0 && (IsDigit(s[0]) || s[0] == '-')
    ensures ScanInt(s) == ScanSigned(s)
  {
    Text.TrimLeftUnspaced(s);
    assert s[..|s| - |s|] == "";
  }

  /** Scanning the decimal rendering of any 64-bit integer gives it back. */
  lemma ScanFormatInt(n: int)
    requires IsInt64(n)
    ensures ScanInt(FormatInt(n)) == Some(n)
  {
    ScanFormatIntSuffix(n, "");
    assert FormatInt(n) + "" == FormatInt(n);
  }

  /** The digit run of a string stops at the first non-digit. */
  lemma {:induction false} LeadingDigitsStop(d: string, t: string)
    requires AllDigits(d) && (t == "" || !IsDigit(t[0]))
    ensures LeadingDigits(d + t) == d
  {
    if |d| > 0 {
      assert (d + t)[1..] == d[1..] + t;
      LeadingDigitsStop(d[1..], t);
    } else {
      assert d + t == t;
    }
  }

  /** `fmt.Sscanf("%d")` ignores a unit suffix after the number, so a value
      rendered as "<n>k" scans back to n. */
  lemma ScanFormatIntSuffix(n: int, suffix: string)
    requires IsInt64(n)
    requires suffix == "" || !IsDigit(suffix[0])
    ensures ScanInt(FormatInt(n) + suffix) == Some(n)
  {
    if n < 0 {
      var digits := FormatNat(-n);
      assert FormatInt(n) + suffix == "-" + digits + suffix;
      ScanNegative(digits, -n, suffix);
    } else {
      ScanNonNegative(FormatNat(n), n, suffix);
    }
  }

  /** Once the digit run after the sign is known, the scan is its value,
      negated after a minus sign. */
  lemma ScanSignedOf(rest: string, digits: string, k: nat)
    requires |rest| > 0 && |digits| > 0
    requires LeadingDigits(DropSign(rest)) == digits && DigitsValue(digits) == k
    ensures rest[0] == '-' && IsInt64(-(k as int)) ==> ScanSigned(rest) == Some(-(k as int))
    ensures rest[0] != '-' && IsInt64(k) ==> ScanSigned(rest) == Some(k)
  {
  }

  /** A minus sign, digits of value `k`, then a non-digit scan as `-k`. */
  lemma ScanNegative(digits: string, k: nat, suffix: string)
    requires |digits| > 0 && AllDigits(digits) && DigitsValue(digits) == k && IsInt64(-(k as int))
    requires suffix == "" || !IsDigit(suffix[0])
    ensures ScanInt("-" + digits + suffix) == Some(-(k as int))
  {
    var s := "-" + digits + suffix;
    NegativeDigitRun(digits, suffix);
    ScanSignedOf(s, digits, k);
    ScanIntUnspaced(s);
  }

  /** After the minus sign, the digit run is `digits`. */
  lemma NegativeDigitRun(digits: string, suffix: string)
    requires AllDigits(digits)
    requires suffix == "" || !IsDigit(suffix[0])
    ensures var s := "-" + digits + suffix;
      s[0] == '-' && LeadingDigits(DropSign(s)) == digits
  {
    var s := "-" + digits + suffix;
    assert s[1..] == digits + suffix;
    LeadingDigitsStop(digits, suffix);
  }

  /** Digits of value `k`, then a non-digit scan as `k`. */
  lemma ScanNonNegative(digits: string, k: nat, suffix: string)
    requires |digits| > 0 && AllDigits(digits) && DigitsValue(digits) == k && IsInt64(k)
    requires suffix == "" || !IsDigit(suffix[0])
    ensures ScanInt(digits + suffix) == Some(k)
  {
    var s := digits + suffix;
    UnsignedDigitRun(digits, suffix);
    ScanSignedOf(s, digits, k);
    ScanIntUnspaced(s);
  }

  /** Without a sign, the digit run is `digits`. */
  lemma UnsignedDigitRun(digits: string, suffix: string)
    requires |digits| > 0 && AllDigits(digits)
    requires suffix == "" || !IsDigit(suffix[0])
    ensures var s := digits + suffix;
      IsDigit(s[0]) && LeadingDigits(DropSign(s)) == digits
  {
    var s := digits + suffix;
    assert s[0] == digits[0];
    LeadingDigitsStop(digits, suffix);
  }

  /** The value `strconv.Atoi(s)` returns, the error being discarded as the
      source does: 0 on a syntax error (no digits, or anything other than
      one sign and decimal digits), and the saturated 64-bit bound on a range
      error. A range error wins over a later syntax error, because the
      parser stops as soon as the digits overflow 64 bits. */
  function AtoiValue(s: string): (v: int)
    ensures IsInt64(v)
  {
    var neg := |s| > 0 && s[0] == '-';
    var body := DropSign(s);
    var digits := LeadingDigits(body);
    if |digits| == 0 then 0
    else if DigitsValue(digits) > MaxUint64 then (if neg then MinInt64 else MaxInt64)
    else if |digits| < |body| then 0
    else ClampInt64(if neg then -(DigitsValue(digits) as int) else DigitsValue(digits))
  }

  lemma AtoiFormatInt(n: int)
    requires IsInt64(n)
    ensures AtoiValue(FormatInt(n)) == n
  {
    var s := FormatInt(n);
    if n < 0 {
      assert DropSign(s) == FormatNat(-n);
    }
    LeadingDigitsOfDigits(DropSign(s));
  }

  /** The value `strconv.ParseFloat(s, 64)` returns without error, for the
      plain decimal syntax `[+-]digits[.digits]` (at least one digit in
      all), or `None` when the text is not of that form. */
  function ParseDecimal(s: string): (r: Option<real>)
  {
    var neg := |s| > 0 && s[0] == '-';
    var body := DropSign(s);
    var ip := LeadingDigits(body);
    var tail := body[|ip|..];
    if |tail| > 0 && tail[0] != '.' then None
    else
      var fp := if |tail| > 0 then tail[1..] else "";
      if !AllDigits(fp) || |ip| + |fp| == 0 then None
      else
        var m := DecimalValue(ip, fp);
        Some(if neg then -m else m)
  }

  /** The value of the digits `ip.fp`. */
  function DecimalValue(ip: string, fp: string): real
    requires AllDigits(ip) && AllDigits(fp)
  {
    DigitsValue(ip) as real + DigitsValue(fp) as real / Pow10(|fp|) as real
  }

  lemma ParseDecimalFormatInt(n: int)
    ensures ParseDecimal(FormatInt(n)) == Some(n as real)
  {
    var s := FormatInt(n);
    if n < 0 {
      assert DropSign(s) == FormatNat(-n);
    }
    LeadingDigitsOfDigits(DropSign(s));
    assert DigitsValue("") == 0;
  }

  /** The last two decimal digits of `c`, zero-padded. */
  function TwoDigits(c: nat): (s: string)
    ensures |s| == 2 && AllDigits(s)
  {
    [DigitChar((c % 100) / 10), DigitChar(c % 10)]
  }

  /** `fmt.Sprintf("%.2f", x)` on the exact value of `x`, rounding halves
      away from zero. */
  function Fixed2(x: real): (s: string)
    ensures |s| >= 4
    ensures s[|s| - 3] == '.'
  {
    var c := (Abs(x) * 100.0 + 0.5).Floor;
    var digits := FormatNat(c / 100) + "." + TwoDigits(c);
    if x < 0.0 then "-" + digits else digits
  }

  function Abs(x: real): (r: real)
    ensures r >= 0.0 && (r == x || r == -x)
  {
    if x < 0.0 then -x else x
  }
}

=== FILE: paths.dfy ===
/**
 Go's `path/filepath` on a Unix system, where the separator is `/` and there
 are no volume names: `Clean`, `Join`, `Dir`, `Base` and `Ext`.
 */
module Paths {
  import Text

  /** A path element that `Clean` keeps unchanged. */
  predicate IsPlainElem(e: string) {
    e != "" && e != "." && e != ".." && '/' !in e
  }

  /** `Clean`'s lexical rules applied to the elements left to right: empty
      and `.` elements vanish, `..` removes the plain element before it, a
      `..` directly under the root of a rooted path vanishes, and any other
      `..` is kept. */
  function CleanElems(elems: seq<string>, rooted: bool, acc: seq<string>): seq<string>
    decreases |elems|
  {
    if |elems| == 0 then acc
    else
      var e := elems[0];
      if e == "" || e == "." then CleanElems(elems[1..], rooted, acc)
      else if e == ".." then
        if |acc| > 0 && acc[|acc| - 1] != ".." then CleanElems(elems[1..], rooted, acc[..|acc| - 1])
        else if rooted then CleanElems(elems[1..], rooted, acc)
        else CleanElems(elems[1..], rooted, acc + [".."])
      else CleanElems(elems[1..], rooted, acc + [e])
  }

  /** Go's `filepath.Clean`: the shortest lexically equivalent path; `.`
      for a path that cleans to nothing. */
  function Clean(p: string): (r: string)
    ensures r != ""
  {
    if p == "" then "."
    else
      var rooted := p[0] == '/';
      var body := Text.JoinWith(CleanElems(Text.Split(p, '/'), rooted, []), '/');
      var r := (if rooted then "/" else "") + body;
      if r == "" then "." else r
  }

  /** A relative path that is already clean: one or more plain elements
      separated by single slashes. */
  predicate IsCleanRelative(p: string) {
    var elems := Text.Split(p, '/');
    forall i :: 0 <= i < |elems| ==> IsPlainElem(elems[i])
  }

  /** Plain elements pass through `CleanElems` unchanged. */
  lemma {:induction false} CleanElemsPlain(plain: seq<string>, rest: seq<string>, rooted: bool, acc: seq<string>)
    requires forall i :: 0 <= i < |plain| ==> IsPlainElem(plain[i])
    ensures CleanElems(plain + rest, rooted, acc) == CleanElems(rest, rooted, acc + plain)
    decreases |plain|
  {
    if |plain| == 0 {
      assert plain + rest == rest;
      assert acc + plain == acc;
    } else {
      var e := plain[0];
      assert (plain + rest)[0] == e;
      assert (plain + rest)[1..] == plain[1..] + rest;
      CleanElemsPlain(plain[1..], rest, rooted, acc + [e]);
      assert acc + [e] + plain[1..] == acc + plain;
    }
  }

  lemma CleanRelativeNotRooted(p: string)
    requires IsCleanRelative(p)
    ensures p != "" && p[0] != '/'
  {
    Text.SplitFirstEmpty(p, '/');
    assert IsPlainElem(Text.Split(p, '/')[0]);
  }

  /** `Clean` leaves a clean relative path alone. */
  lemma CleanOfCleanRelative(p: string)
    requires IsCleanRelative(p)
    ensures Clean(p) == p
  {
    CleanRelativeNotRooted(p);
    var elems := Text.Split(p, '/');
    CleanElemsPlain(elems, [], false, []);
    assert elems + [] == elems;
    assert [] + elems == elems;
    Text.SplitSpec(p, '/');
  }

  /** Two clean relative paths joined by a slash form one. */
  lemma CleanRelativeAppend(a: string, b: string)
    requires IsCleanRelative(a) && IsCleanRelative(b)
    ensures IsCleanRelative(a + "/" + b)
  {
    Text.SplitAppend(a, b, '/');
  }

  /** Go's `filepath.Join` of two elements: the non-empty elements joined by
      a slash and cleaned; the empty string when both are empty. */
  function Join(a: string, b: string): (r: string)
    ensures r == "" <==> a == "" && b == ""
  {
    if a != "" then Clean(a + "/" + b)
    else if b != "" then Clean(b)
    else ""
  }

  /** Joining clean relative paths is plain concatenation with a slash. */
  lemma JoinCleanRelative(a: string, b: string)
    requires IsCleanRelative(a) && IsCleanRelative(b)
    ensures Join(a, b) == a + "/" + b
  {
    CleanRelativeAppend(a, b);
    CleanOfCleanRelative(a + "/" + b);
  }

  /** Joining onto the current directory `.` adds nothing. */
  lemma JoinDot(b: string)
    requires IsCleanRelative(b)
    ensures Join(".", b) == b
  {
    var p := "." + "/" + b;
    assert p == "." + ['/'] + b;
    Text.SplitAppend(".", b, '/');
    Text.SplitNoSep(".", '/');
    var elems := Text.Split(b, '/');
    assert Text.Split(p, '/') == ["."] + elems;
    assert CleanElems(["."] + elems, false, []) == CleanElems(elems, false, []) by {
      assert (["."] + elems)[1..] == elems;
    }
    CleanElemsPlain(elems, [], false, []);
    assert elems + [] == elems;
    assert [] + elems == elems;
    CleanRelativeNotRooted(b);
    Text.SplitSpec(b, '/');
  }

  /** Go's `filepath.Dir`: everything up to the last slash, cleaned. */
  function Dir(p: string): (r: string)
    ensures r != ""
  {
    Clean(p[..Text.LastIndexOf(p, '/') + 1])
  }

  lemma DirNoSlash(p: string)
    requires '/' !in p
    ensures Dir(p) == "."
  {
  }

  /** The last slash of `d/name`, for a `name` without slashes, is the one
      after `d`. */
  lemma LastSlashOfJoined(d: string, name: string)
    requires '/' !in name
    ensures Text.LastIndexOf(d + "/" + name, '/') == |d|
  {
    var s := d + "/" + name;
    assert s[|d| + 1..] == name;
    Text.LastIndexOfUnique(s, '/', |d|);
  }

  /** The directory of `d/name` is `d`. */
  lemma DirOfJoined(d: string, name: string)
    requires IsCleanRelative(d) && '/' !in name
    ensures Dir(d + "/" + name) == d
  {
    var s := d + "/" + name;
    LastSlashOfJoined(d, name);
    var p := s[..|d| + 1];
    assert p == d + ['/'] + "";
    Text.SplitAppend(d, "", '/');
    var elems := Text.Split(d, '/');
    assert Text.Split("", '/') == [""];
    assert Text.Split(p, '/') == elems + [""];
    CleanElemsPlain(elems, [""], false, []);
    assert [] + elems == elems;
    assert CleanElems([""], false, elems) == elems;
    CleanRelativeNotRooted(d);
    assert p[0] == d[0];
    Text.SplitSpec(d, '/');
  }

  /** `p` without its trailing slashes. */
  function TrimTrailingSlashes(p: string): (r: string)
    ensures r <= p
    ensures r == "" || r[|r| - 1] != '/'
    ensures |p| > 0 && p[|p| - 1] != '/' ==> r == p
  {
    if |p| > 0 && p[|p| - 1] == '/' then TrimTrailingSlashes(p[..|p| - 1]) else p
  }

  /** Go's `filepath.Base`: the last element, ignoring trailing slashes;
      `.` for the empty path and `/` for a path of slashes only. */
  function Base(p: string): (r: string)
    ensures r != ""
    ensures '/' in r ==> r == "/"
  {
    if p == "" then "."
    else
      var q := TrimTrailingSlashes(p);
      if q == "" then "/"
      else q[Text.LastIndexOf(q, '/') + 1..]
  }

  lemma BaseNoSlash(name: string)
    requires name != "" && '/' !in name
    ensures Base(name) == name
  {
  }

  lemma BaseOfJoined(d: string, name: string)
    requires name != "" && '/' !in name
    ensures Base(d + "/" + name) == name
  {
    LastSlashOfJoined(d, name);
    var s := d + "/" + name;
    assert s[|s| - 1] == name[|name| - 1];
    assert s[|d| + 1..] == name;
  }

  /** Go's `filepath.Ext`: the suffix from the last dot of the last element,
      or "" when the last element has no dot. */
  function Ext(p: string): (e: string)
    ensures Text.HasSuffix(p, e)
    ensures e == "" || (e[0] == '.' && '.' !in e[1..])
    ensures '/' !in e
    ensures e == "" ==> forall i :: 0 <= i < |p| && p[i] == '.' ==> '/' in p[i + 1..]
  {
    if |p| == 0 then ""
    else
      var c := p[|p| - 1];
      var init := p[..|p| - 1];
      if c == '/' then ""
      else if c == '.' then "."
      else
        var e := Ext(init);
        assert p == init + [c];
        if e == "" then "" else e + [c]
  }

  /** A trailing extension is what `Ext` finds. */
  lemma {:induction false} ExtOfSuffix(stem: string, ext: string)
    requires ext != "" && ext[0] == '.' && '.' !in ext[1..] && '/' !in ext
    ensures Ext(stem + ext) == ext
    decreases |ext|
  {
    var p := stem + ext;
    var c := ext[|ext| - 1];
    assert p[|p| - 1] == c;
    if |ext| > 1 {
      var init := ext[..|ext| - 1];
      assert init[1..] == ext[1..][..|ext| - 2];
      assert c in ext[1..];
      ExtOfSuffix(stem, init);
      assert p[..|p| - 1] == stem + init;
    }
  }

  /** Appending dot-free, slash-free text to a path without an extension
      gives a path without an extension. */
  lemma {:induction false} ExtAppendPlain(p: string, tail: string)
    requires Ext(p) == "" && '.' !in tail && '/' !in tail
    ensures Ext(p + tail) == ""
    decreases |tail|
  {
    if |tail| > 0 {
      var init := tail[..|tail| - 1];
      ExtAppendPlain(p, init);
      assert (p + tail)[..|p + tail| - 1] == p + init;
      assert (p + tail)[|p + tail| - 1] == tail[|tail| - 1];
    } else {
      assert p + tail == p;
    }
  }

  /** The extension of `d/name` is the extension of `name`. */
  lemma {:induction false} ExtAfterSlash(d: string, name: string)
    requires '/' !in name
    ensures Ext(d + "/" + name) == Ext(name)
    decreases |name|
  {
    var p := d + "/" + name;
    if |name| > 0 {
      var init := name[..|name| - 1];
      assert p[|p| - 1] == name[|name| - 1];
      assert p[..|p| - 1] == d + "/" + init;
      ExtAfterSlash(d, init);
    } else {
      assert p == d + "/";
    }
  }

  /** What `Ext` can return when it finds an extension: a dot and then
      neither dots nor slashes. */
  predicate IsExtension(ext: string) {
    ext != "" && ext[0] == '.' && '.' !in ext[1..] && '/' !in ext
  }

  /** Removing the extension of `stem + ext` leaves `stem`. */
  lemma TrimExt(stem: string, ext: string)
    requires IsExtension(ext)
    ensures Ext(stem + ext) == ext
    ensures Text.TrimSuffix(stem + ext, ext) == stem
  {
    ExtOfSuffix(stem, ext);
    var p := stem + ext;
    assert p[|p| - |ext|..] == ext;
    assert p[..|p| - |ext|] == stem;
  }
}

=== FILE: platform.dfy ===
/**
 The operating-system dependent constants. The running system's `GOOS`
 and the process environment are parameters: `goos` is Go's
 `runtime.GOOS`, and `env` maps each set variable to its value (an unset
 variable reads as the empty string, as `os.Getenv` returns, which is
 `Maps.Get`).
 */
module Platform {
  import Maps

  datatype OSType = Linux | Windows | MacOS | UnknownOS {
    /** The `OSType` string constant. */
    function Name(): (s: string)
      ensures |s| > 0
    {
      match this
      case Linux => "linux"
      case Windows => "windows"
      case MacOS => "darwin"
      case UnknownOS => "unknown"
    }
  }

  /** `GetCurrentOS`: the three supported systems by their `GOOS` name,
      anything else unknown. */
  function GetCurrentOS(goos: string): (os: OSType)
    ensures os != UnknownOS ==> os.Name() == goos
    ensures os == UnknownOS <==> goos !in {"linux", "windows", "darwin"}
  {
    if goos == "linux" then Linux
    else if goos == "windows" then Windows
    else if goos == "darwin" then MacOS
    else UnknownOS
  }

  /** Naming a system and reading the name back gives the system. */
  lemma CurrentOSOfName(os: OSType)
    ensures GetCurrentOS(os.Name()) == os
  {
  }

  /** Unix-like exactly on linux and darwin. */
  function IsUnixLike(goos: string): (b: bool)
    ensures b <==> goos == "linux" || goos == "darwin"
  {
    var os := GetCurrentOS(goos);
    os == Linux || os == MacOS
  }

  /** Windows exactly on windows, so never also Unix-like. */
  function IsWindows(goos: string): (b: bool)
    ensures b <==> goos == "windows"
    ensures b ==> !IsUnixLike(goos)
  {
    GetCurrentOS(goos) == Windows
  }

  function GetPathSeparator(goos: string): (sep: string)
    ensures sep == "\\" <==> goos == "windows"
    ensures sep != "\\" ==> sep == "/"
  {
    if IsWindows(goos) then "\\" else "/"
  }

  function GetExecutableExtension(goos: string): (ext: string)
    ensures ext == ".exe" <==> goos == "windows"
    ensures ext != ".exe" ==> ext == ""
  {
    if IsWindows(goos) then ".exe" else ""
  }

  /** `GetTempDir`: on Windows TEMP, then TMP, then `C:\Windows\Temp`; on
      Unix-like systems TMPDIR, then `/tmp`; elsewhere `/tmp`. */
  function GetTempDir(goos: string, env: map<string, string>): (dir: string)
    ensures dir != ""
    ensures goos == "windows" && Maps.Get(env, "TEMP") != "" ==> dir == env["TEMP"]
    ensures goos == "windows" && Maps.Get(env, "TEMP") == "" && Maps.Get(env, "TMP") != "" ==> dir == env["TMP"]
    ensures goos == "windows" && Maps.Get(env, "TEMP") == "" && Maps.Get(env, "TMP") == "" ==>
      dir == "C:\\Windows\\Temp"
    ensures (goos == "linux" || goos == "darwin") && Maps.Get(env, "TMPDIR") != "" ==> dir == env["TMPDIR"]
    ensures (goos == "linux" || goos == "darwin") && Maps.Get(env, "TMPDIR") == "" ==> dir == "/tmp"
    ensures goos !in {"linux", "windows", "darwin"} ==> dir == "/tmp"
  {
    if Maps.Get(env, "TEMP") != "" && IsWindows(goos) then Maps.Get(env, "TEMP")
    else if Maps.Get(env, "TMP") != "" && IsWindows(goos) then Maps.Get(env, "TMP")
    else if Maps.Get(env, "TMPDIR") != "" && IsUnixLike(goos) then Maps.Get(env, "TMPDIR")
    else if IsWindows(goos) then "C:\\Windows\\Temp"
    else "/tmp"
  }

  /** Each system reads only its own variables: TMPDIR never matters on
      Windows, TEMP and TMP never matter elsewhere. */
  lemma TempDirIgnoresForeignVariables(goos: string, env: map<string, string>, value: string)
    ensures goos == "windows" ==> GetTempDir(goos, env["TMPDIR" := value]) == GetTempDir(goos, env)
    ensures goos != "windows" ==> GetTempDir(goos, env["TEMP" := value]) == GetTempDir(goos, env)
    ensures goos != "windows" ==> GetTempDir(goos, env["TMP" := value]) == GetTempDir(goos, env)
  {
    assert Maps.Get(env["TMPDIR" := value], "TEMP") == Maps.Get(env, "TEMP");
    assert Maps.Get(env["TMPDIR" := value], "TMP") == Maps.Get(env, "TMP");
    assert Maps.Get(env["TEMP" := value], "TMPDIR") == Maps.Get(env, "TMPDIR");
    assert Maps.Get(env["TMP" := value], "TMPDIR") == Maps.Get(env, "TMPDIR");
  }
}

=== FILE: presets.dfy ===
/**
 The x264/x265 encoder presets, ordered from fastest to slowest. The
 analyzer picks one of them and the user's speed preference moves along
 this scale.
 */
module Presets {

  const Scale: seq<string> :=
    ["ultrafast", "superfast", "veryfast", "faster", "fast", "medium", "slow", "slower", "veryslow"]

  predicate IsPreset(p: string) {
    p in Scale
  }

  /** Position of `p` on the scale: 0 for "ultrafast" up to 8 for
      "veryslow". */
  function Slowness(p: string): (r: nat)
    requires IsPreset(p)
    ensures r < |Scale| && Scale[r] == p
  {
    if p == "ultrafast" then 0
    else if p == "superfast" then 1
    else if p == "veryfast" then 2
    else if p == "faster" then 3
    else if p == "fast" then 4
    else if p == "medium" then 5
    else if p == "slow" then 6
    else if p == "slower" then 7
    else 8
  }
}

=== FILE: progress.dfy ===
/**
 The pure parts of the progress tracker: rendering a `time.Duration` (a
 count of nanoseconds in an int64) rounded to whole seconds, and the
 remaining-time estimate. The wall clock is a parameter: `elapsed` is the
 number of seconds since the tracker started.
 */
module Progress {
  import Numbers
  import Format

  /** `time.Second` in nanoseconds. */
  const Second: int := 1_000_000_000

  /** Go's `d.Round(time.Second)`: the nearest multiple of a second,
      halves away from zero, saturating at the int64 bounds when the
      rounded value does not fit. */
  function RoundSecond(d: int): (r: int)
    requires Numbers.IsInt64(d)
    ensures Numbers.IsInt64(r)
    ensures r % Second == 0 || r == Numbers.MaxInt64 || r == Numbers.MinInt64
    ensures 0 <= d <= Numbers.MaxInt64 - Second / 2 ==> r == (d + Second / 2) / Second * Second
    ensures Numbers.MinInt64 + Second / 2 <= d < 0 ==> r == -((-d + Second / 2) / Second * Second)
    ensures d >= 0 ==> r >= 0
    ensures d < 0 ==> r <= 0
  {
    var rem := Numbers.GoMod(d, Second);
    if d < 0 then
      var back := -rem;
      RoundHalfUp(-d, back);
      if back + back < Second then d + back
      else if d - Second + back >= Numbers.MinInt64 then d - Second + back
      else Numbers.MinInt64
    else
      RoundHalfUp(d, rem);
      if rem + rem < Second then d - rem
      else if d + Second - rem <= Numbers.MaxInt64 then d + Second - rem
      else Numbers.MaxInt64
  }

  /** Rounding a non-negative `x` to whole seconds: down when the remainder
      is below half a second, up otherwise; either way the result is
      `(x + Second/2) / Second` whole seconds. */
  lemma RoundHalfUp(x: int, rem: int)
    requires x >= 0 && rem == x % 1_000_000_000
    ensures rem + rem < 1_000_000_000 ==> x - rem == (x + 500_000_000) / 1_000_000_000 * 1_000_000_000
    ensures rem + rem >= 1_000_000_000 ==> x + 1_000_000_000 - rem == (x + 500_000_000) / 1_000_000_000 * 1_000_000_000
    ensures (x - rem) % 1_000_000_000 == 0 && (rem - x) % 1_000_000_000 == 0
    ensures (x + 1_000_000_000 - rem) % 1_000_000_000 == 0 && (rem - x - 1_000_000_000) % 1_000_000_000 == 0
  {
  }

  /** The hours, minutes and seconds `formatDuration` takes from the
      rounded duration with Go's truncating Duration division. */
  function RoundedParts(d: int): (hms: (int, int, int))
    requires Numbers.IsInt64(d)
    ensures d >= 0 ==> hms.0 >= 0 && 0 <= hms.1 < 60 && 0 <= hms.2 < 60
    ensures RoundSecond(d) % 1_000_000_000 == 0 ==>
      hms.0 * 3_600_000_000_000 + hms.1 * 60_000_000_000 + hms.2 * 1_000_000_000 == RoundSecond(d)
  {
    var r := RoundSecond(d);
    var h := Numbers.GoDiv(r, 3_600_000_000_000);
    var r1 := r - h * 3_600_000_000_000;
    var m := Numbers.GoDiv(r1, 60_000_000_000);
    var r2 := r1 - m * 60_000_000_000;
    assert r2 == r - (h * 3600 + m * 60) * 1_000_000_000;
    ExactSeconds(r, h * 3600 + m * 60);
    (h, m, Numbers.GoDiv(r2, 1_000_000_000))
  }

  /** Taking whole seconds off a whole number of seconds leaves a whole
      number of seconds, which Go's division by a second counts exactly. */
  lemma ExactSeconds(r: int, k: int)
    ensures r % 1_000_000_000 == 0 ==>
      Numbers.GoDiv(r - k * 1_000_000_000, 1_000_000_000) * 1_000_000_000 == r - k * 1_000_000_000
  {
    if r % 1_000_000_000 == 0 {
      var q := r / 1_000_000_000;
      var x := r - k * 1_000_000_000;
      assert x == (q - k) * 1_000_000_000;
      if x >= 0 {
        assert x / 1_000_000_000 == q - k;
      } else {
        assert (-x) / 1_000_000_000 == k - q;
      }
    }
  }

  /** `formatDuration` on a duration in nanoseconds: a non-negative
      duration renders as the seconds formatter renders its value rounded
      to the nearest second. */
  function FormatDurationNs(d: int): (s: string)
    requires Numbers.IsInt64(d)
    ensures 0 <= d <= Numbers.MaxInt64 - Second / 2 ==> s == Format.FormatDuration((d + Second / 2) / Second)
  {
    var hms := RoundedParts(d);
    if 0 <= d <= Numbers.MaxInt64 - Second / 2 then
      var k := (d + Second / 2) / Second;
      assert hms.0 * 3_600_000_000_000 + hms.1 * 60_000_000_000 + hms.2 * 1_000_000_000 == k * 1_000_000_000;
      Format.DurationPartsUnique(k, hms.0, hms.1, hms.2);
      Format.HmsText(hms.0, hms.1, hms.2)
    else
      Format.HmsText(hms.0, hms.1, hms.2)
  }

  /** `EstimateTimeRemaining`: nothing before any progress; otherwise the
      remaining units at the rate observed so far, truncated to whole
      seconds. A clock that shows no time elapsed makes the rate infinite
      and the estimate 0; a negative rate gives 0 as well. */
  function EstimateTimeRemaining(current: int, total: int, elapsed: real): (r: int)
    ensures current <= 0 ==> r == 0
    ensures r % Second == 0
    ensures current >= total ==> r <= 0
    ensures current < total ==> r >= 0
    ensures elapsed <= 0.0 ==> r == 0
    ensures current > 0 && elapsed > 0.0 ==>
      r == Numbers.Trunc((total - current) as real * elapsed / current as real) * Second
  {
    if current <= 0 then 0
    else if elapsed <= 0.0 then 0
    else
      Numbers.Trunc(Remaining((total - current) as real, current as real, elapsed)) * Second
  }

  /** The remaining units `left` over the rate `c/e`, with the sign of
      `left`. */
  function Remaining(left: real, c: real, e: real): (x: real)
    requires c > 0.0 && e > 0.0
    ensures x == left * e / c
    ensures left >= 0.0 ==> x >= 0.0
    ensures left <= 0.0 ==> x <= 0.0
  {
    DivideByRate(left, c, e);
    RateSign(left, c, e);
    var rate := c / e;
    left / rate
  }

  lemma RateSign(left: real, c: real, e: real)
    requires c > 0.0 && e > 0.0
    ensures left >= 0.0 ==> left * e / c >= 0.0
    ensures left <= 0.0 ==> left * e / c <= 0.0
  {
    if left >= 0.0 {
      assert left * e >= 0.0;
    } else {
      assert left * e <= 0.0;
    }
  }

  /** Dividing by the rate `c/e` multiplies by `e/c`. */
  lemma DivideByRate(left: real, c: real, e: real)
    requires c > 0.0 && e > 0.0
    ensures left / (c / e) == left * e / c
  {
    var rate := c / e;
    assert rate * e == c;
    assert (left * e / c) * rate == left;
  }

  lemma TruncMonotone(x: real, y: real)
    requires 0.0 <= x <= y
    ensures Numbers.Trunc(x) <= Numbers.Trunc(y)
  {
  }

  /** With the same progress, a longer elapsed time never gives a shorter
      estimate. */
  lemma EstimateMonotoneInElapsed(current: int, total: int, e1: real, e2: real)
    requires 0 < current <= total
    requires 0.0 < e1 <= e2
    ensures EstimateTimeRemaining(current, total, e1) <= EstimateTimeRemaining(current, total, e2)
  {
    var left := (total - current) as real;
    var c := current as real;
    DivideByRate(left, c, e1);
    DivideByRate(left, c, e2);
    assert left * e1 <= left * e2;
    assert left * e1 / c <= left * e2 / c;
    assert 0.0 <= left * e1 / c;
    TruncMonotone(left * e1 / c, left * e2 / c);
  }
}

=== FILE: reporter.dfy ===
/**
 The compression report: the verbal quality estimate for a frame-quality
 score, the overall performance score, the optimisation tips, the derived
 savings figures and the name of the report file.
 */
module Reporter {
  import opened Wrappers
  import opened Video
  import Analyzer
  import Compressor
  import Paths
  import Text

  // ---------------------------------------------------------------------
  // Quality estimate

  /** The seven verbal quality levels, from worst to best. */
  datatype QualityLevel = Poor | Low | Medium | Acceptable | Good | VeryGood | Excellent
  {
    function Text(): string {
      match this
      case Excellent => "Excellent - Visually identical to the original"
      case VeryGood => "Very Good - Differences barely noticeable"
      case Good => "Good - Minor visible differences"
      case Acceptable => "Acceptable - Visible differences but good for most purposes"
      case Medium => "Medium - Noticeable quality loss"
      case Low => "Low - Significant quality loss"
      case Poor => "Poor - Heavy compression artifacts"
    }

    function Rank(): (r: nat)
      ensures r <= 6
    {
      match this
      case Poor => 0
      case Low => 1
      case Medium => 2
      case Acceptable => 3
      case Good => 4
      case VeryGood => 5
      case Excellent => 6
    }
  }

  /** The scores each level stands for: 40 and below is poor, every step of
      ten points above it is one level better, and 90 or more excellent. */
  predicate InBand(level: QualityLevel, score: real) {
    match level
    case Poor => score < 40.0
    case Low => 40.0 <= score < 50.0
    case Medium => 50.0 <= score < 60.0
    case Acceptable => 60.0 <= score < 70.0
    case Good => 70.0 <= score < 80.0
    case VeryGood => 80.0 <= score < 90.0
    case Excellent => 90.0 <= score
  }

  /** The bands do not overlap, so a score has at most one level. */
  lemma BandsDisjoint(a: QualityLevel, b: QualityLevel, score: real)
    requires InBand(a, score) && InBand(b, score)
    ensures a == b
  {
  }

  /** `getQualityEstimate`: the level whose band holds the score. */
  function QualityEstimate(score: real): (level: QualityLevel)
    ensures InBand(level, score)
  {
    if score >= 90.0 then Excellent
    else if score >= 80.0 then VeryGood
    else if score >= 70.0 then Good
    else if score >= 60.0 then Acceptable
    else if score >= 50.0 then Medium
    else if score >= 40.0 then Low
    else Poor
  }

  /** A higher score never gets a worse label. */
  lemma QualityEstimateMonotone(s1: real, s2: real)
    requires s1 <= s2
    ensures QualityEstimate(s1).Rank() <= QualityEstimate(s2).Rank()
  {
  }

  // ---------------------------------------------------------------------
  // Performance score

  /** The bonus for encoding faster than real time: the ratio of the video's
      duration to the processing time, from 1x (no bonus) up to 10x (the
      full 10 points). A zero processing time makes the float ratio
      infinite (full bonus) for a positive duration and not a number (no
      bonus) for a zero one. */
  function TimeBonus(duration: real, processingSeconds: real): (b: real)
    ensures 0.0 <= b <= 10.0
    ensures processingSeconds != 0.0 ==> (b > 0.0 <==> duration / processingSeconds > 1.0)
    ensures processingSeconds != 0.0 ==> (b == 10.0 <==> duration / processingSeconds >= 10.0)
    ensures processingSeconds == 0.0 ==> (b == 10.0 <==> duration > 0.0) && (b == 0.0 <==> duration <= 0.0)
  {
    if processingSeconds == 0.0 then (if duration > 0.0 then 10.0 else 0.0)
    else
      var ratio := duration / processingSeconds;
      if ratio > 1.0 then
        var factor := (ratio - 1.0) / 9.0;
        (if factor > 1.0 then 1.0 else factor) * 10.0
      else 0.0
  }

  /** The score before clamping: 50 points, plus up to 40 for the space
      saved, up to 30 for the frame quality and up to 10 for speed. */
  function RawScore(savedPercent: real, quality: real, duration: real, processingSeconds: real): real {
    50.0 + savedPercent / 100.0 * 40.0 + quality / 100.0 * 30.0 + TimeBonus(duration, processingSeconds)
  }

  /** `calculatePerformanceScore`: the raw score kept within 0 .. 100. */
  function PerformanceScore(savedPercent: real, quality: real, duration: real, processingSeconds: real): (s: real)
    ensures 0.0 <= s <= 100.0
    ensures 0.0 <= RawScore(savedPercent, quality, duration, processingSeconds) <= 100.0 ==>
      s == RawScore(savedPercent, quality, duration, processingSeconds)
    ensures savedPercent >= 0.0 && quality >= 0.0 ==> s >= 50.0
  {
    var score := RawScore(savedPercent, quality, duration, processingSeconds);
    if score < 0.0 then 0.0 else if score > 100.0 then 100.0 else score
  }

  /** Saving more space never lowers the score. */
  lemma ScoreMonotoneInSaving(p1: real, p2: real, quality: real, duration: real, processingSeconds: real)
    requires p1 <= p2
    ensures PerformanceScore(p1, quality, duration, processingSeconds)
      <= PerformanceScore(p2, quality, duration, processingSeconds)
  {
  }

  /** A better frame quality never lowers the score. */
  lemma ScoreMonotoneInQuality(savedPercent: real, q1: real, q2: real, duration: real, processingSeconds: real)
    requires q1 <= q2
    ensures PerformanceScore(savedPercent, q1, duration, processingSeconds)
      <= PerformanceScore(savedPercent, q2, duration, processingSeconds)
  {
  }

  // ---------------------------------------------------------------------
  // Tips

  /** The optimisation tips, in the order the report lists them. */
  datatype Tip =
    | AlreadyOptimized
    | TryHevc
    | ScreencastCrf
    | AnimationCrf
    | HighMotionBitrate
    | HighAudioBitrate
    | Downscale720
    | ShortVideo
  {
    function Text(): string {
      match this
      case AlreadyOptimized => "This video was already well optimized or contains content that doesn't compress well."
      case TryHevc => "Try using HEVC (H.265) codec for potentially better compression, although it may reduce compatibility."
      case ScreencastCrf => "Screencasts often benefit from higher CRF values. Consider using CRF 28-32 if quality is acceptable."
      case AnimationCrf => "For animation, consistent quality encoding (CRF) typically works better than targeting a specific bitrate."
      case HighMotionBitrate => "High-motion content requires higher bitrates to maintain quality. Consider a higher quality setting for critical content."
      case HighAudioBitrate => "Audio is using a high bitrate. Consider using 128kbps AAC for most content, or 192kbps for music videos."
      case Downscale720 => "Consider downscaling to 720p if this video doesn't require full HD resolution."
      case ShortVideo => "Short videos often have less compression potential due to fewer redundant frames."
    }

    function Rank(): (r: nat)
      ensures r <= 7
    {
      match this
      case AlreadyOptimized => 0
      case TryHevc => 1
      case ScreencastCrf => 2
      case AnimationCrf => 3
      case HighMotionBitrate => 4
      case HighAudioBitrate => 5
      case Downscale720 => 6
      case ShortVideo => 7
    }
  }

  /** What the tips depend on: the percentage saved, the analysis's codec,
      content type and motion, and the source's audio streams, height and
      duration. */
  datatype TipFacts = TipFacts(
    savedPercent: real,
    recommendedCodec: string,
    contentType: Analyzer.ContentType,
    motion: Analyzer.MotionComplexity,
    audio: seq<AudioStreamInfo>,
    height: int,
    duration: real)

  /** When each tip applies, tip by tip. */
  predicate Applies(t: Tip, f: TipFacts) {
    match t
    case AlreadyOptimized => f.savedPercent < 10.0
    case TryHevc => f.savedPercent < 10.0 && f.recommendedCodec == "libx264"
    case ScreencastCrf => f.contentType == Analyzer.Screencast
    case AnimationCrf => f.contentType == Analyzer.Animation
    case HighMotionBitrate =>
      f.contentType == Analyzer.LiveAction && (f.motion == Analyzer.High || f.motion == Analyzer.VeryHigh)
    case HighAudioBitrate => |f.audio| > 0 && f.audio[0].bitRate > 192000
    case Downscale720 => f.height >= 1080 && f.savedPercent < 30.0
    case ShortVideo => f.duration < 60.0 && f.savedPercent < 20.0
  }

  /** Tips in strictly increasing rank, stated on neighbours. */
  predicate InReportOrder(tips: seq<Tip>) {
    |tips| <= 1 || (tips[0].Rank() < tips[1].Rank() && InReportOrder(tips[1..]))
  }

  /** Tips in report order are in increasing rank pairwise, so no tip is
      listed twice. */
  lemma {:induction false} InReportOrderPairwise(tips: seq<Tip>)
    requires InReportOrder(tips)
    ensures forall i, j :: 0 <= i < j < |tips| ==> tips[i].Rank() < tips[j].Rank()
  {
    if |tips| > 1 {
      InReportOrderPairwise(tips[1..]);
      forall i, j | 0 <= i < j < |tips|
        ensures tips[i].Rank() < tips[j].Rank()
      {
        if i > 0 {
          assert tips[i] == tips[1..][i - 1] && tips[j] == tips[1..][j - 1];
        } else if j > 1 {
          assert tips[1] == tips[1..][0] && tips[j] == tips[1..][j - 1];
        }
      }
    }
  }

  /** An ordered run's ranks lie within `lo .. hi`: it is enough to bound
      its first and last rank. */
  predicate RanksIn(tips: seq<Tip>, lo: nat, hi: nat) {
    |tips| == 0 || (lo <= tips[0].Rank() && tips[|tips| - 1].Rank() <= hi)
  }

  /** Two ordered runs, the second ranked wholly after the first, form one. */
  lemma {:induction false} OrderConcat(a: seq<Tip>, b: seq<Tip>, lo: nat, mid: nat, hi: nat)
    requires lo <= mid <= hi
    requires InReportOrder(a) && RanksIn(a, lo, mid)
    requires InReportOrder(b) && RanksIn(b, mid + 1, hi)
    ensures InReportOrder(a + b) && RanksIn(a + b, lo, hi)
  {
    var ab := a + b;
    if |a| == 0 {
      assert ab == b;
    } else if |b| == 0 {
      assert ab == a;
    } else {
      assert ab[0] == a[0] && ab[|ab| - 1] == b[|b| - 1];
      assert ab[1..] == a[1..] + b;
      if |a| == 1 {
        assert ab[1] == b[0];
        assert ab[1..] == b;
      } else {
        assert ab[1] == a[1];
        InReportOrderPairwise(a);
        OrderConcat(a[1..], b, a[1].Rank(), mid, hi);
      }
    }
  }

  /** The one tip `t` when `cond` holds, otherwise none. */
  function TipIf(cond: bool, t: Tip): (tips: seq<Tip>)
    ensures forall u :: u in tips <==> cond && u == t
    ensures InReportOrder(tips) && RanksIn(tips, t.Rank(), t.Rank())
  {
    if cond then [t] else []
  }

  /** The tips on the percentage saved. */
  function SavingTips(f: TipFacts): (tips: seq<Tip>)
    ensures forall t :: t in tips <==> Applies(t, f) && t.Rank() <= 1
    ensures InReportOrder(tips) && RanksIn(tips, 0, 1)
  {
    if f.savedPercent < 10.0 then
      var hevc := TipIf(f.recommendedCodec == "libx264", TryHevc);
      OrderConcat([AlreadyOptimized], hevc, 0, 0, 1);
      [AlreadyOptimized] + hevc
    else []
  }

  /** The tip on the kind of content. */
  function ContentTips(f: TipFacts): (tips: seq<Tip>)
    ensures forall t :: t in tips <==> Applies(t, f) && 2 <= t.Rank() <= 4
    ensures InReportOrder(tips) && RanksIn(tips, 2, 4)
  {
    match f.contentType
    case Screencast => [ScreencastCrf]
    case Animation => [AnimationCrf]
    case LiveAction => TipIf(f.motion == Analyzer.High || f.motion == Analyzer.VeryHigh, HighMotionBitrate)
    case _ => []
  }

  /** The tips on the source's audio, height and duration. */
  function SourceTips(f: TipFacts): (tips: seq<Tip>)
    ensures forall t :: t in tips <==> Applies(t, f) && 5 <= t.Rank()
    ensures InReportOrder(tips) && RanksIn(tips, 5, 7)
  {
    SourceTipsFacts(f);
    TipIf(|f.audio| > 0 && f.audio[0].bitRate > 192000, HighAudioBitrate)
      + TipIf(f.height >= 1080 && f.savedPercent < 30.0, Downscale720)
      + TipIf(f.duration < 60.0 && f.savedPercent < 20.0, ShortVideo)
  }

  lemma SourceTipsFacts(f: TipFacts)
    ensures var tips :=
      TipIf(|f.audio| > 0 && f.audio[0].bitRate > 192000, HighAudioBitrate)
        + TipIf(f.height >= 1080 && f.savedPercent < 30.0, Downscale720)
        + TipIf(f.duration < 60.0 && f.savedPercent < 20.0, ShortVideo);
      && (forall t :: t in tips <==> Applies(t, f) && 5 <= t.Rank())
      && InReportOrder(tips) && RanksIn(tips, 5, 7)
  {
    var audio := TipIf(|f.audio| > 0 && f.audio[0].bitRate > 192000, HighAudioBitrate);
    var scale := TipIf(f.height >= 1080 && f.savedPercent < 30.0, Downscale720);
    var short := TipIf(f.duration < 60.0 && f.savedPercent < 20.0, ShortVideo);
    var tips := audio + scale + short;
    forall t
      ensures t in tips <==> Applies(t, f) && 5 <= t.Rank()
    {
      assert t in tips <==> t in audio || t in scale || t in short;
    }
    OrderConcat(audio, scale, 5, 5, 6);
    OrderConcat(audio + scale, short, 5, 6, 7);
  }

  /** `generateCompressionTips`: exactly the tips that apply, in report
      order. */
  function CompressionTips(f: TipFacts): (tips: seq<Tip>)
    ensures forall t :: t in tips <==> Applies(t, f)
    ensures InReportOrder(tips)
  {
    var saving := SavingTips(f);
    var content := ContentTips(f);
    var source := SourceTips(f);
    OrderConcat(saving, content, 0, 1, 4);
    OrderConcat(saving + content, source, 0, 4, 7);
    var tips := saving + content + source;
    assert forall t :: t in tips <==> t in saving || t in content || t in source;
    tips
  }

  // ---------------------------------------------------------------------
  // The report

  /** A report on one compression; `result` is absent until the report is
      finalised. Start and completion times are not modelled. */
  datatype Report = Report(
    inputFile: string,
    outputFile: string,
    originalVideo: VideoFile,
    analysis: Analyzer.VideoAnalysis,
    result: Option<Compressor.CompressionResult>,
    tips: seq<Tip>,
    qualityEstimate: QualityLevel,
    timeSaved: real,
    storageSaved: real,
    performanceScore: real)

  /** `CreateReport`: the files, the source and its analysis; no result, no
      tips and zero figures yet. */
  function CreateReport(inputFile: string, outputFile: string, original: VideoFile, analysis: Analyzer.VideoAnalysis): (r: Report)
    ensures r.inputFile == inputFile && r.outputFile == outputFile
    ensures r.originalVideo == original && r.analysis == analysis
    ensures r.result.None? && r.tips == []
  {
    Report(inputFile, outputFile, original, analysis, None, [], Poor, 0.0, 0.0, 0.0)
  }

  /** The facts the tips of a report with this result depend on. */
  function FactsOf(report: Report, result: Compressor.CompressionResult): TipFacts {
    TipFacts(
      result.savedSpacePercent,
      report.analysis.recommendedCodec,
      report.analysis.contentType,
      report.analysis.motionComplexity,
      report.originalVideo.audioInfo,
      report.originalVideo.videoInfo.height,
      report.originalVideo.duration)
  }

  /** `FinalizeReport`: attaches the result, scores it, labels its frame
      quality, works out the megabytes saved and the seconds that saves on
      a 10 Mbit/s link, and picks the tips. */
  function FinalizeReport(report: Report, result: Compressor.CompressionResult): (r: Report)
    ensures r.inputFile == report.inputFile && r.outputFile == report.outputFile
    ensures r.originalVideo == report.originalVideo && r.analysis == report.analysis
    ensures r.result == Some(result)
    ensures 0.0 <= r.performanceScore <= 100.0
    ensures r.performanceScore == PerformanceScore(result.savedSpacePercent, result.averageFrameQuality,
                                                   report.originalVideo.duration, result.processingSeconds)
    ensures InBand(r.qualityEstimate, result.averageFrameQuality)
    ensures r.storageSaved * 1048576.0 == result.savedSpaceBytes as real
    ensures r.timeSaved * 10.0 == r.storageSaved * 8.0
    ensures r.timeSaved > 0.0 <==> result.savedSpaceBytes > 0
    ensures forall t :: t in r.tips <==> Applies(t, FactsOf(report, result))
    ensures InReportOrder(r.tips)
  {
    var megabytes := result.savedSpaceBytes as real / 1048576.0;
    report.(
      result := Some(result),
      performanceScore := PerformanceScore(
        result.savedSpacePercent, result.averageFrameQuality,
        report.originalVideo.duration, result.processingSeconds),
      qualityEstimate := QualityEstimate(result.averageFrameQuality),
      timeSaved := megabytes * 8.0 / 10.0,
      storageSaved := megabytes,
      tips := CompressionTips(FactsOf(report, result)))
  }

  /** The HEVC tip asks for the encoder name `libx264`, but the analysis
      recommends a codec family (`hevc`, `vp9` or `h264`), so a report on
      an analysed video never lists it. */
  lemma TryHevcNeverListed(inputFile: string, outputFile: string, original: VideoFile,
                           v: VideoFile, sceneChanges: Option<nat>, frameComplexity: Option<real>, spatial: real,
                           result: Compressor.CompressionResult)
    ensures var analysis := Analyzer.AnalyzeVideo(v, sceneChanges, frameComplexity, spatial);
      TryHevc !in FinalizeReport(CreateReport(inputFile, outputFile, original, analysis), result).tips
  {
  }

  // ---------------------------------------------------------------------
  // Report file

  /** `SaveReportToFile`'s path: next to the output file, named after it
      without its extension, with `_report.txt` appended. */
  function ReportPath(outputFile: string): (r: string)
    ensures r != ""
  {
    var base := Paths.Base(outputFile);
    Paths.Join(Paths.Dir(outputFile), Text.TrimSuffix(base, Paths.Ext(base)) + "_report.txt")
  }

  /** A name without slashes, with something after the name, is a clean
      relative path of one element. */
  lemma ReportNameClean(stem: string)
    requires '/' !in stem
    ensures Paths.IsCleanRelative(stem + "_report.txt")
  {
    var n := stem + "_report.txt";
    assert n[|n| - 1] == 't';
    assert '/' !in n by {
      assert forall i :: |stem| <= i < |n| ==> n[i] != '/';
    }
    Text.SplitNoSep(n, '/');
  }

  /** The report path from the output's directory and its name without
      the extension. */
  lemma ReportPathFrom(out: string, dir: string, stem: string)
    requires Paths.Dir(out) == dir
    requires Text.TrimSuffix(Paths.Base(out), Paths.Ext(Paths.Base(out))) == stem
    ensures ReportPath(out) == Paths.Join(dir, stem + "_report.txt")
  {
  }

  /** A name without slashes ending in an extension loses exactly that
      extension. */
  lemma StemOfName(stem: string, ext: string)
    requires '/' !in stem
    requires ext != "" && ext[0] == '.' && '.' !in ext[1..] && '/' !in ext
    ensures '/' !in stem + ext
    ensures Text.TrimSuffix(stem + ext, Paths.Ext(stem + ext)) == stem
  {
    var name := stem + ext;
    assert forall i :: |stem| <= i < |name| ==> name[i] == ext[i - |stem|];
    Paths.ExtOfSuffix(stem, ext);
  }

  /** The report for `dir/stem.ext` is `dir/stem_report.txt`. */
  lemma ReportPathInDir(dir: string, stem: string, ext: string)
    requires Paths.IsCleanRelative(dir)
    requires '/' !in stem
    requires ext != "" && ext[0] == '.' && '.' !in ext[1..] && '/' !in ext
    ensures ReportPath(dir + "/" + (stem + ext)) == dir + "/" + (stem + "_report.txt")
  {
    var name := stem + ext;
    StemOfName(stem, ext);
    Paths.BaseOfJoined(dir, name);
    Paths.DirOfJoined(dir, name);
    ReportPathFrom(dir + "/" + name, dir, stem);
    ReportNameClean(stem);
    Paths.JoinCleanRelative(dir, stem + "_report.txt");
  }

  /** The report for a bare `stem.ext` in the working directory is
      `stem_report.txt`. */
  lemma ReportPathBare(stem: string, ext: string)
    requires '/' !in stem
    requires ext != "" && ext[0] == '.' && '.' !in ext[1..] && '/' !in ext
    ensures ReportPath(stem + ext) == stem + "_report.txt"
  {
    var name := stem + ext;
    StemOfName(stem, ext);
    Paths.BaseNoSlash(name);
    Paths.DirNoSlash(name);
    ReportPathFrom(name, ".", stem);
    ReportNameClean(stem);
    Paths.JoinDot(stem + "_report.txt");
  }
}

=== FILE: settings.dfy ===
/**
 The typed compression settings record and its conversion to and from the
 string map the analyzer produces and the compressor consumes.
 */
module Settings {
  import opened Wrappers
  import Numbers

  /** Encoder settings. `crf`, `bitrate` and `audioBitrate` are 64-bit
      integers; bit rates are bits per second. */
  datatype CompressionSettings = CompressionSettings(
    codec: string,
    crf: int,
    preset: string,
    bitrate: int,
    audioCodec: string,
    audioBitrate: int,
    codecParams: string,
    extraParams: map<string, string>)

  /** The map keys that name a field of the record. */
  const ReservedKeys: set<string> :=
    {"codec", "crf", "preset", "bitrate", "audio_codec", "audio_bitrate", "codec_params"}

  /** The numeric fields hold values of their 64-bit Go types. */
  predicate FieldsInRange(cs: CompressionSettings) {
    Numbers.IsInt64(cs.crf) && Numbers.IsInt64(cs.bitrate) && Numbers.IsInt64(cs.audioBitrate)
  }

  /** H.264 at CRF 23 with the medium preset and 128 kbps AAC audio; no
      target bitrate, codec parameters or extras. */
  function NewCompressionSettings(): (cs: CompressionSettings)
    ensures cs.codec == "h264" && cs.crf == 23 && cs.preset == "medium"
    ensures cs.bitrate == 0 && cs.audioCodec == "aac" && cs.audioBitrate == 128000
    ensures cs.codecParams == "" && cs.extraParams == map[]
    ensures FieldsInRange(cs)
  {
    CompressionSettings("h264", 23, "medium", 0, "aac", 128000, "", map[])
  }

  /** `parseInt`/`parseInt64`: `fmt.Sscanf` with `%d`; `None` on a scan
      error. */
  function ParseInt(s: string): (r: Option<int>)
    ensures r.Some? ==> Numbers.IsInt64(r.value)
  {
    Numbers.ScanInt(s)
  }

  /** `formatInt`/`formatInt64` render a number that `parseInt`/`parseInt64`
      read back. */
  lemma ParseFormatInt(n: int)
    requires Numbers.IsInt64(n)
    ensures ParseInt(Numbers.FormatInt(n)) == Some(n)
  {
    Numbers.ScanFormatInt(n);
  }

  /** The value a numeric key sets: its parsed value, or `default` when the
      key is absent or does not parse. */
  function NumericField(m: map<string, string>, key: string, default: int): (v: int)
    ensures key !in m ==> v == default
    ensures key in m && ParseInt(m[key]).None? ==> v == default
    ensures key in m && ParseInt(m[key]).Some? ==> v == ParseInt(m[key]).value
  {
    if key in m then ParseInt(m[key]).GetOr(default) else default
  }

  /** The value a text key sets: its value, or `default` when absent. */
  function TextField(m: map<string, string>, key: string, default: string): (v: string)
    ensures key in m ==> v == m[key]
    ensures key !in m ==> v == default
  {
    if key in m then m[key] else default
  }

  /** The settings a map describes: each field from its key, the default
      where the key is absent or its number does not parse, and every
      other key as an extra parameter. */
  function FromMap(m: map<string, string>): (cs: CompressionSettings)
    ensures cs.extraParams.Keys == m.Keys - ReservedKeys
    ensures forall k :: k in cs.extraParams ==> cs.extraParams[k] == m[k]
    ensures "codec" in m ==> cs.codec == m["codec"]
    ensures "codec" !in m ==> cs.codec == NewCompressionSettings().codec
    ensures "crf" in m && ParseInt(m["crf"]).Some? ==> cs.crf == ParseInt(m["crf"]).value
    ensures "crf" !in m || ParseInt(m["crf"]).None? ==> cs.crf == NewCompressionSettings().crf
    ensures "bitrate" in m && ParseInt(m["bitrate"]).Some? ==> cs.bitrate == ParseInt(m["bitrate"]).value
    ensures "bitrate" !in m || ParseInt(m["bitrate"]).None? ==> cs.bitrate == 0
    ensures "preset" in m ==> cs.preset == m["preset"]
    ensures "preset" !in m ==> cs.preset == "medium"
    ensures "audio_codec" in m ==> cs.audioCodec == m["audio_codec"]
    ensures "audio_codec" !in m ==> cs.audioCodec == "aac"
    ensures "audio_bitrate" in m && ParseInt(m["audio_bitrate"]).Some? ==>
      cs.audioBitrate == ParseInt(m["audio_bitrate"]).value
    ensures "audio_bitrate" !in m || ParseInt(m["audio_bitrate"]).None? ==> cs.audioBitrate == 128000
    ensures "codec_params" in m ==> cs.codecParams == m["codec_params"]
    ensures "codec_params" !in m ==> cs.codecParams == ""
    ensures FieldsInRange(cs)
  {
    var d := NewCompressionSettings();
    CompressionSettings(
      TextField(m, "codec", d.codec),
      NumericField(m, "crf", d.crf),
      TextField(m, "preset", d.preset),
      NumericField(m, "bitrate", d.bitrate),
      TextField(m, "audio_codec", d.audioCodec),
      NumericField(m, "audio_bitrate", d.audioBitrate),
      TextField(m, "codec_params", d.codecParams),
      map k | k in m && k !in ReservedKeys :: m[k])
  }

  /** An empty map describes the defaults. */
  lemma FromEmptyMap()
    ensures FromMap(map[]) == NewCompressionSettings()
  {
    var empty: map<string, string> := map[];
    assert FromMap(empty).extraParams == map[];
  }

  /** The five fields every map carries. */
  function AlwaysFields(cs: CompressionSettings): (m: map<string, string>)
    ensures m.Keys == {"codec", "crf", "preset", "audio_codec", "audio_bitrate"}
    ensures m["codec"] == cs.codec && m["preset"] == cs.preset && m["audio_codec"] == cs.audioCodec
    ensures m["crf"] == Numbers.FormatInt(cs.crf) && m["audio_bitrate"] == Numbers.FormatInt(cs.audioBitrate)
  {
    map[
      "codec" := cs.codec,
      "crf" := Numbers.FormatInt(cs.crf),
      "preset" := cs.preset,
      "audio_codec" := cs.audioCodec,
      "audio_bitrate" := Numbers.FormatInt(cs.audioBitrate)]
  }

  /** The map of the fields alone, before the extras are copied in. */
  function FieldMap(cs: CompressionSettings): (m: map<string, string>)
    ensures m.Keys <= ReservedKeys
    ensures {"codec", "crf", "preset", "audio_codec", "audio_bitrate"} <= m.Keys
    ensures "bitrate" in m <==> cs.bitrate > 0
    ensures "codec_params" in m <==> cs.codecParams != ""
    ensures m["codec"] == cs.codec && m["preset"] == cs.preset && m["audio_codec"] == cs.audioCodec
    ensures m["crf"] == Numbers.FormatInt(cs.crf) && m["audio_bitrate"] == Numbers.FormatInt(cs.audioBitrate)
    ensures "bitrate" in m ==> m["bitrate"] == Numbers.FormatInt(cs.bitrate)
    ensures "codec_params" in m ==> m["codec_params"] == cs.codecParams
  {
    var always := AlwaysFields(cs);
    assert "bitrate" !in always && "codec_params" !in always;
    var withBitrate := if cs.bitrate > 0 then always["bitrate" := Numbers.FormatInt(cs.bitrate)] else always;
    assert forall k :: k in always ==> k in withBitrate && withBitrate[k] == always[k];
    assert "codec_params" !in withBitrate;
    if cs.codecParams != "" then withBitrate["codec_params" := cs.codecParams] else withBitrate
  }

  /** The settings as a string map: the fields, with `bitrate` only when
      positive and `codec_params` only when non-empty, and then every extra
      parameter, which overrides a field of the same name. */
  function ToMap(cs: CompressionSettings): (m: map<string, string>)
    ensures m.Keys == FieldMap(cs).Keys + cs.extraParams.Keys
    ensures forall k :: k in cs.extraParams ==> m[k] == cs.extraParams[k]
    ensures forall k :: k in m && k !in cs.extraParams ==> k in ReservedKeys && m[k] == FieldMap(cs)[k]
  {
    FieldMap(cs) + cs.extraParams
  }

  /** Removing the field keys from the fields-and-extras key set leaves
      the extras' keys when they are disjoint from the field keys. */
  lemma KeysWithoutFields(fields: set<string>, extras: set<string>, reserved: set<string>)
    requires fields <= reserved && extras !! reserved
    ensures (fields + extras) - reserved == extras
  {
  }

  /** Two maps with the same keys and the same value at each key are the
      same map. */
  lemma SameMap(a: map<string, string>, b: map<string, string>)
    requires a.Keys == b.Keys
    requires forall k :: k in a ==> a[k] == b[k]
    ensures a == b
  {
  }

  /** The extras survive the round trip when none shadows a field. */
  lemma ExtrasRoundTrip(cs: CompressionSettings)
    requires cs.extraParams.Keys !! ReservedKeys
    ensures FromMap(ToMap(cs)).extraParams == cs.extraParams
  {
    var m := ToMap(cs);
    var back := FromMap(m).extraParams;
    KeysWithoutFields(FieldMap(cs).Keys, cs.extraParams.Keys, ReservedKeys);
    SameMap(back, cs.extraParams);
  }

  /** Converting settings to a map and back gives them back, as long as the
      target bitrate is not negative (a negative one is dropped) and no
      extra parameter shadows a field. */
  lemma FromMapToMap(cs: CompressionSettings)
    requires FieldsInRange(cs)
    requires cs.bitrate >= 0
    requires cs.extraParams.Keys !! ReservedKeys
    ensures FromMap(ToMap(cs)) == cs
  {
    var m := ToMap(cs);
    var f := FieldMap(cs);
    var back := FromMap(m);
    ParseFormatInt(cs.crf);
    ParseFormatInt(cs.audioBitrate);
    ParseFormatInt(cs.bitrate);
    assert forall k :: k in ReservedKeys ==> (k in m <==> k in f) && (k in m ==> m[k] == f[k]);
    ExtrasRoundTrip(cs);
  }
}

=== FILE: text.dfy ===
/**
 The subset of Go's `strings` package (and the byte-length view of Go
 strings) that the settings pipeline relies on. Strings are sequences of
 Unicode scalar values; where Go measures a string in UTF-8 bytes the model
 says so explicitly with `Utf8Len`.
 */
module Text {

  /** Go's `unicode.IsSpace`, which is also what `strings.TrimSpace` and the
      `fmt` scanner treat as white space. */
  predicate IsGoSpace(c: char) {
    || ('\t' <= c <= '\r')
    || c == ' '
    || c == '\U{85}'
    || c == '\U{A0}'
    || c == '\U{1680}'
    || ('\U{2000}' <= c <= '\U{200A}')
    || c == '\U{2028}'
    || c == '\U{2029}'
    || c == '\U{202F}'
    || c == '\U{205F}'
    || c == '\U{3000}'
  }

  /** Number of bytes `c` occupies in UTF-8. */
  function Utf8Width(c: char): (w: nat)
    ensures 1 <= w <= 4
    ensures w == 1 <==> (c as int) < 0x80
  {
    if (c as int) < 0x80 then 1
    else if (c as int) < 0x800 then 2
    else if (c as int) < 0x10000 then 3
    else 4
  }

  /** Go's `len(s)`: the length of `s` in UTF-8 bytes. */
  function Utf8Len(s: string): (n: nat)
    ensures |s| <= n <= 4 * |s|
  {
    if |s| == 0 then 0 else Utf8Width(s[0]) + Utf8Len(s[1..])
  }

  /** Go's `strings.Contains(s, sub)`. */
  predicate Contains(s: string, sub: string)
    decreases |s|
  {
    sub <= s || (|s| > 0 && Contains(s[1..], sub))
  }

  /** Every string contains its own prefixes, shifted by `k` characters. */
  lemma {:induction false} ContainsAt(s: string, k: nat, sub: string)
    requires k <= |s| && sub <= s[k..]
    ensures Contains(s, sub)
    decreases k
  {
    if k > 0 {
      assert s[1..][k - 1..] == s[k..];
      ContainsAt(s[1..], k - 1, sub);
    }
  }

  /** `sub` occurs in `s` exactly when it starts some suffix of `s`; in
      particular only texts at least as long as `sub` contain it. */
  lemma {:induction false} ContainsIff(s: string, sub: string)
    ensures Contains(s, sub) <==> exists k :: 0 <= k <= |s| && sub <= s[k..]
    ensures Contains(s, sub) ==> |sub| <= |s|
    decreases |s|
  {
    if exists k :: 0 <= k <= |s| && sub <= s[k..] {
      var k :| 0 <= k <= |s| && sub <= s[k..];
      ContainsAt(s, k, sub);
    }
    if Contains(s, sub) && !(sub <= s) {
      ContainsIff(s[1..], sub);
      var k :| 0 <= k <= |s[1..]| && sub <= s[1..][k..];
      assert s[1..][k..] == s[k + 1..];
    }
  }

  /** `s` contains `a` or `b` exactly when one of them starts some suffix
      of `s`. */
  lemma ContainsEitherIff(s: string, a: string, b: string)
    ensures Contains(s, a) || Contains(s, b) <==> exists k :: 0 <= k <= |s| && (a <= s[k..] || b <= s[k..])
  {
    ContainsIff(s, a);
    ContainsIff(s, b);
    if exists k :: 0 <= k <= |s| && (a <= s[k..] || b <= s[k..]) {
      var k :| 0 <= k <= |s| && (a <= s[k..] || b <= s[k..]);
      if a <= s[k..] {
        ContainsAt(s, k, a);
      } else {
        ContainsAt(s, k, b);
      }
    }
  }

  /** Go's `strings.ToLower`, restricted to ASCII letters. */
  function LowerChar(c: char): char {
    if 'A' <= c <= 'Z' then (c as int + 32) as char else c
  }

  function ToLower(s: string): (r: string)
    ensures |r| == |s|
    ensures forall i :: 0 <= i < |s| ==> r[i] == LowerChar(s[i])
  {
    if |s| == 0 then "" else [LowerChar(s[0])] + ToLower(s[1..])
  }

  predicate HasSuffix(s: string, suffix: string) {
    |suffix| <= |s| && s[|s| - |suffix|..] == suffix
  }

  /** Go's `strings.TrimSuffix`. */
  function TrimSuffix(s: string, suffix: string): (r: string)
    ensures HasSuffix(s, suffix) ==> r + suffix == s
    ensures !HasSuffix(s, suffix) ==> r == s
  {
    if HasSuffix(s, suffix) then s[..|s| - |suffix|] else s
  }

  /** Go's `strings.TrimLeft(s, <white space>)`. */
  function TrimLeftSpace(s: string): (r: string)
    ensures |r| <= |s| && r == s[|s| - |r|..]
    ensures |r| == 0 || !IsGoSpace(r[0])
    ensures forall i :: 0 <= i < |s| - |r| ==> IsGoSpace(s[i])
  {
    if |s| > 0 && IsGoSpace(s[0]) then TrimLeftSpace(s[1..]) else s
  }

  /** Text that does not start with white space has none to trim on the
      left. */
  lemma TrimLeftUnspaced(s: string)
    requires |s| > 0 && !IsGoSpace(s[0])
    ensures TrimLeftSpace(s) == s
  {
  }

  /** Go's `strings.TrimRight(s, <white space>)`. */
  function TrimRightSpace(s: string): (r: string)
    ensures r <= s
    ensures |r| == 0 || !IsGoSpace(r[|r| - 1])
    ensures forall i :: |r| <= i < |s| ==> IsGoSpace(s[i])
  {
    if |s| > 0 && IsGoSpace(s[|s| - 1]) then TrimRightSpace(s[..|s| - 1]) else s
  }

  /** Go's `strings.TrimSpace`. */
  function TrimSpace(s: string): (r: string)
    ensures |r| <= |s|
    ensures |r| == 0 || (!IsGoSpace(r[0]) && !IsGoSpace(r[|r| - 1]))
  {
    TrimRightSpace(TrimLeftSpace(s))
  }

  /** Text that neither starts nor ends with white space trims to itself. */
  lemma TrimSpaceOfUnspaced(s: string)
    requires |s| > 0 && !IsGoSpace(s[0]) && !IsGoSpace(s[|s| - 1])
    ensures TrimSpace(s) == s
  {
  }

  /** Go's `strings.IndexByte`/`strings.Index` for a one-character needle:
      the first position of `c`, or -1. */
  function IndexOf(s: string, c: char): (r: int)
    ensures -1 <= r < |s|
    ensures r == -1 <==> c !in s
    ensures r >= 0 ==> s[r] == c && c !in s[..r]
  {
    if |s| == 0 then -1
    else if s[0] == c then 0
    else
      var k := IndexOf(s[1..], c);
      assert s[1..] == s[1..][..|s| - 1];
      if k == -1 then -1
      else
        assert s[..k + 1] == [s[0]] + s[1..][..k];
        k + 1
  }

  /** The last position of `c` in `s`, or -1. */
  function LastIndexOf(s: string, c: char): (r: int)
    ensures -1 <= r < |s|
    ensures r == -1 <==> c !in s
    ensures r >= 0 ==> s[r] == c && c !in s[r + 1..]
  {
    if |s| == 0 then -1
    else if s[|s| - 1] == c then |s| - 1
    else
      var init := s[..|s| - 1];
      assert s == init + [s[|s| - 1]];
      var k := LastIndexOf(init, c);
      LastIndexOfStep(s, init, k, c);
      k
  }

  lemma LastIndexOfStep(s: string, init: string, k: int, c: char)
    requires |s| > 0 && init == s[..|s| - 1] && s[|s| - 1] != c
    requires -1 <= k < |init|
    requires k == -1 <==> c !in init
    requires k >= 0 ==> init[k] == c && c !in init[k + 1..]
    ensures k == -1 <==> c !in s
    ensures k >= 0 ==> s[k] == c && c !in s[k + 1..]
  {
    assert s == init + [s[|s| - 1]];
    if k >= 0 {
      assert s[k + 1..] == init[k + 1..] + [s[|s| - 1]];
    }
  }

  /** The last occurrence is the one with no further occurrence after it. */
  lemma {:induction false} LastIndexOfUnique(s: string, c: char, k: int)
    requires 0 <= k < |s| && s[k] == c && c !in s[k + 1..]
    ensures LastIndexOf(s, c) == k
    decreases |s|
  {
    if k < |s| - 1 {
      var init := s[..|s| - 1];
      assert s[|s| - 1] in s[k + 1..];
      assert init[k + 1..] == s[k + 1..|s| - 1];
      LastIndexOfUnique(init, c, k);
    }
  }

  /** Glues `parts` back together with `sep` between consecutive parts;
      the inverse of `Split`. */
  function JoinWith(parts: seq<string>, sep: char): string {
    if |parts| == 0 then ""
    else if |parts| == 1 then parts[0]
    else parts[0] + [sep] + JoinWith(parts[1..], sep)
  }

  /** Number of occurrences of `c` in `s`. */
  function Count(s: string, c: char): nat {
    if |s| == 0 then 0 else (if s[0] == c then 1 else 0) + Count(s[1..], c)
  }

  lemma {:induction false} CountAppend(a: string, b: string, c: char)
    ensures Count(a + b, c) == Count(a, c) + Count(b, c)
  {
    if |a| > 0 {
      assert (a + b)[1..] == a[1..] + b;
      CountAppend(a[1..], b, c);
    } else {
      assert a + b == b;
    }
  }

  lemma {:induction false} CountAbsent(s: string, c: char)
    requires c !in s
    ensures Count(s, c) == 0
  {
    if |s| > 0 {
      CountAbsent(s[1..], c);
    }
  }

  /** Go's `strings.Split(s, string(sep))`: the pieces between occurrences
      of `sep`, read one character at a time. */
  function Split(s: string, sep: char): (parts: seq<string>)
    ensures |parts| >= 1
  {
    if |s| == 0 then [""]
    else
      var rest := Split(s[1..], sep);
      if s[0] == sep then [""] + rest
      else [[s[0]] + rest[0]] + rest[1..]
  }

  /** The first piece is empty exactly when the string is empty or starts
      with the separator. */
  lemma SplitFirstEmpty(s: string, sep: char)
    ensures Split(s, sep)[0] == "" <==> (s == "" || s[0] == sep)
  {
  }

  /** Prepending a character to the first part prepends it to the joined
      string. */
  lemma JoinWithConsFirst(c: char, parts: seq<string>, sep: char)
    requires |parts| >= 1
    ensures JoinWith([[c] + parts[0]] + parts[1..], sep) == [c] + JoinWith(parts, sep)
  {
    var ps := [[c] + parts[0]] + parts[1..];
    assert ps[1..] == parts[1..];
  }

  /** There is one more piece than there are separators, no piece contains
      the separator, and joining the pieces gives the string back. */
  lemma {:induction false} SplitSpec(s: string, sep: char)
    ensures |Split(s, sep)| == Count(s, sep) + 1
    ensures forall i :: 0 <= i < |Split(s, sep)| ==> sep !in Split(s, sep)[i]
    ensures JoinWith(Split(s, sep), sep) == s
  {
    if |s| > 0 {
      var rest := Split(s[1..], sep);
      SplitSpec(s[1..], sep);
      if s[0] == sep {
        assert ([""] + rest)[1..] == rest;
      } else {
        JoinWithConsFirst(s[0], rest, sep);
        var parts := Split(s, sep);
        assert parts[0] == [s[0]] + rest[0];
        forall i | 1 <= i < |parts|
          ensures sep !in parts[i]
        {
          assert parts[i] == rest[i];
        }
      }
      assert s == [s[0]] + s[1..];
    }
  }

  /** Splitting at a separator placed between two strings splits each side
      on its own. */
  lemma {:induction false} SplitAppend(x: string, y: string, sep: char)
    ensures Split(x + [sep] + y, sep) == Split(x, sep) + Split(y, sep)
  {
    var s := x + [sep] + y;
    if |x| == 0 {
      assert s == [sep] + y;
      assert s[1..] == y;
    } else {
      var c := x[0];
      var t := x[1..] + [sep] + y;
      assert x == [c] + x[1..];
      assert s == [c] + t;
      SplitAppend(x[1..], y, sep);
      SplitCons(c, t, sep);
      SplitCons(c, x[1..], sep);
      GlueFirst(c, sep, Split(x[1..], sep), Split(y, sep));
    }
  }

  /** One step of `Split`: the first character either ends an empty first
      piece or joins the first piece of the rest. */
  lemma SplitCons(c: char, t: string, sep: char)
    ensures Split([c] + t, sep)
      == if c == sep then [""] + Split(t, sep) else [[c] + Split(t, sep)[0]] + Split(t, sep)[1..]
  {
    assert ([c] + t)[1..] == t;
  }

  lemma GlueFirst(c: char, sep: char, a: seq<string>, b: seq<string>)
    requires |a| >= 1
    ensures (if c == sep then [""] + (a + b) else [[c] + (a + b)[0]] + (a + b)[1..])
      == (if c == sep then [""] + a else [[c] + a[0]] + a[1..]) + b
  {
    if c != sep {
      assert (a + b)[0] == a[0];
      assert (a + b)[1..] == a[1..] + b;
    }
  }

  /** A string without the separator is a single piece. */
  lemma {:induction false} SplitNoSep(s: string, sep: char)
    requires sep !in s
    ensures Split(s, sep) == [s]
  {
    if |s| > 0 {
      assert sep !in s[1..];
      SplitNoSep(s[1..], sep);
      assert s == [s[0]] + s[1..];
    }
  }
}

=== FILE: video.dfy ===
/**
 The probed metadata of a video file: the container, its one video stream
 and its audio streams, as ffprobe reports them.
 */
module Video {

  /** The video stream's properties. Frame rate is a real number of frames
      per second; bit rates are bits per second. */
  datatype VideoStreamInfo = VideoStreamInfo(
    codec: string,
    width: int,
    height: int,
    fps: real,
    bitRate: int,
    pixelFormat: string,
    colorSpace: string,
    isHdr: bool,
    hasBFrames: bool,
    profileLevel: string)

  /** One audio stream. */
  datatype AudioStreamInfo = AudioStreamInfo(
    index: int,
    codec: string,
    channels: int,
    sampleRate: int,
    bitRate: int,
    language: string)

  /** A video file: its path, size in bytes, container format, duration in
      seconds, overall bit rate, the video stream, the audio streams in
      stream order, and further metadata. */
  datatype VideoFile = VideoFile(
    path: string,
    size: int,
    format: string,
    duration: real,
    bitRate: int,
    videoInfo: VideoStreamInfo,
    audioInfo: seq<AudioStreamInfo>,
    metadata: map<string, string>)
}

=== FILE: wrappers.dfy ===
/**
 Failure-compatible wrappers shared by the whole model: `Option` stands for a
 Go value that may be absent (a nil pointer, a failed parse, a missing map key)
 and `Result` for a Go `(value, error)` pair.
 */
module Wrappers {

  datatype Option<+T> = None | Some(value: T) {

    /** Returns the wrapped value, or `default` when absent. */
    function GetOr(default: T): T {
      match this
      case Some(v) => v
      case None => default
    }
  }

  datatype Result<+T, +E> = Success(value: T) | Failure(error: E) {

    predicate IsFailure() {
      Failure?
    }

    function PropagateFailure<U>(): Result<U, E>
      requires Failure?
    {
      Failure(error)
    }

    function Extract(): T
      requires Success?
    {
      value
    }
  }
}
